=== FILE: README.md ===
# Atlas agroécologie — a verified model of the application's logic

The atlas collects agro-ecological initiatives. Visitors propose an initiative
through a form. An administrator validates or rejects it, and approved
initiatives appear on a map and in a table. The server is an Express
application over MySQL, the client is written in React, and a Python script
imports a survey spreadsheet.

This project models in Dafny the sequential logic under that glue:

- **Initiatives** (`DataRoutes`, `Columns`, `Store`): the table as a sequence of
  rows with unique ids, and every route of `/api/data` as a pure function from
  the store and the caller to a new store and an HTTP status. The routes are
  create, list, delete, validate, reject, cancel-delete, mine, request-delete,
  get and update. The model includes how the serialised columns are normalised
  and how photos are attached.
- **Access control** (`AuthMiddleware`): bearer-token extraction, the
  401/403 rules of `authenticateToken`, and `requireRole`.
- **Accounts** (`Accounts`, `EmailRule`, `UserAdmin`): registration with the
  address pattern and case-insensitive uniqueness, confirmation, the order of
  the login checks, the password reset, and the admin user routes.
- **Custom fields** (`CustomFields`, `FieldsManager`): the listing scoped by
  dytael (the local territory a field belongs to), and creation with its
  defaults. The admin screen that posts new fields is modelled with it.
- **Client pages**, as pure functions over their state:
  - the map page (`Carto`, `FilterControls`, `Sidebar`);
  - the moderation dashboard (`AdminDashboard`);
  - the table (`TableView`);
  - the submission form (`FormInput`);
  - the filter panel (`FilterPanel`);
  - the admin edit page (`EditInitiatives`);
  - the sign-up page (`RegisterPage`).

  Their shared JSON-column parsers are in `ClientValues`, and JavaScript
  values in `JsValues`.
- **The CSV importer** (`CsvImport`): how one spreadsheet row becomes one
  initiative row.

Some operations are external and become parameters:

- `JSON.parse`/`JSON.stringify` (`Codec`);
- `jwt.verify` (`Verifier`);
- `bcrypt` (`Hasher`, `PasswordCheck`);
- `parseFloat` and Python's `float`;
- the clock;
- the date parser and `localeCompare` of the dashboard.

Every other step is written out: `parseInt`, `String.prototype.split`/`trim`,
the address pattern, the sort, the counters.

## Model

| member | source | states |
|---|---|---|
| AuthMiddleware.BearerToken | server/middleware/authMiddleware.js:6-9 | the token is the second space-separated word of the header; when present it is non-empty and holds no space; no header gives no token |
| AuthMiddleware.BearerTokenOfScheme | server/middleware/authMiddleware.js:7 | a header `Bearer <token>`, with or without further words, yields exactly that token |
| AuthMiddleware.NoSpaceNoToken | server/middleware/authMiddleware.js:7-9 | a header without a space (a bare token, or just the scheme) yields no token |
| AuthMiddleware.Authenticate | server/middleware/authMiddleware.js:5-16 | 401 exactly when there is no token; 403 exactly when a token is present but does not verify; otherwise the request proceeds with the token's payload as the user |
| AuthMiddleware.RequireRole | server/middleware/authMiddleware.js:19-25 | passes only a user whose role is one of the listed roles; an authenticated user with another or no role gets 403; an earlier refusal is kept |
| AuthMiddleware.AdminGate | server/middleware/authMiddleware.js:5-25 | the chain passes exactly the authenticated callers whose role is admin; everyone else is stopped with 401 or 403 |
| EmailRule.MatchesIffWellFormed | server/routes/auth.js:28-31 | the address pattern accepts a string if and only if it has no whitespace, exactly one '@', a non-empty local part, and a '.' in the domain with text on both sides |
| Accounts.Register | server/routes/auth.js:12-82 | 201 if and only if all six fields are given, the address matches the pattern and no account has it in any case; the new account is appended with the next id, the address lowercased, the password hashed, role editor, unconfirmed; every refusal is 400 and changes nothing |
| Accounts.RegisterKeepsInvariants | server/routes/auth.js:38-52 | registration keeps ids unique and below the counter, and keeps addresses unique up to case |
| Accounts.RegisterTwiceRefused | server/routes/auth.js:38-41 | once an address is registered, registering it again in any mix of case is refused with 400 |
| Accounts.ConfirmWhereIdempotent | server/routes/auth.js:93-96 | confirming the same id twice is the same as once, and a confirmed account stays confirmed |
| Accounts.Confirm | server/routes/auth.js:85-103 | a token that does not verify gives 400 and no change; otherwise 200, and an account becomes confirmed exactly when it already was or its id is the token's id |
| Accounts.ConfirmIdempotent | server/routes/auth.js:85-103 | following a confirmation link twice gives the same store and reply as once |
| Accounts.FirstWithEmail | server/routes/auth.js:110-111 | the row found has exactly the given address; nothing is found only when no row has it |
| Accounts.Login | server/routes/auth.js:106-145 | the checks come in order: unknown address 401, then unconfirmed account 403 whatever the password, then a missing password 500 (bcrypt throws), then a wrong password 401; 200 exactly for a confirmed account with the right password, which returns its profile and records the login time; a refusal changes nothing |
| Accounts.LoginTouchesOnlyLastLogin | server/routes/auth.js:126 | a login changes no column of any account except the last-login time |
| Accounts.RequestReset | server/routes/auth.js:152-170 | a missing address gives 400; otherwise 200 with the same notice; the store never changes |
| Accounts.RequestResetHidesAccounts | server/routes/auth.js:156-165 | two stores, with and without the account, give the same status and the same body for the same address |
| Accounts.CheckResetToken | server/routes/auth.js:173-181 | 200 exactly when the reset token verifies, 400 otherwise |
| Accounts.ApplyReset | server/routes/auth.js:184-199 | a missing password or one shorter than 8 characters gives 400; otherwise 200 exactly when the token verifies, and then only the password of the token's account is replaced by the hash; every refusal is 400 and changes nothing |
| Accounts.ShortPasswordRefusedFirst | server/routes/auth.js:187-189 | a short password gets the same reply whatever the token and the verifier, so the length check runs before the token is looked at |
| UserAdmin.ListUsers | server/routes/users.js:7-18 | only an admin gets 200 (others 401 or 403); the listing has one view per account, in table order, with id, address, role, names, phone, dates and confirmation, and no password or organization |
| UserAdmin.UpdateUser | server/routes/users.js:21-33 | for an admin, the account with that id takes the six edited columns; its id, password, confirmation and dates are untouched, and every other account is unchanged; anyone else changes nothing |
| UserAdmin.ConfirmUser | server/routes/users.js:36-45 | for an admin, the account with that id becomes confirmed and no other changes; anyone else changes nothing |
| UserAdmin.ConfirmUserIdempotent | server/routes/users.js:36-40 | confirming a user twice gives the same store and reply as once |
| UserAdmin.DeleteUser | server/routes/users.js:48-57 | for an admin, the remaining accounts are exactly those with another id, in their order; initiatives are untouched; anyone else changes nothing |
| UserAdmin.DeleteUserKeepsValid | server/routes/users.js:48-52 | deleting an account keeps account ids unique and below the counter |
| CustomFields.ListFields | server/routes/customFields.js:8-18 | the listing keeps table order, always includes every global field, includes every field of the given non-empty dytael, and includes no field of any other dytael |
| CustomFields.UnscopedListsGlobalOnly | server/routes/customFields.js:11-17 | without a dytael, or with an empty one, the listing is exactly the global fields |
| CustomFields.FieldOf | server/routes/customFields.js:27-34 | the stored field has the sent key and label; a missing type becomes 'text'; `required` is the truthiness of the sent value; a missing, null or empty dytael is stored as NULL |
| CustomFields.CreateField | server/routes/customFields.js:26-36 | a caller stopped by the admin gate gets its 401 or 403; an admin gets 400 exactly when the key or label is missing or empty, and 201 otherwise with the field appended; nothing changes unless 201 |
| CustomFields.CreatedFieldIsListed | server/routes/customFields.js:11-16 | a created global field is listed for every dytael, and a field created for dytael X is listed when X is asked for |
| Columns.Entries | client/src/components/FormInput.jsx:174-178 | a list appended element by element reaches the server absent when empty, as a single value when it has one element, and as an array otherwise |
| Columns.ActivitiesOf | server/routes/data.js:81-84 | on creation, an array of activities is kept, a truthy single value becomes a one-element list, and anything else becomes empty |
| Columns.SafeArray | server/routes/data.js:90-94 | an array is kept, a string that is not blank becomes a one-element list, and a blank or absent value becomes empty |
| Columns.ActivitiesRoundTrip | server/routes/data.js:81-84 | activities appended one by one arrive as the same list, except the single empty activity, which arrives as none |
| Columns.VideosRoundTrip | server/routes/data.js:90-94 | video links appended one by one arrive as the same list, except a single blank link |
| Columns.SocialMediaOf | server/routes/data.js:109-114 | a falsy social_media value, or one that does not parse, becomes `[]`; otherwise the stored value is what parsing gave |
| Columns.ExtraFieldsOf | server/routes/data.js:116-121 | a falsy extra_fields value, or one that does not parse, becomes NULL; otherwise the stored text is the re-serialised document |
| Columns.JsonFieldRoundTrip | server/routes/data.js:109-121 | a JSON document the client serialised is stored unchanged in both columns when the codec reads it back |
| Columns.ParseIntNoDigits | server/routes/data.js:123 | a year text without any digit is not a number, so the year column is stored as NULL |
| Columns.ParseIntRoundTrip | server/routes/data.js:123 | `parseInt` reads back the decimal text of every integer, negative ones included |
| DataRoutes.PhotoUrls | server/routes/data.js:36-52 | the URLs for an initiative are those built from exactly its own photo rows; there are none when it has no photo |
| DataRoutes.AttachPhotos | server/routes/data.js:41-54 | each row keeps its place and its columns and receives the URLs of exactly its own photos, `[]` when it has none |
| DataRoutes.CreateContent | server/routes/data.js:107-158 | each text column holds its field as sent and NULL when the field is absent; the year is `parseInt` of the field and NULL when absent; latitude and longitude are `parseFloat` of their own fields; activities and videos are stored as the JSON array of the values sent (a single value wrapped, nothing or a blank video as `[]`), and the activities column parses back to that list; social media and extra fields are re-serialised when they parse, otherwise `[]` and NULL |
| DataRoutes.CreateAs | server/routes/data.js:86-171 | with accepted uploads: 401 exactly when the caller has no id, 403 exactly when the id names no user, and 201 when every text field was sent at most once; the new row is appended pending, owned by the caller, dated now, with the next id, and one photo row per file follows; nothing changes unless 201 |
| DataRoutes.Create | server/routes/data.js:57 | the token is checked before any file or field: its 401 or 403 is the reply and nothing changes |
| DataRoutes.CreateStoresPendingForCaller | server/routes/data.js:96-137 | whatever the form says, a created initiative is pending and belongs to the caller; a missing caller id gives 401 and an unknown caller 403, and the store is unchanged in both cases |
| DataRoutes.CreateKeepsValid | server/routes/data.js:139-168 | creation keeps ids unique and every photo pointing at an existing initiative |
| DataRoutes.OptionalCaller | server/routes/data.js:186-195 | the public listing sees a caller exactly when a token is present and verifies; a token that fails is the same as none |
| DataRoutes.WithStatus | server/routes/data.js:208-210 | the status filter keeps exactly the rows whose status name equals the asked status, in table order |
| DataRoutes.List | server/routes/data.js:183-225 | with a status, anyone gets exactly the rows with that status; without one, 403 unless a verified admin token is present, and an admin gets every row; the store never changes |
| DataRoutes.Delete | server/routes/data.js:228-248 | 200 exactly when the caller is authenticated and the row exists and is deletable by them (any row for an admin, only their own otherwise); an authenticated caller is otherwise refused with 403 and nothing changes; on success exactly the deletable rows go |
| DataRoutes.DeleteRemovesThatRow | server/routes/data.js:233-243 | in a store with unique ids a successful delete removes exactly the row with that id and keeps the store valid |
| DataRoutes.Validate | server/routes/data.js:251-263 | for an admin, the row with that id becomes approved whatever its status, and nothing else changes; anyone else changes nothing |
| DataRoutes.Reject | server/routes/data.js:266-278 | for an admin, the row with that id becomes rejected whatever its status, and nothing else changes; anyone else changes nothing |
| DataRoutes.CancelDelete | server/routes/data.js:281-293 | for an admin, the row with that id goes back to approved only when it awaits deletion; the reply is 200 either way |
| DataRoutes.CancelDeleteOnlyFromDeleteRequested | server/routes/data.js:284-288 | a row that does not await deletion is never changed by cancel-delete, and the row that does becomes approved |
| DataRoutes.ModerationKeepsValid | server/routes/data.js:251-293 | the moderation routes keep the store valid |
| DataRoutes.Mine | server/routes/data.js:296-316 | an authenticated caller gets exactly their own rows, each once, newest first; a refused token gets its 401 or 403 |
| DataRoutes.RequestDelete | server/routes/data.js:319-334 | 200 exactly when the caller owns a row with that id, which then awaits deletion whatever its status; for another caller or an unknown id 403 and no change |
| DataRoutes.RequestDeleteOnlyOwnRow | server/routes/data.js:322-328 | a row that is not the caller's is never changed by a delete request |
| DataRoutes.GetById | server/routes/data.js:337-361 | 404 exactly when no row has that id; otherwise 200 with that row and the URLs of exactly its photos; no token is needed |
| DataRoutes.UpdateContent | server/routes/data.js:386-420 | an array of activities is stored as sent and any other value wrapped in a one-element array; a falsy extra_fields value is NULL and a string is stored as sent; social media and videos are stored as sent |
| DataRoutes.Update | server/routes/data.js:364-431 | any authenticated caller, owner or not, overwrites the content columns of the row with that id; its status, owner and id stay and other rows are untouched; 404 exactly when no row has that id and the numbers parse |
| DataRoutes.UpdateWrapsSingleActivity | server/routes/data.js:386-388 | a single activity sent as a plain string is stored as a one-element array |
| DataRoutes.UpdateKeepsValid | server/routes/data.js:394-424 | an update keeps the store valid |
| ClientValues.SetField | client/src/components/CartoModule.jsx:23-28 | after the spread the property has the new value and every other property keeps its value |
| ClientValues.ParseActivities | client/src/components/CartoModule.jsx:9-15 | an array is returned unchanged; a string gives what it parses to, or a one-element list when it does not parse (empty when the string is empty); anything else gives `[]` |
| ClientValues.ParseStoredActivities | client/src/components/CartoModule.jsx:9-15 | the activities column the server wrote reads back as the same list of strings |
| ClientValues.ParseActivitiesSettles | client/src/components/CartoModule.jsx:9-15 | parsing again an array the parser produced changes nothing |
| ClientValues.ParseExtra | client/src/components/CartoModule.jsx:17-21 | a falsy value gives `{}`, an object is returned unchanged, and anything else gives what it parses to, or `{}` when it does not parse |
| ClientValues.ParseStoredExtra | client/src/components/CartoModule.jsx:17-21 | the extra-fields text the server stored reads back as the object it encodes |
| ClientValues.ParseMaybeJson | client/src/components/AdminDashboard.jsx:5-13 | null, undefined and '' give the fallback; an array or object is returned unchanged; anything else gives what it parses to, or the fallback when it does not parse |
| ClientValues.ParsersAgreeOnText | client/src/components/AdminDashboard.jsx:5-13 | on anything but a number or a boolean the dashboard's parser with fallback `{}` agrees with the map's `parseExtra` |
| ClientValues.HaystackGrows | client/src/components/CartoModule.jsx:56-65 | a term found in the text of some pieces is still found when more pieces follow them |
| ClientValues.PieceInHaystack | client/src/components/CartoModule.jsx:56-65 | a term found in one truthy piece, lower-cased, is found in the searched text |
| Carto.ParsePoint | client/src/components/CartoModule.jsx:23-28 | activities and extra fields are parsed, a missing photo list becomes `[]`, and every other property is kept |
| Carto.Filtered | client/src/components/CartoModule.jsx:51-83 | the result is an order-preserving subsequence of the points holding exactly the points that pass the search and the three filters; a blank search with no filter keeps every point |
| Carto.SearchFindsColumn | client/src/components/CartoModule.jsx:52-66 | a point whose name, description, commune, village or actor type contains the lower-cased term is found |
| Carto.LongerTermNarrows | client/src/components/CartoModule.jsx:52-66 | a point found by a term is found by every term it contains, so typing more only narrows the list |
| Carto.UntypedPointsPassActorFilter | client/src/components/CartoModule.jsx:74-76 | a point without an actor type passes whatever actor is chosen |
| Carto.ChosenActorKeepsItsPoints | client/src/components/CartoModule.jsx:74-76 | choosing a point's actor type keeps that point |
| Carto.ChosenActivityKeepsItsPoints | client/src/components/CartoModule.jsx:68-72 | selecting one of a point's activities keeps that point |
| Carto.AllActivities | client/src/components/CartoModule.jsx:100-104 | the collected activities are exactly those carried by some point |
| Carto.UniqueOptions | client/src/components/CartoModule.jsx:100-116 | each option list holds each value once; activities are every activity of every point, and actors and communes every truthy value of their column, each list in first-seen order |
| Carto.Stats | client/src/components/CartoModule.jsx:118-126 | the total is the number of points shown; the count for each actor type is the number of shown points under it; the counts add up to the total; each key appears once |
| Carto.UnspecifiedCountsUntyped | client/src/components/CartoModule.jsx:122 | every point without an actor type is counted under 'Non renseigné' |
| FilterControls.ToggleActivity | client/src/components/Filters.jsx:4-10 | the activity is selected afterwards exactly when it was not before, no other activity changes, and the actor and commune are untouched |
| FilterControls.ToggleActivityTwice | client/src/components/Filters.jsx:4-10 | clicking twice restores the selection exactly when the activity was not selected, and as a set when it was; a selection without repeats stays so |
| FilterControls.SetActor | client/src/components/Filters.jsx:42 | the drop-down changes only the actor |
| FilterControls.SetCommune | client/src/components/Filters.jsx:56 | the text box changes only the commune |
| FilterControls.Humanize | client/src/components/Filters.jsx:16-17 | the label has the value's length and holds no underscore; its first character is the value's first character upper-cased (an underscore as a space), and every later underscore became a space |
| FilterControls.ActivityLabel | client/src/components/Filters.jsx:12-18 | '' gives ''; 'other' in any case gives 'Autres'; any other value gives its humanized label: same length, capitalised, underscores as spaces |
| FilterControls.ActivityLabelSpellsValue | client/src/components/Filters.jsx:16-17 | a label spells its value up to case, with spaces for underscores |
| Sidebar.ColorForActivity | client/src/components/Sidebar.jsx:3-12 | a falsy value is grey; the first keyword the lower-cased activity contains decides, in the order production, transformation, formation, gouver, commerce; nothing else is grey |
| Sidebar.TransformationContainsFormation | client/src/components/Sidebar.jsx:7-8 | every text containing 'transformation' contains 'formation', so the order of the tests is what keeps transformation orange |
| Sidebar.CommercialisationIsGrey | client/src/components/Sidebar.jsx:10-11 | 'commercialisation' does not contain 'commerce' and is coloured grey |
| Sidebar.FormatLabel | client/src/components/Sidebar.jsx:14-19 | a falsy value gives 'Non renseigné', a non-string its printed form, and a non-empty string its humanized label, capitalised with underscores as spaces |
| Sidebar.LabelsAgree | client/src/components/Sidebar.jsx:14-19 | the panel's label of a string other than 'other' is the filter list's label of the same text, starting with its first character upper-cased |
| Sidebar.MainActivity | client/src/components/Sidebar.jsx:22 | the main activity is the selected point's first activity when it is truthy, and '' otherwise |
| Sidebar.NoActivityIsGrey | client/src/components/Sidebar.jsx:22 | a point without a first activity, and the overview, get the grey dot |
| Sidebar.SegmentsFrom | client/src/components/Sidebar.jsx:30-36 | one slice per actor type, with its label, count and percentage, each starting where the previous one ends |
| Sidebar.PieCloses | client/src/components/Sidebar.jsx:30-36 | when some point is counted the slices add up to 100 percent |
| Sidebar.ActorTotalIsShownCount | client/src/components/Sidebar.jsx:23-24 | the actor total is the number of points shown |
| AdminDashboard.Normalize | client/src/components/AdminDashboard.jsx:32-38 | the three list columns are parsed with fallback `[]` and the extra fields with fallback null; every other property is kept |
| AdminDashboard.ToggleSelect | client/src/components/AdminDashboard.jsx:54-58 | the id is selected afterwards exactly when it was not before; no other id and no item changes |
| AdminDashboard.ToggleSelectTwice | client/src/components/AdminDashboard.jsx:54-58 | ticking twice restores the selection exactly when the id was not ticked, and as a set when it was |
| AdminDashboard.UpdateStatusLocally | client/src/components/AdminDashboard.jsx:60-63 | exactly the items whose id is in the batch take the new status, with every other property kept; the other items are unchanged; the batch's ids leave the selection and the rest stays in order |
| AdminDashboard.Batch | client/src/components/AdminDashboard.jsx:65-95 | when every request succeeds the items change locally; when any fails only the error message is set |
| AdminDashboard.HandleValidate | client/src/components/AdminDashboard.jsx:65-79 | a batch that fully succeeds marks the items approved; otherwise items stay and the validation error is shown |
| AdminDashboard.HandleReject | client/src/components/AdminDashboard.jsx:81-95 | a batch that fully succeeds marks the items rejected; otherwise items stay and the rejection error is shown |
| AdminDashboard.AdminValidationGoesThrough | client/src/components/AdminDashboard.jsx:65-74 | for an administrator every validate request succeeds, so every selected item shows approved, as on the server |
| AdminDashboard.NonAdminValidationFails | client/src/components/AdminDashboard.jsx:75-78 | for a caller who is not an admin the batch fails and only the error message changes |
| AdminDashboard.Visible | client/src/components/AdminDashboard.jsx:97-110 | the result is a permutation of the items with the chosen status (of all items for 'all'), ordered newest first, oldest first or by name as chosen |
| AdminDashboard.DashboardStats | client/src/components/AdminDashboard.jsx:112-123 | each status counter is the number of items with that status, 'total' is the number of items, and each activity's count is its number of occurrences across the items |
| AdminDashboard.CountersAddUp | client/src/components/AdminDashboard.jsx:112-116 | when every item has one of the four statuses the four counters add up to the total |
| Sorting.Sort | client/src/components/TableView.jsx:56-62 | the sorted list is a permutation of its input; for any comparator that is a total preorder it is ordered, and it is stable: the elements that compare equal to any given one appear in their input order |
| Seqs.Distinct | client/src/components/CartoModule.jsx:100-104 | the loop over a `Set` gives the distinct elements in first-seen order, each once |
| Seqs.DedupFirstSeenOrder | client/src/components/CartoModule.jsx:100-104 | the distinct elements come in the order of their first appearance |
| Tally.TallyOf | client/src/components/CartoModule.jsx:120-124 | counting into an object gives each key its number of occurrences, counts adding up to the length, each key once |
| TableView.Normalize | client/src/components/TableView.jsx:29-33 | activities and extra fields are parsed as on the map page; every other property is kept |
| TableView.ColumnOrderIsPreorder | client/src/components/TableView.jsx:56-62 | the column comparator is total and transitive in both directions |
| TableView.Shown | client/src/components/TableView.jsx:40-64 | the rows shown are a permutation of the rows matching the trimmed, lower-cased term, sorted on the column; a blank search shows a permutation of every row |
| TableView.AscendingPutsSmallerFirst | client/src/components/TableView.jsx:56-62 | in ascending order a row whose column text is strictly smaller comes first |
| TableView.TableHitIsMapHit | client/src/components/TableView.jsx:44-53 | every row the table's search finds, the map's search finds too |
| TableView.ToggleSort | client/src/components/TableView.jsx:66-73 | clicking the current column flips the direction; another column becomes current, ascending |
| TableView.ToggleSortTwice | client/src/components/TableView.jsx:66-73 | clicking the current column twice restores the sort |
| FormInput.Initial | client/src/components/FormInput.jsx:55-79 | the form starts with every text input empty |
| FormInput.InitialIsConsistent | client/src/components/FormInput.jsx:55-79 | the initial state satisfies the form's invariant |
| FormInput.ChangeText | client/src/components/FormInput.jsx:98-100 | a text input sets only its own entry |
| FormInput.ChooseFiles | client/src/components/FormInput.jsx:91-92 | the photos are the first files picked, at most five |
| FormInput.CheckActivity | client/src/components/FormInput.jsx:93-97 | checking appends the value; unchecking removes every occurrence of it and keeps the others in order |
| FormInput.CheckThenUncheck | client/src/components/FormInput.jsx:93-97 | checking a box and unchecking it again restores the form |
| FormInput.ChangeVideo | client/src/components/FormInput.jsx:103-108 | only the given video input changes, and the form's videos become the whole list of inputs |
| FormInput.AddVideoField | client/src/components/FormInput.jsx:110-114 | a new empty video input is added only while there are fewer than five |
| FormInput.TogglePlatform | client/src/components/FormInput.jsx:116-129 | a chosen platform is dropped together with its link and another one is appended; social media then lists the chosen platforms in order, each with its link or '' |
| FormInput.ChangeLink | client/src/components/FormInput.jsx:131-138 | only that platform's link changes, and social media stays aligned with the chosen platforms |
| FormInput.ToggleOffForgetsLink | client/src/components/FormInput.jsx:120-122 | a platform switched off and on again starts with an empty link |
| FormInput.ChangeCustom | client/src/components/FormInput.jsx:140-142 | a custom field's input sets only that value |
| FormInput.SameAsDeclarant | client/src/components/FormInput.jsx:378-392 | checking the box copies the stored user's email, phone and name into the contact fields and changes no other field; unchecking only clears the box |
| FormInput.StepKeepsConsistent | client/src/components/FormInput.jsx:89-142 | no event breaks the invariant: at most five photos, one to five video inputs, no platform twice, and social media mirroring the platforms |
| FormInput.EventsKeepConsistent | client/src/components/FormInput.jsx:89-142 | the form obtained by applying any sequence of events, one handler after another, to a consistent form is consistent |
| FormInput.ReachableIsConsistent | client/src/components/FormInput.jsx:55-142 | every form the user can reach from the empty form by any events is consistent |
| FormInput.ReachableHasTexts | client/src/components/FormInput.jsx:55-142 | no handler removes a text input, so a form reached by any events from one with every text input still has them all, and its payload sends each one |
| FormInput.Payload | client/src/components/FormInput.jsx:170-191 | each text input of the form is sent once, carrying the typed text, and a text field the form lacks is not sent; the activities arrive as chosen unless the only one is empty; social media and custom values are sent as JSON |
| FormInput.Submit | client/src/components/FormInput.jsx:165-233 | without a stored token nothing is sent and nothing changes; otherwise the request carries the token, and only its success resets the form to its initial state |
| FormInput.SubmittedHeaderAuthenticates | client/src/components/FormInput.jsx:194-201 | the header the form sends passes the server's token check with the stored token's payload |
| FormInput.SubmittedDraftIsStoredPending | client/src/components/FormInput.jsx:165-201 | a submitted form from a known user is stored with 201, pending, owned by that user, with the chosen activities and videos and the typed name and description |
| FilterPanel.ToggleActivity | client/src/components/FilterPanel.jsx:26-32 | the key is selected afterwards exactly when it was not before; nothing else changes |
| FilterPanel.ToggleActorType | client/src/components/FilterPanel.jsx:40-46 | the same remove-or-append toggle on actor types; nothing else changes |
| FilterPanel.TogglesKeepNoDup | client/src/components/FilterPanel.jsx:26-46 | the toggles never select a key twice |
| FilterPanel.ToggleTwice | client/src/components/FilterPanel.jsx:26-32 | clicking twice restores the selection exactly when the key was not selected, and as a set when it was |
| FilterPanel.ParseCommunes | client/src/components/FilterPanel.jsx:34-38 | the communes are the comma-separated parts, trimmed, with empty parts dropped: a string is kept exactly when it is a non-empty part, the parts keep their order, and each is comma-free and trimmed |
| FilterPanel.ChangeCommunes | client/src/components/FilterPanel.jsx:34-38 | typing in the box changes only the communes |
| FilterPanel.CommunesRoundTrip | client/src/components/FilterPanel.jsx:34-38 | communes shown joined with ", " read back as the same list when none is empty, holds a comma or has blanks around it |
| FilterPanel.ParseCommunesStable | client/src/components/FilterPanel.jsx:34-38 | re-displaying what the box parsed and parsing it again changes nothing |
| EditInitiatives.Unauthorized | client/src/components/EditInitiatives.jsx:10-20 | no stored user, or an empty one, is unauthorized; the form is shown exactly when the stored text parses to a user whose role is admin; the effect throws exactly when the text does not parse or is null |
| EditInitiatives.OnlyStoredAdminEdits | client/src/components/EditInitiatives.jsx:10-20 | a stored user sees the form if and only if their role is admin |
| EditInitiatives.Shown | client/src/components/EditInitiatives.jsx:33-35 | an activities array is shown joined with ", "; any other value is kept |
| EditInitiatives.Load | client/src/components/EditInitiatives.jsx:32-36 | only the activities of the loaded record change |
| EditInitiatives.Prepared | client/src/components/EditInitiatives.jsx:53-55 | a falsy value gives `[]`, a string the comma-separated parts each trimmed, and any other value throws |
| EditInitiatives.Prepare | client/src/components/EditInitiatives.jsx:51-56 | the activities are sent as that array and every other field as edited |
| EditInitiatives.ActivitiesRoundTrip | client/src/components/EditInitiatives.jsx:33-55 | loading and saving untouched activities gives them back if and only if the list is not the single empty activity, when none holds a comma or surrounding blanks |
| EditInitiatives.UntouchedFormSavesSameRecord | client/src/components/EditInitiatives.jsx:33-56 | saving an untouched form sends every field of the loaded record unchanged |
| Text.CommaSpaceRoundTrip | client/src/components/EditInitiatives.jsx:53-55 | splitting on ',' and trimming undoes a join with ", " when no part holds a comma or surrounding blanks |
| Text.SplitStripJoin | client/src/components/EditInitiatives.jsx:53-55 | splitting and stripping undoes a join whose separator is followed by blanks, when no part holds the separator or surrounding blanks |
| RegisterPage.Refusal | client/src/components/RegisterPage.jsx:24-44 | the form passes exactly when the addresses match, the passwords match, the address fits the pattern and the password is strong; otherwise the message is that of the first failing check in that order: address mismatch, password mismatch, bad address, weak password |
| RegisterPage.Body | client/src/components/RegisterPage.jsx:48-55 | the request carries the six fields as typed |
| RegisterPage.FailureMessage | client/src/components/RegisterPage.jsx:67-68 | the message shown is the response's `error` when truthy, else its `message` when truthy, else the generic text |
| RegisterPage.Submit | client/src/components/RegisterPage.jsx:19-72 | a request is sent exactly when no check fails; a refused form shows its message; the page shows the confirmation only after a successful request, and shows the server's message after a failed one |
| RegisterPage.AcceptedFormRegisters | client/src/components/RegisterPage.jsx:34-55 | a form the page lets through, with every field filled and an unused address, is registered by the server with 201 |
| RegisterPage.BadEmailRefusedByServer | client/src/components/RegisterPage.jsx:34-38 | the page and the server use the same pattern: an address the page refuses is refused by the server with 400 |
| FieldsManager.RequestOf | client/src/components/FormFieldsManager.jsx:22-31 | nothing is sent exactly when the trimmed key or label is empty; otherwise they are sent trimmed with the chosen type and flag, and an empty dytael is sent as null |
| FieldsManager.AddField | client/src/components/FormFieldsManager.jsx:22-39 | a blank key or label sends nothing; success resets the draft to its initial value with the success message; failure keeps the draft and shows the admin-required message |
| FieldsManager.SentDraftIsStored | client/src/components/FormFieldsManager.jsx:23-31 | a request the page sends is never refused as incomplete; it is stored exactly for an admin, with the trimmed key and label, the chosen type and flag, and no dytael when the box was empty |
| FieldsManager.GlobalDraftListedEverywhere | client/src/components/FormFieldsManager.jsx:30 | a field added with the dytael box empty appears in every form's listing |
| CsvImport.Cell | import_csv.py:45-65 | a present cell reads as its text with the surrounding blanks stripped, and an absent column reads as '' |
| CsvImport.ParseFloat | import_csv.py:9-18 | an absent or blank cell gives None; otherwise the value is Python's float of the stripped text |
| CsvImport.Activities | import_csv.py:54-59 | an empty cell gives no activity; otherwise a string is an activity exactly when it is a non-empty stripped comma-separated part, the activities keep the parts' order, and none holds a comma or has surrounding blanks |
| CsvImport.MapRow | import_csv.py:44-66 | the name is never empty: a blank name cell becomes 'Sans nom', otherwise the stripped cell; the year is absent exactly when its cell is blank; social media holds the cell alone when it is not blank and nothing otherwise |
| CsvImport.MapRowColumns | import_csv.py:54-102 | the activities come from the activity cell; lon comes from column x and lat from y; status and owner come from the arguments; zone, videos and extra fields are empty |
| CsvImport.DefaultsPublish | import_csv.py:25-26 | without arguments, imported rows are approved and belong to user 2 |
| CsvImport.CoordinatesFollowColumns | import_csv.py:68-69 | exchanging columns x and y exchanges the longitude and the latitude |
| CsvImport.ActivitiesRoundTrip | import_csv.py:54-59 | activities written as "a, b, c", with any blanks around the cell, come back as the list, when none holds a comma or surrounding blanks |
| CsvImport.ImportedActivitiesShowOnMap | import_csv.py:55-59 | the activities column the importer writes reads back on the map page as the same list |
| CsvImport.Import | import_csv.py:38-103 | with purge, the table becomes exactly the mapped rows; without it, the mapped rows are appended in file order after the existing ones |
| CsvImport.ImportStampsRows | import_csv.py:100-101 | every imported row carries the status and owner given on the command line |

## Left out

- Sending mail (`server/utils/mailer.js`) is not modelled. The mailer catches its own errors, so a failed confirmation, reset or new-submission mail never changes a reply.
- Token signing, expiry and secrets are left out. `jwt.verify` is an oracle that returns the payload or nothing. The confirmation token and the session token share one verifier, and the reset token has its own.
- bcrypt is an oracle. Two distinct passwords may hash alike, and the model does not care.
- MySQL is modelled as sequences of rows:
  - Transactions appear only as all-or-nothing.
  - The collation is not modelled. `email = ?` at login and `dytael = ?` in the field listing are exact string equality, although MySQL's default collation compares case-insensitively.
  - A database error (500) is not modelled, except where the model can name its cause.
- Multer's disk storage, its time-and-random file names, and the URL base (protocol and host) are parameters. A refused upload is modelled as 500 (Express's default error handler). That covers more than five files, a file that is not an image, and a file over 5 MB.
- DataRoutes.CreateAs: a text field sent twice arrives as an array. The model assumes it breaks the INSERT (500), since the driver expands an array into several values.
- DataRoutes.CreateContent: latitude and longitude come from the `parseFloat` oracle, and a NaN is stored as NULL. `geom` (a GeoJSON Point, section 3.1.1 of RFC 7946) is sent by the form but never read by the server, so it is left out.
- DataRoutes.Update: a NaN from `parseInt(year)` or `parseFloat(lat/lon)` goes to the driver unchecked. The model takes the resulting statement failure as 500. The driver's actual handling of NaN is not part of this model.
- Accounts.Login: a missing password makes `bcrypt.compare` throw, modelled as 500.
- Numbers in `Value` (`Num`) are integers only. A fractional JSON number, such as a latitude of 14.69 in the body of `PUT /api/data/:id` or in a record the pages read, is outside the model.
- Floating point: `parseFloat`, Python's `float`, `toFixed(6)` and the pie percentages are not modelled bit for bit.
- Sidebar.PieCloses: it is stated over exact reals. Floating-point rounding of the percentages is not modelled.
- Dates: `created_at` is an integer. The dashboard's `new Date(...)` and `localeCompare` are parameters.
- Sorting.Sort: `Array.prototype.sort` is modelled as a stable insertion sort. Its order and its stability are stated only for comparators that are total preorders.
- Dashboard ordering: the "by name" order is guaranteed sorted only when the collation parameter is a total preorder.
- JavaScript objects are lists of (key, value) entries where the last write wins.
  - Integer-like keys are not moved to the front as real objects do.
  - A duplicate key in parsed JSON is not modelled.
- `Array.prototype.includes` uses SameValueZero. The model uses structural equality, which differs only for NaN and for two distinct objects with equal contents.
- A property read on a value that throws a TypeError in JavaScript is read through `ToJsString`. Examples are `a.toLowerCase()` on a number activity and `pt.actor_type.toLowerCase()` on a non-string. Likewise `Elements` (`(v || []).forEach`) gives `[]` for a truthy value that is not an array, such as a string, where JavaScript throws a TypeError. Only EditInitiatives models the throw (as `None`), because there it decides what the page does.
- Request values are typed as the pages send them. A route's `:id` is an integer, whereas Express passes a string that MySQL coerces (`'12abc'` matches id 12). `UserAdmin.UpdateUser` takes all six text fields as strings, whereas the route would write NULL for a missing one; the user edit page always sends all six.
- Case mapping is ASCII only, and strings are sequences of code points rather than UTF-16 units.
- React rendering, Leaflet maps, timers, and display-only text are left out.
  - The timers are the message timeouts in FormFieldsManager.
  - Display-only text includes the Sidebar detail panel and the dashboard's error texts on load.
- FormInput has several gaps:
  - Picking a point on the map and geolocation are not modelled.
  - The activity checkboxes are uncontrolled inputs, so their checked state after a reset is not part of the model.
  - Picking a dytael reloads the custom fields; that request is not modelled.
- FormInput.ChangeVideo: it requires the index to name an existing input. The page only renders inputs for existing entries.
- CsvImport.Import: every INSERT is taken to succeed. In the script a failing INSERT raises before the single final commit, so none of the file's rows is kept, and with purge the earlier committed DELETE leaves the table empty; that failure path is not modelled.
- CsvImport: reading the file, the database connection, the printing, and MySQL's conversion of the year text into the year column are left out.
- `server/users.js` is not part of this model. It is unused code written for another driver.
- Deleting an initiative leaves its photo rows in place, as the route does. No cascade is modelled.
- `server/config/db.js`, `server/index.js`, CORS and the thin pages (login, reset, navigation, user list) are plumbing and are not modelled.

=== FILE: admin_dashboard.dfy ===
/** The moderation dashboard: the rows of `GET /api/data` normalised, a
    selection of ids, batch validation and rejection, a status filter with three
    orderings, and the counters at the top of the page. */
module AdminDashboard {
  import opened Options
  import opened Seqs
  import opened JsValues
  import opened Sorting
  import opened Tally
  import opened ClientValues
  import opened AuthMiddleware
  import opened Store
  import DataRoutes

  lemma ListColumnsDistinct()
    ensures "activities" != "social_media" && "activities" != "videos" && "activities" != "extra_fields"
    ensures "social_media" != "videos" && "social_media" != "extra_fields" && "videos" != "extra_fields"
  {
    assert "activities"[0] == 'a' && "social_media"[0] == 's' && "videos"[0] == 'v' && "extra_fields"[0] == 'e';
  }

  /** `normalized`: the three list columns default to `[]` and the extra fields to
      `null`; every other property is kept. */
  function Normalize(i: Item, codec: Codec): (r: Item)
    ensures Get(r, "activities") == ParseMaybeJson(Get(i, "activities"), Arr([]), codec)
    ensures Get(r, "social_media") == ParseMaybeJson(Get(i, "social_media"), Arr([]), codec)
    ensures Get(r, "videos") == ParseMaybeJson(Get(i, "videos"), Arr([]), codec)
    ensures Get(r, "extra_fields") == ParseMaybeJson(Get(i, "extra_fields"), Null, codec)
    ensures forall k :: k != "activities" && k != "social_media" && k != "videos" && k != "extra_fields" ==>
              Get(r, k) == Get(i, k)
  {
    ListColumnsDistinct();
    SetFourFields(i, "activities", "social_media", "videos", "extra_fields",
                  ParseMaybeJson(Get(i, "activities"), Arr([]), codec),
                  ParseMaybeJson(Get(i, "social_media"), Arr([]), codec),
                  ParseMaybeJson(Get(i, "videos"), Arr([]), codec),
                  ParseMaybeJson(Get(i, "extra_fields"), Null, codec));
    var a := SetField(i, "activities", ParseMaybeJson(Get(i, "activities"), Arr([]), codec));
    var b := SetField(a, "social_media", ParseMaybeJson(Get(i, "social_media"), Arr([]), codec));
    var c := SetField(b, "videos", ParseMaybeJson(Get(i, "videos"), Arr([]), codec));
    SetField(c, "extra_fields", ParseMaybeJson(Get(i, "extra_fields"), Null, codec))
  }

  datatype Dashboard = Dashboard(items: seq<Item>, selected: seq<Value>, error: string)

  /** `toggleSelect`: a selected id is unselected, any other id is appended. */
  function ToggleSelect(d: Dashboard, id: Value): (r: Dashboard)
    ensures id in r.selected <==> id !in d.selected
    ensures forall x :: x != id ==> (x in r.selected <==> x in d.selected)
    ensures r.items == d.items && r.error == d.error
  {
    d.(selected := Toggle(d.selected, id))
  }

  /** Ticking the same box twice leaves the selection as it was, as a set, and
      exactly when the id was not ticked. */
  lemma ToggleSelectTwice(d: Dashboard, id: Value)
    requires NoDup(d.selected)
    ensures forall x :: x in ToggleSelect(ToggleSelect(d, id), id).selected <==> x in d.selected
    ensures id !in d.selected ==> ToggleSelect(ToggleSelect(d, id), id) == d
  {
    if id in d.selected {
      ToggleTwicePresent(d.selected, id);
    } else {
      ToggleTwiceAbsent(d.selected, id);
    }
  }

  function NotIn(ids: seq<Value>): Value -> bool {
    (x: Value) => x !in ids
  }

  /** `updateStatusLocally`: the items whose id is in `ids` take the new status, the
      others are kept as they are, and those ids leave the selection. */
  function UpdateStatusLocally(d: Dashboard, ids: seq<Value>, status: string): (r: Dashboard)
    ensures |r.items| == |d.items|
    ensures forall k :: 0 <= k < |d.items| && Get(d.items[k], "id") in ids ==>
              Get(r.items[k], "status") == Str(status) &&
              forall p :: p != "status" ==> Get(r.items[k], p) == Get(d.items[k], p)
    ensures forall k :: 0 <= k < |d.items| && Get(d.items[k], "id") !in ids ==> r.items[k] == d.items[k]
    ensures forall x :: x in r.selected <==> x in d.selected && x !in ids
    ensures Subsequence(r.selected, d.selected)
    ensures r.error == d.error
  {
    var items := seq(|d.items|, k requires 0 <= k < |d.items| =>
                       if Get(d.items[k], "id") in ids then SetField(d.items[k], "status", Str(status)) else d.items[k]);
    Dashboard(items, Filter(d.selected, NotIn(ids)), d.error)
  }

  /** Axios resolves on a 2xx answer and rejects otherwise. */
  predicate Succeeded(code: nat) {
    200 <= code < 300
  }

  /** `handleValidate` and `handleReject`: one request per id; when every request
      succeeds the items change locally, otherwise only the error message is set. */
  function Batch(d: Dashboard, ids: seq<Value>, replies: seq<nat>, status: string, failure: string): (r: Dashboard)
    requires |replies| == |ids|
    ensures (forall k :: 0 <= k < |replies| ==> Succeeded(replies[k])) ==> r == UpdateStatusLocally(d, ids, status)
    ensures (exists k :: 0 <= k < |replies| && !Succeeded(replies[k])) ==> r == d.(error := failure)
  {
    if forall k :: 0 <= k < |replies| ==> Succeeded(replies[k]) then UpdateStatusLocally(d, ids, status)
    else d.(error := failure)
  }

  const ValidateFailure := "Validation impossible pour le moment."
  const RejectFailure := "Rejet impossible pour le moment."

  function HandleValidate(d: Dashboard, ids: seq<Value>, replies: seq<nat>): (r: Dashboard)
    requires |replies| == |ids|
    ensures (exists k :: 0 <= k < |replies| && !Succeeded(replies[k])) ==> r.items == d.items && r.error == ValidateFailure
    ensures (forall k :: 0 <= k < |replies| ==> Succeeded(replies[k])) ==> r == UpdateStatusLocally(d, ids, StatusName(Approved))
  {
    Batch(d, ids, replies, "approved", ValidateFailure)
  }

  function HandleReject(d: Dashboard, ids: seq<Value>, replies: seq<nat>): (r: Dashboard)
    requires |replies| == |ids|
    ensures (exists k :: 0 <= k < |replies| && !Succeeded(replies[k])) ==> r.items == d.items && r.error == RejectFailure
    ensures (forall k :: 0 <= k < |replies| ==> Succeeded(replies[k])) ==> r == UpdateStatusLocally(d, ids, StatusName(Rejected))
  {
    Batch(d, ids, replies, "rejected", RejectFailure)
  }

  /** The answers of `PUT /api/data/:id/validate` for each id, against one database. */
  function ValidateReplies(db: Db, ids: seq<int>, header: Option<string>, verify: Verifier): (r: seq<nat>)
    ensures |r| == |ids|
    ensures forall k :: 0 <= k < |ids| ==> r[k] == DataRoutes.Validate(db, ids[k], header, verify).code
  {
    seq(|ids|, k requires 0 <= k < |ids| => DataRoutes.Validate(db, ids[k], header, verify).code)
  }

  function Nums(ids: seq<int>): (r: seq<Value>)
    ensures |r| == |ids|
    ensures forall k :: 0 <= k < |ids| ==> r[k] == Num(ids[k])
  {
    seq(|ids|, k requires 0 <= k < |ids| => Num(ids[k]))
  }

  /** An administrator's batch always goes through: the server answers 200 to every
      request, so the page marks each of those items approved, as the server did. */
  lemma AdminValidationGoesThrough(d: Dashboard, db: Db, ids: seq<int>, header: Option<string>, verify: Verifier)
    requires AdminGate(header, verify).Pass?
    ensures var r := HandleValidate(d, Nums(ids), ValidateReplies(db, ids, header, verify));
            r.error == d.error &&
            forall k :: 0 <= k < |d.items| && Get(d.items[k], "id") in Nums(ids) ==> Get(r.items[k], "status") == Str("approved")
  {
  }

  /** A caller without the admin role changes nothing on the page but the message. */
  lemma NonAdminValidationFails(d: Dashboard, db: Db, ids: seq<int>, header: Option<string>, verify: Verifier)
    requires AdminGate(header, verify).Stop? && |ids| > 0
    ensures var r := HandleValidate(d, Nums(ids), ValidateReplies(db, ids, header, verify));
            r.items == d.items && r.error == ValidateFailure
  {
    var replies := ValidateReplies(db, ids, header, verify);
    assert !Succeeded(replies[0]);
  }

  function StatusIs(status: string): Item -> bool {
    (i: Item) => Get(i, "status") == Str(status)
  }

  /** `new Date(a.created_at) - new Date(b.created_at)`, with the date parser as a parameter. */
  function NewerFirst(dateOf: Value -> int): (Item, Item) -> bool {
    (a: Item, b: Item) => dateOf(Get(b, "created_at")) - dateOf(Get(a, "created_at")) <= 0
  }

  function OlderFirst(dateOf: Value -> int): (Item, Item) -> bool {
    (a: Item, b: Item) => dateOf(Get(a, "created_at")) - dateOf(Get(b, "created_at")) <= 0
  }

  function Name(i: Item): string {
    var n := Get(i, "initiative");
    if Truthy(n) then ToJsString(n) else ""
  }

  /** `(a.initiative || '').localeCompare(b.initiative || '')`, with the collation as a parameter. */
  function ByName(collate: (string, string) -> int): (Item, Item) -> bool {
    (a: Item, b: Item) => collate(Name(a), Name(b)) <= 0
  }

  function DateKey(dateOf: Value -> int): Item -> int {
    (i: Item) => dateOf(Get(i, "created_at"))
  }

  /** `filtered`: the items with the chosen status (all of them for "all"), in the
      chosen order; an unknown order keeps the server's. */
  function Visible(items: seq<Item>, filterStatus: string, sortBy: string,
                   dateOf: Value -> int, collate: (string, string) -> int): (r: seq<Item>)
    ensures filterStatus == "all" ==> multiset(r) == multiset(items)
    ensures filterStatus != "all" ==> multiset(r) == multiset(Filter(items, StatusIs(filterStatus)))
    ensures forall i :: i in r <==> i in items && (filterStatus == "all" || Get(i, "status") == Str(filterStatus))
    ensures sortBy == "newest" ==> SortedBy(r, NewerFirst(dateOf))
    ensures sortBy == "oldest" ==> SortedBy(r, OlderFirst(dateOf))
    ensures sortBy == "name" && TotalPreorder(ByName(collate)) ==> SortedBy(r, ByName(collate))
    ensures sortBy !in {"newest", "oldest", "name"} ==>
              r == (if filterStatus == "all" then items else Filter(items, StatusIs(filterStatus)))
  {
    var arr := if filterStatus != "all" then Filter(items, StatusIs(filterStatus)) else items;
    IntKeyPreorder(NewerFirst(dateOf), DateKey(dateOf), false);
    IntKeyPreorder(OlderFirst(dateOf), DateKey(dateOf), true);
    var r := if sortBy == "newest" then Sort(arr, NewerFirst(dateOf))
             else if sortBy == "oldest" then Sort(arr, OlderFirst(dateOf))
             else if sortBy == "name" then Sort(arr, ByName(collate))
             else arr;
    assert forall i :: i in r <==> i in arr by {
      forall i ensures i in r <==> i in arr {
        assert i in r <==> i in multiset(r);
        assert i in arr <==> i in multiset(arr);
      }
    }
    r
  }

  /** The status a row is counted under: `base[i.status]` turns the value into a key. */
  function StatusKeys(items: seq<Item>): (r: seq<string>)
    ensures |r| == |items|
    ensures forall k :: 0 <= k < |items| ==> r[k] == ToJsString(Get(items[k], "status"))
  {
    seq(|items|, k requires 0 <= k < |items| => ToJsString(Get(items[k], "status")))
  }

  /** `key = typeof a === 'string' ? a : JSON.stringify(a)`. */
  function ActivityKey(a: Value, codec: Codec): string {
    if a.Str? then a.s else codec.stringify(a)
  }

  function ActivityKeysOf(acts: seq<Value>, codec: Codec): (r: seq<string>)
    ensures |r| == |acts|
    ensures forall k :: 0 <= k < |acts| ==> r[k] == ActivityKey(acts[k], codec)
  {
    seq(|acts|, k requires 0 <= k < |acts| => ActivityKey(acts[k], codec))
  }

  /** Every item's activity keys, item after item. */
  function ActivityKeys(items: seq<Item>, codec: Codec): (r: seq<string>)
    ensures |r| == ActivityCount(items)
  {
    if |items| == 0 then []
    else ActivityKeysOf(Elements(Get(items[0], "activities")), codec) + ActivityKeys(items[1..], codec)
  }

  /** How many activities the items carry between them. */
  function ActivityCount(items: seq<Item>): nat {
    if |items| == 0 then 0 else |Elements(Get(items[0], "activities"))| + ActivityCount(items[1..])
  }

  datatype Stats = Stats(counts: Table<string>, activityCount: Table<string>)

  lemma BaseLookup(base: Table<string>, n: nat)
    requires base == BaseCounts[0 := ("total", n)]
    ensures Lookup(base, "total") == n
    ensures Lookup(base, "pending") == 0 && Lookup(base, "approved") == 0
    ensures Lookup(base, "rejected") == 0 && Lookup(base, "delete_requested") == 0
    ensures NoDup(Keys(base))
  {
    assert base == [("total", n), ("pending", 0), ("approved", 0), ("rejected", 0), ("delete_requested", 0)];
    LookupZero(base, "pending");
    LookupZero(base, "approved");
    LookupZero(base, "rejected");
    LookupZero(base, "delete_requested");
    assert Keys(base) == ["total", "pending", "approved", "rejected", "delete_requested"];
  }

  /** Counting the statuses on top of the initial counters. */
  lemma CountsFrom(base: Table<string>, keys: seq<string>, n: nat)
    requires Lookup(base, "total") == n
    requires Lookup(base, "pending") == 0 && Lookup(base, "approved") == 0
    requires Lookup(base, "rejected") == 0 && Lookup(base, "delete_requested") == 0
    requires NoDup(Keys(base))
    ensures var c := TallyFrom(base, keys);
            Lookup(c, "pending") == Count(keys, "pending") && Lookup(c, "approved") == Count(keys, "approved") &&
            Lookup(c, "rejected") == Count(keys, "rejected") &&
            Lookup(c, "delete_requested") == Count(keys, "delete_requested") &&
            Lookup(c, "total") == n + Count(keys, "total") && NoDup(Keys(c))
  {
    CountFrom(base, keys, "pending");
    CountFrom(base, keys, "approved");
    CountFrom(base, keys, "rejected");
    CountFrom(base, keys, "delete_requested");
    CountFrom(base, keys, "total");
  }

  lemma CountFrom(base: Table<string>, keys: seq<string>, k: string)
    ensures Lookup(TallyFrom(base, keys), k) == Lookup(base, k) + Count(keys, k)
  {
  }

  const BaseCounts: Table<string> := [("total", 0), ("pending", 0), ("approved", 0), ("rejected", 0), ("delete_requested", 0)]

  /** `stats`: `total` starts at the number of items, every status starts at 0, and each
      item adds one to its status; every activity adds one to its key. */
  function DashboardStats(items: seq<Item>, codec: Codec): (r: Stats)
    ensures Lookup(r.counts, "pending") == Count(StatusKeys(items), "pending")
    ensures Lookup(r.counts, "approved") == Count(StatusKeys(items), "approved")
    ensures Lookup(r.counts, "rejected") == Count(StatusKeys(items), "rejected")
    ensures Lookup(r.counts, "delete_requested") == Count(StatusKeys(items), "delete_requested")
    ensures Lookup(r.counts, "total") == |items| + Count(StatusKeys(items), "total")
    ensures NoDup(Keys(r.counts))
    ensures Total(r.activityCount) == ActivityCount(items)
    ensures forall k :: Lookup(r.activityCount, k) == Count(ActivityKeys(items, codec), k)
  {
    var base := BaseCounts[0 := ("total", |items|)];
    BaseLookup(base, |items|);
    CountsFrom(base, StatusKeys(items), |items|);
    Stats(TallyFrom(base, StatusKeys(items)), TallyOf(ActivityKeys(items, codec)))
  }

  /** The four statuses a row can have. */
  predicate KnownStatus(k: string) {
    k == "pending" || k == "approved" || k == "rejected" || k == "delete_requested"
  }

  /** When every row has one of the four statuses, the four counters add up to the total. */
  lemma CountersAddUp(items: seq<Item>, codec: Codec)
    requires forall i :: i in items ==> Get(i, "status").Str? && KnownStatus(Get(i, "status").s)
    ensures var c := DashboardStats(items, codec).counts;
            Lookup(c, "pending") + Lookup(c, "approved") + Lookup(c, "rejected") + Lookup(c, "delete_requested")
            == Lookup(c, "total")
  {
    var keys := StatusKeys(items);
    forall j | 0 <= j < |keys| ensures KnownStatus(keys[j]) {
      assert items[j] in items;
    }
    CountFour(keys);
  }

  lemma {:induction false} CountFour(keys: seq<string>)
    requires forall j :: 0 <= j < |keys| ==> KnownStatus(keys[j])
    ensures Count(keys, "pending") + Count(keys, "approved") + Count(keys, "rejected") + Count(keys, "delete_requested") == |keys|
    ensures Count(keys, "total") == 0
    decreases |keys|
  {
    if |keys| > 0 {
      CountFour(keys[1..]);
    }
  }
}

=== FILE: auth_middleware.dfy ===
/** The two Express middlewares that guard the protected routes:
    `authenticateToken` (bearer token from the Authorization header) and
    `requireRole(...roles)`. Token verification is an uninterpreted oracle. */
module AuthMiddleware {
  import opened Options
  import opened Text

  /** Payload of a token signed with the server secret. Session tokens carry
      `{id, role}`; confirmation tokens, signed with the same secret, carry only `{id}`. */
  datatype Claims = Claims(id: Option<int>, role: Option<string>)

  /** `jwt.verify(token, SECRET)`: `None` where it throws (bad signature, expired). */
  type Verifier = string -> Option<Claims>

  /** `authHeader?.split(' ')[1]`, kept only when truthy. */
  function BearerToken(header: Option<string>): (t: Option<string>)
    ensures t.Some? ==> t.value != "" && ' ' !in t.value
    ensures header.None? ==> t.None?
  {
    match header
    case None => None
    case Some(h) =>
      var parts := Split(h, ' ');
      if |parts| >= 2 && parts[1] != "" then Some(parts[1]) else None
  }

  /** The token is the second space-separated word: `Bearer <token>`, with or
      without further words after it. */
  lemma BearerTokenOfScheme(scheme: string, token: string, tail: string)
    requires ' ' !in scheme && ' ' !in token && token != ""
    ensures BearerToken(Some(scheme + " " + token)) == Some(token)
    ensures BearerToken(Some(scheme + " " + token + " " + tail)) == Some(token)
  {
    SplitNoSep(token, ' ');
    SplitAfter(scheme, ' ', token);
    assert scheme + " " + token == scheme + [' '] + token;
    SplitAfter(token, ' ', tail);
    SplitAfter(scheme, ' ', token + [' '] + tail);
    assert scheme + " " + token + " " + tail == scheme + [' '] + (token + [' '] + tail);
  }

  /** A header without a space (a bare token, or just "Bearer") yields no token. */
  lemma NoSpaceNoToken(h: string)
    requires ' ' !in h
    ensures BearerToken(Some(h)).None?
  {
    SplitNoSep(h, ' ');
  }

  /** Outcome of the middleware chain: the request goes on with `req.user`, or stops with a status. */
  datatype Gate = Pass(user: Claims) | Stop(code: nat)

  /** `authenticateToken`: 401 without a token, 403 when the token does not verify,
      otherwise the payload becomes `req.user`. */
  function Authenticate(header: Option<string>, verify: Verifier): (g: Gate)
    ensures g == Stop(401) <==> BearerToken(header).None?
    ensures g == Stop(403) <==> BearerToken(header).Some? && verify(BearerToken(header).value).None?
    ensures g.Pass? ==> BearerToken(header).Some? && verify(BearerToken(header).value) == Some(g.user)
    ensures BearerToken(header).Some? && verify(BearerToken(header).value).Some? ==>
              g == Pass(verify(BearerToken(header).value).value)
  {
    match BearerToken(header)
    case None => Stop(401)
    case Some(token) =>
      match verify(token)
      case None => Stop(403)
      case Some(claims) => Pass(claims)
  }

  /** `requireRole(...roles)` applied after `authenticateToken`. */
  function RequireRole(g: Gate, roles: seq<string>): (r: Gate)
    ensures r.Pass? ==> g == r && r.user.role.Some? && r.user.role.value in roles
    ensures g.Pass? && !(g.user.role.Some? && g.user.role.value in roles) ==> r == Stop(403)
    ensures g.Stop? ==> r == g
  {
    match g
    case Stop(code) => g
    case Pass(user) =>
      if user.role.Some? && user.role.value in roles then g else Stop(403)
  }

  /** `authenticateToken, requireRole('admin')`, the chain in front of every admin route. */
  function AdminGate(header: Option<string>, verify: Verifier): (g: Gate)
    ensures g.Pass? ==> Authenticate(header, verify) == g && IsAdmin(g.user)
    ensures Authenticate(header, verify).Pass? && IsAdmin(Authenticate(header, verify).user) ==> g.Pass?
    ensures g.Stop? ==> g.code == 401 || g.code == 403
  {
    RequireRole(Authenticate(header, verify), ["admin"])
  }

  predicate IsAdmin(c: Claims) {
    c.role == Some("admin")
  }
}

=== FILE: auth_routes.dfy ===
/** The account routes mounted under `/api/auth`: registration, e-mail
    confirmation, login and the two-step password reset. Token signing and
    verification and bcrypt are parameters; sending mail is left out, since
    the mailer swallows its own errors and never changes a reply. */
module Accounts {
  import opened Options
  import opened Seqs
  import opened Text
  import opened AuthMiddleware
  import opened Store
  import opened EmailRule

  /** `bcrypt.hash(password, 10)`. */
  type Hasher = string -> string

  /** `bcrypt.compare(password, hash)`. */
  type PasswordCheck = (string, string) -> bool

  /** The user object login returns: the row without password, confirmation or dates. */
  datatype Profile = Profile(
    id: nat, email: string, role: string, name: string, surname: string, phone: string, organization: string)

  /** A row of the admin user listing: no password and no organization. */
  datatype UserView = UserView(
    id: nat, email: string, role: string, name: string, surname: string, phone: string,
    createdAt: int, lastLogin: Option<int>, confirmed: bool)

  datatype AccountBody =
    | Nothing
    | Registered(id: nat)
    | Session(user: Profile)
    | Said(message: string)
    | Users(views: seq<UserView>)

  datatype AccountReply = AccountReply(db: Db, code: nat, body: AccountBody)

  /** The fields `POST /register` reads from its JSON body. */
  datatype Registration = Registration(
    email: Option<string>, password: Option<string>, name: Option<string>,
    surname: Option<string>, phone: Option<string>, organization: Option<string>)

  /** A body field that is present and truthy. */
  predicate Given(v: Option<string>) {
    v.Some? && v.value != ""
  }

  predicate AllGiven(g: Registration) {
    Given(g.email) && Given(g.password) && Given(g.name) &&
    Given(g.surname) && Given(g.phone) && Given(g.organization)
  }

  /** `SELECT * FROM users WHERE LOWER(email) = LOWER(?)` finds a row. */
  predicate EmailTaken(users: seq<User>, email: string) {
    exists u :: u in users && Lower(u.email) == Lower(email)
  }

  /** No two accounts share an address up to case. */
  predicate UniqueEmails(users: seq<User>) {
    forall i, j :: 0 <= i < |users| && 0 <= j < |users| && i != j ==> Lower(users[i].email) != Lower(users[j].email)
  }

  lemma LowerIdempotent(s: string)
    ensures Lower(Lower(s)) == Lower(s)
  {
  }

  /** `POST /api/auth/register`: every field is required, the address must match the
      pattern and must not be in use in any case; the account is stored unconfirmed,
      as an editor, with the address lowercased and the password hashed. */
  function Register(db: Db, g: Registration, hash: Hasher, now: int): (r: AccountReply)
    ensures r.code != 201 ==> r.db == db && r.code == 400
    ensures r.code == 201 <==>
              AllGiven(g) && Matches(g.email.value) && !EmailTaken(db.users, g.email.value)
    ensures r.code == 201 ==>
              var n := |db.users|;
              |r.db.users| == n + 1 && r.db.users[..n] == db.users &&
              r.db.initiatives == db.initiatives && r.db.photos == db.photos &&
              r.body == Registered(db.nextUserId) &&
              r.db.users[n].id == db.nextUserId &&
              r.db.users[n].email == Lower(g.email.value) &&
              r.db.users[n].password == hash(g.password.value) &&
              r.db.users[n].role == "editor" &&
              !r.db.users[n].confirmed && r.db.users[n].lastLogin.None? &&
              r.db.users[n].organization == g.organization.value
  {
    if !AllGiven(g) then AccountReply(db, 400, Said("Tous les champs sont requis."))
    else if !Matches(g.email.value) then AccountReply(db, 400, Said("Email invalide"))
    else if EmailTaken(db.users, g.email.value) then AccountReply(db, 400, Said("Email déjà utilisé"))
    else
      var u := User(db.nextUserId, Lower(g.email.value), hash(g.password.value), "editor",
                    g.name.value, g.surname.value, g.phone.value, g.organization.value, false, now, None);
      AccountReply(db.(users := db.users + [u], nextUserId := db.nextUserId + 1), 201, Registered(u.id))
  }

  /** Registration keeps the table valid and the addresses unique up to case. */
  lemma RegisterKeepsInvariants(db: Db, g: Registration, hash: Hasher, now: int)
    requires Valid(db) && UniqueEmails(db.users)
    ensures Valid(Register(db, g, hash, now).db)
    ensures UniqueEmails(Register(db, g, hash, now).db.users)
  {
    var r := Register(db, g, hash, now);
    if r.code == 201 {
      var n := |db.users|;
      var u := r.db.users[n];
      assert r.db.users == db.users + [u];
      AppendKeepsUserIds(db.users, db.nextUserId, u);
      LowerIdempotent(g.email.value);
      forall i, j | 0 <= i < |r.db.users| && 0 <= j < |r.db.users| && i != j
        ensures Lower(r.db.users[i].email) != Lower(r.db.users[j].email)
      {
        if i == n {
          assert r.db.users[j] in db.users;
        } else if j == n {
          assert r.db.users[i] in db.users;
        }
      }
    }
  }

  /** Once an address is registered, registering it again in any mix of case is refused. */
  lemma RegisterTwiceRefused(db: Db, g: Registration, g2: Registration, hash: Hasher, now: int, now2: int)
    requires Register(db, g, hash, now).code == 201
    requires g2.email.Some? && Lower(g2.email.value) == Lower(g.email.value)
    ensures Register(Register(db, g, hash, now).db, g2, hash, now2).code == 400
  {
    var db2 := Register(db, g, hash, now).db;
    LowerIdempotent(g.email.value);
    assert db2.users[|db.users|] in db2.users;
    assert EmailTaken(db2.users, g2.email.value);
  }

  /** `UPDATE users SET confirmed = true WHERE id = ?`; an absent id matches nothing. */
  function ConfirmWhere(users: seq<User>, id: Option<int>): (r: seq<User>)
    ensures |r| == |users|
    ensures forall i :: 0 <= i < |users| ==>
              r[i] == (if Some(users[i].id as int) == id then users[i].(confirmed := true) else users[i])
  {
    seq(|users|, i requires 0 <= i < |users| => if Some(users[i].id as int) == id then users[i].(confirmed := true) else users[i])
  }

  /** Confirming is idempotent, and an account once confirmed stays confirmed. */
  lemma ConfirmWhereIdempotent(users: seq<User>, id: Option<int>)
    ensures ConfirmWhere(ConfirmWhere(users, id), id) == ConfirmWhere(users, id)
    ensures forall i :: 0 <= i < |users| && users[i].confirmed ==> ConfirmWhere(users, id)[i] == users[i]
  {
  }

  /** `GET /api/auth/confirm/:token`: a token that verifies confirms the account of its
      id, and only that one; any other token is 400 with no change. */
  function Confirm(db: Db, token: string, verify: Verifier): (r: AccountReply)
    ensures verify(token).None? <==> r.code == 400
    ensures r.code == 400 ==> r.db == db
    ensures r.code != 400 ==> r.code == 200
    ensures r.code == 200 ==> r.db == db.(users := ConfirmWhere(db.users, verify(token).value.id))
    ensures |r.db.users| == |db.users|
    ensures forall i :: 0 <= i < |db.users| ==>
              r.db.users[i].confirmed == (db.users[i].confirmed || (verify(token).Some? && verify(token).value.id == Some(db.users[i].id as int)))
  {
    match verify(token)
    case None => AccountReply(db, 400, Said("Lien invalide ou expiré."))
    case Some(c) => AccountReply(db.(users := ConfirmWhere(db.users, c.id)), 200, Said("Email confirmé."))
  }

  lemma ConfirmIdempotent(db: Db, token: string, verify: Verifier)
    ensures Confirm(Confirm(db, token, verify).db, token, verify) == Confirm(db, token, verify)
  {
    if verify(token).Some? {
      ConfirmWhereIdempotent(db.users, verify(token).value.id);
    }
  }

  /** `SELECT * FROM users WHERE email = ?` then `rows[0]`: the first row with exactly
      that address. An absent address matches nothing. */
  function FirstWithEmail(users: seq<User>, email: Option<string>): (r: Option<User>)
    ensures r.Some? ==> r.value in users && Some(r.value.email) == email
    ensures r.None? <==> forall u :: u in users ==> Some(u.email) != email
  {
    if |users| == 0 then None
    else if Some(users[0].email) == email then Some(users[0])
    else FirstWithEmail(users[1..], email)
  }

  function ProfileOf(u: User): (p: Profile)
    ensures p.id == u.id && p.email == u.email && p.role == u.role
    ensures p.organization == u.organization
  {
    Profile(u.id, u.email, u.role, u.name, u.surname, u.phone, u.organization)
  }

  /** `UPDATE users SET last_login = NOW() WHERE id = ?`. */
  function TouchLogin(users: seq<User>, id: nat, now: int): (r: seq<User>)
    ensures |r| == |users|
    ensures forall i :: 0 <= i < |users| ==>
              r[i] == (if users[i].id == id then users[i].(lastLogin := Some(now)) else users[i])
  {
    seq(|users|, i requires 0 <= i < |users| => if users[i].id == id then users[i].(lastLogin := Some(now)) else users[i])
  }

  /** `POST /api/auth/login`. The checks run in this order: unknown address 401, then
      unconfirmed account 403 whatever the password, then a wrong password 401. A
      missing password makes bcrypt throw (500). On success the last-login time is
      recorded and the profile, without the password, is returned. */
  function Login(db: Db, email: Option<string>, password: Option<string>, check: PasswordCheck, now: int): (r: AccountReply)
    ensures r.code != 200 ==> r.db == db
    ensures FirstWithEmail(db.users, email).None? ==> r.code == 401
    ensures FirstWithEmail(db.users, email).Some? && !FirstWithEmail(db.users, email).value.confirmed ==> r.code == 403
    ensures (FirstWithEmail(db.users, email).Some? && FirstWithEmail(db.users, email).value.confirmed &&
             password.None?) ==> r.code == 500
    ensures (FirstWithEmail(db.users, email).Some? && FirstWithEmail(db.users, email).value.confirmed &&
             password.Some? && !check(password.value, FirstWithEmail(db.users, email).value.password)) ==> r.code == 401
    ensures r.code == 200 <==>
              FirstWithEmail(db.users, email).Some? && FirstWithEmail(db.users, email).value.confirmed &&
              password.Some? && check(password.value, FirstWithEmail(db.users, email).value.password)
    ensures r.code == 200 ==>
              var u := FirstWithEmail(db.users, email).value;
              r.body == Session(ProfileOf(u)) && r.db == db.(users := TouchLogin(db.users, u.id, now))
    ensures r.code in {200, 401, 403, 500}
  {
    match FirstWithEmail(db.users, email)
    case None => AccountReply(db, 401, Said("Identifiants invalides"))
    case Some(u) =>
      if !u.confirmed then AccountReply(db, 403, Said("Veuillez confirmer votre email avant de vous connecter."))
      else if password.None? then AccountReply(db, 500, Nothing)
      else if !check(password.value, u.password) then AccountReply(db, 401, Said("Identifiants invalides"))
      else AccountReply(db.(users := TouchLogin(db.users, u.id, now)), 200, Session(ProfileOf(u)))
  }

  /** A login changes nothing but the last-login time of the account that logged in. */
  lemma LoginTouchesOnlyLastLogin(db: Db, email: Option<string>, password: Option<string>, check: PasswordCheck, now: int)
    ensures var r := Login(db, email, password, check, now);
            |r.db.users| == |db.users| &&
            forall i :: 0 <= i < |db.users| ==> r.db.users[i].(lastLogin := db.users[i].lastLogin) == db.users[i]
  {
  }

  const ResetNotice := "Si le compte existe, un lien de réinitialisation a été envoyé."

  /** `POST /api/auth/request-reset`: a missing address is 400; otherwise the reply is
      the same notice whether or not an account has that address. */
  function RequestReset(db: Db, email: Option<string>): (r: AccountReply)
    ensures r.db == db
    ensures r.code == 400 <==> !Given(email)
    ensures Given(email) ==> r.code == 200 && r.body == Said(ResetNotice)
  {
    if !Given(email) then AccountReply(db, 400, Said("Email requis"))
    else AccountReply(db, 200, Said(ResetNotice))
  }

  /** The reply does not reveal whether the address is registered: two stores, one with
      the account and one without, give the same answer. */
  lemma RequestResetHidesAccounts(db1: Db, db2: Db, email: Option<string>)
    ensures RequestReset(db1, email).code == RequestReset(db2, email).code
    ensures RequestReset(db1, email).body == RequestReset(db2, email).body
  {
  }

  /** `GET /api/auth/reset/:token`: 200 exactly when the reset token verifies. */
  function CheckResetToken(token: string, verifyReset: Verifier): (code: nat)
    ensures code == 200 <==> verifyReset(token).Some?
    ensures code != 200 ==> code == 400
  {
    if verifyReset(token).Some? then 200 else 400
  }

  const MinPasswordLength: nat := 8

  /** `UPDATE users SET password = ? WHERE id = ?`. */
  function SetPasswordWhere(users: seq<User>, id: Option<int>, hashed: string): (r: seq<User>)
    ensures |r| == |users|
    ensures forall i :: 0 <= i < |users| ==>
              r[i] == (if Some(users[i].id as int) == id then users[i].(password := hashed) else users[i])
  {
    seq(|users|, i requires 0 <= i < |users| => if Some(users[i].id as int) == id then users[i].(password := hashed) else users[i])
  }

  /** `POST /api/auth/reset/:token`: a missing or short password is 400 before the token
      is even looked at; a token that does not verify is 400; otherwise the password of
      the token's account is replaced by its hash. */
  function ApplyReset(db: Db, token: string, password: Option<string>, verifyReset: Verifier, hash: Hasher): (r: AccountReply)
    ensures r.code != 200 ==> r.db == db && r.code == 400
    ensures password.None? || |password.value| < MinPasswordLength ==> r.code == 400
    ensures r.code == 200 <==>
              password.Some? && |password.value| >= MinPasswordLength && verifyReset(token).Some?
    ensures r.code == 200 ==>
              r.db == db.(users := SetPasswordWhere(db.users, verifyReset(token).value.id, hash(password.value)))
  {
    if password.None? || |password.value| < MinPasswordLength then
      AccountReply(db, 400, Said("Mot de passe trop court (min 8 caractères)"))
    else match verifyReset(token)
      case None => AccountReply(db, 400, Said("Token invalide ou expiré"))
      case Some(c) =>
        AccountReply(db.(users := SetPasswordWhere(db.users, c.id, hash(password.value))), 200, Said("Mot de passe mis à jour"))
  }

  /** A short password is refused whatever the token and the verifier say. */
  lemma ShortPasswordRefusedFirst(db: Db, t1: string, t2: string, password: string, v1: Verifier, v2: Verifier, hash: Hasher)
    requires |password| < MinPasswordLength
    ensures ApplyReset(db, t1, Some(password), v1, hash) == ApplyReset(db, t2, Some(password), v2, hash)
  {
  }
}

=== FILE: carto.dfy ===
/** The public map page: the approved initiatives are normalised once, then
    narrowed by the search box and the filter controls; the drop-downs offer
    the distinct values seen, and the side panel counts the points by actor. */
module Carto {
  import opened Seqs
  import opened Text
  import opened JsValues
  import opened Tally
  import opened ClientValues
  import opened FilterControls

  /** `parsePoint`: the activities and extra fields are parsed and a missing photo
      list becomes empty; every other property is kept. */
  function ParsePoint(pt: Item, codec: Codec): (r: Item)
    ensures Get(r, "activities") == ParseActivities(Get(pt, "activities"), codec)
    ensures Get(r, "extra_fields") == ParseExtra(Get(pt, "extra_fields"), codec)
    ensures Get(r, "photos") == (if Truthy(Get(pt, "photos")) then Get(pt, "photos") else Arr([]))
    ensures forall k :: k != "activities" && k != "extra_fields" && k != "photos" ==> Get(r, k) == Get(pt, k)
  {
    var photos := Get(pt, "photos");
    var acts := ParseActivities(Get(pt, "activities"), codec);
    var extra := ParseExtra(Get(pt, "extra_fields"), codec);
    var shown := if Truthy(photos) then photos else Arr([]);
    PointColumnsDistinct();
    SetThreeFields(pt, "activities", "extra_fields", "photos", acts, extra, shown);
    SetField(SetField(SetField(pt, "activities", acts), "extra_fields", extra), "photos", shown)
  }

  lemma PointColumnsDistinct()
    ensures "activities" != "extra_fields" && "activities" != "photos" && "extra_fields" != "photos"
  {
    assert "activities"[0] == 'a' && "extra_fields"[0] == 'e' && "photos"[0] == 'p';
  }

  /** `` `${k}: ${v}` `` for each extra field. */
  function EntryTexts(es: Item): (r: seq<Value>)
    ensures |r| == |es|
    ensures forall i :: 0 <= i < |es| ==> r[i] == Str(es[i].0 + ": " + ToJsString(es[i].1))
  {
    seq(|es|, i requires 0 <= i < |es| => Str(es[i].0 + ": " + ToJsString(es[i].1)))
  }

  /** What the search box looks into: the row's text and activities, then the extra fields. */
  function SearchPieces(pt: Item): (r: seq<Value>)
    ensures |r| >= 5
    ensures forall i :: 0 <= i < 5 ==> r[i] == Get(pt, SearchedColumns[i])
  {
    RowPieces(pt) + EntryTexts(ObjectEntries(Get(pt, "extra_fields")))
  }

  predicate SearchOk(pt: Item, term: string) {
    term == "" || Contains(Haystack(SearchPieces(pt)), term)
  }

  /** Some activity of the point equals `want`, ignoring case. */
  predicate HasActivity(pt: Item, want: Value) {
    exists a :: a in Elements(Get(pt, "activities")) && Lowered(a) == Lowered(want)
  }

  /** At least one selected activity matches; no selection lets everything through. */
  predicate ActivityOk(pt: Item, f: Filters) {
    |f.activities| == 0 || exists w :: w in f.activities && HasActivity(pt, w)
  }

  /** The actor filter applies only when both the filter and the point's actor type are set. */
  predicate ActorOk(pt: Item, f: Filters) {
    var t := Get(pt, "actor_type");
    !(f.actor != "" && Truthy(t)) || Contains(Lowered(t), Lower(f.actor))
  }

  predicate CommuneOk(pt: Item, f: Filters) {
    var c := Get(pt, "commune");
    !(f.commune != "" && Truthy(c)) || Contains(Lowered(c), Lower(f.commune))
  }

  predicate Keep(pt: Item, term: string, f: Filters) {
    SearchOk(pt, term) && ActivityOk(pt, f) && ActorOk(pt, f) && CommuneOk(pt, f)
  }

  function KeepFor(term: string, f: Filters): Item -> bool {
    (pt: Item) => Keep(pt, term, f)
  }

  /** The search term: the box's text trimmed and lower-cased. */
  function Term(search: string): string {
    Lower(Trim(search))
  }

  /** `filtered`: the points passing the search and all three filters, in the server's order. */
  function Filtered(raw: seq<Item>, search: string, f: Filters): (r: seq<Item>)
    ensures Subsequence(r, raw)
    ensures forall pt :: pt in r <==> pt in raw && Keep(pt, Term(search), f)
    ensures Trim(search) == "" && f == NoFilters ==> r == raw
  {
    Filter(raw, KeepFor(Term(search), f))
  }

  /** A point whose name, description, commune, village or actor type contains the
      term is found by the search. */
  lemma SearchFindsColumn(raw: seq<Item>, search: string, pt: Item, column: nat)
    requires pt in raw && column < 5
    requires Truthy(Get(pt, SearchedColumns[column]))
    requires Contains(Lowered(Get(pt, SearchedColumns[column])), Term(search))
    ensures pt in Filtered(raw, search, NoFilters)
  {
    PieceInHaystack(SearchPieces(pt), column, Term(search));
  }

  /** Typing more only narrows the list: a point found by a longer term that contains
      the shorter one is found by the shorter one. */
  lemma LongerTermNarrows(raw: seq<Item>, short: string, long: string, f: Filters)
    requires Contains(Term(long), Term(short))
    ensures forall pt :: pt in Filtered(raw, long, f) ==> pt in Filtered(raw, short, f)
  {
    var i :| 0 <= i <= |Term(long)| - |Term(short)| && OccursAt(Term(long), Term(short), i);
    assert |Term(short)| <= |Term(long)|;
    forall pt | pt in Filtered(raw, long, f) ensures SearchOk(pt, Term(short)) {
      if Term(short) != "" {
        ContainsTransitive(Haystack(SearchPieces(pt)), Term(long), Term(short));
      }
    }
  }

  /** The actor filter lets through the points that have no actor type at all. */
  lemma UntypedPointsPassActorFilter(raw: seq<Item>, pt: Item, actor: string)
    requires pt in raw && !Truthy(Get(pt, "actor_type"))
    ensures pt in Filtered(raw, "", SetActor(NoFilters, actor))
  {
    EmptyTerm();
    assert Keep(pt, "", SetActor(NoFilters, actor));
  }

  lemma KeptIsShown(raw: seq<Item>, pt: Item, f: Filters)
    requires pt in raw && Keep(pt, "", f)
    ensures pt in Filtered(raw, "", f)
  {
    EmptyTerm();
  }

  lemma EmptyTerm()
    ensures Term("") == ""
  {
    assert Trim("") == "";
  }

  /** Choosing an actor type offered by the drop-down keeps every point of that type. */
  lemma ChosenActorKeepsItsPoints(raw: seq<Item>, pt: Item)
    requires pt in raw && Truthy(Get(pt, "actor_type"))
    ensures pt in Filtered(raw, "", SetActor(NoFilters, ToJsString(Get(pt, "actor_type"))))
  {
    var f := SetActor(NoFilters, ToJsString(Get(pt, "actor_type")));
    ChosenActorPasses(pt, f);
    KeptIsShown(raw, pt, f);
  }

  lemma ChosenActorPasses(pt: Item, f: Filters)
    requires Truthy(Get(pt, "actor_type")) && f == SetActor(NoFilters, ToJsString(Get(pt, "actor_type")))
    ensures Keep(pt, "", f)
  {
    var t := Get(pt, "actor_type");
    assert Lower(f.actor) == Lowered(t);
    ContainsSelf(Lowered(t));
    assert ActorOk(pt, f);
  }

  /** Clicking an activity button keeps every point that carries that activity. */
  lemma ChosenActivityKeepsItsPoints(raw: seq<Item>, pt: Item, a: Value)
    requires pt in raw && a in Elements(Get(pt, "activities"))
    ensures pt in Filtered(raw, "", ToggleActivity(NoFilters, a))
  {
    var f := ToggleActivity(NoFilters, a);
    ChosenActivityPasses(pt, a, f);
    KeptIsShown(raw, pt, f);
  }

  lemma ChosenActivityPasses(pt: Item, a: Value, f: Filters)
    requires a in Elements(Get(pt, "activities")) && f == ToggleActivity(NoFilters, a)
    ensures Keep(pt, "", f)
  {
    assert HasActivity(pt, a);
    assert a in f.activities;
  }

  /** Every activity of every point, in order. */
  function AllActivities(raw: seq<Item>): (r: seq<Value>)
    ensures forall a :: a in r <==> exists pt :: pt in raw && a in Elements(Get(pt, "activities"))
  {
    if |raw| == 0 then []
    else
      var head := Elements(Get(raw[0], "activities"));
      var r := head + AllActivities(raw[1..]);
      forall a ensures a in r <==> exists pt :: pt in raw && a in Elements(Get(pt, "activities")) {
        if exists pt :: pt in raw && a in Elements(Get(pt, "activities")) {
          var pt :| pt in raw && a in Elements(Get(pt, "activities"));
          if pt != raw[0] {
            assert pt in raw[1..];
          }
        }
      }
      r
  }

  function ColumnValues(raw: seq<Item>, column: string): (r: seq<Value>)
    ensures |r| == |raw|
    ensures forall i :: 0 <= i < |raw| ==> r[i] == Get(raw[i], column)
  {
    seq(|raw|, i requires 0 <= i < |raw| => Get(raw[i], column))
  }

  /** The truthy values of a column are those some point holds there. */
  lemma TruthyColumnValues(raw: seq<Item>, column: string)
    ensures forall v :: v in Filter(ColumnValues(raw, column), Truthy) <==>
              Truthy(v) && exists pt :: pt in raw && Get(pt, column) == v
  {
    var values := ColumnValues(raw, column);
    forall v ensures v in values <==> exists pt :: pt in raw && Get(pt, column) == v {
      if v in values {
        var i :| 0 <= i < |raw| && values[i] == v;
        assert raw[i] in raw && Get(raw[i], column) == v;
      }
      if exists pt :: pt in raw && Get(pt, column) == v {
        var pt :| pt in raw && Get(pt, column) == v;
        var i :| 0 <= i < |raw| && raw[i] == pt;
        assert values[i] == v;
      }
    }
  }

  /** The options offered to the filter controls. Activities are offered as they
      are, empty ones included; actor types and communes only when truthy. */
  datatype Options = Options(activities: seq<Value>, actors: seq<Value>, communes: seq<Value>)

  method UniqueOptions(raw: seq<Item>) returns (o: Options)
    ensures NoDup(o.activities) && NoDup(o.actors) && NoDup(o.communes)
    ensures forall a :: a in o.activities <==> exists pt :: pt in raw && a in Elements(Get(pt, "activities"))
    ensures forall a :: a in o.actors <==> Truthy(a) && exists pt :: pt in raw && Get(pt, "actor_type") == a
    ensures forall c :: c in o.communes <==> Truthy(c) && exists pt :: pt in raw && Get(pt, "commune") == c
    ensures o.activities == Dedup(AllActivities(raw))
    ensures o.actors == Dedup(Filter(ColumnValues(raw, "actor_type"), Truthy))
    ensures o.communes == Dedup(Filter(ColumnValues(raw, "commune"), Truthy))
  {
    var acts := Distinct(AllActivities(raw));
    TruthyColumnValues(raw, "actor_type");
    TruthyColumnValues(raw, "commune");
    var actors := Distinct(Filter(ColumnValues(raw, "actor_type"), Truthy));
    var communes := Distinct(Filter(ColumnValues(raw, "commune"), Truthy));
    o := Options(acts, actors, communes);
  }

  /** The label the side panel counts a point under. */
  const Unspecified := "Non renseigné"

  function ActorKey(pt: Item): string {
    var t := Get(pt, "actor_type");
    if Truthy(t) then ToJsString(t) else Unspecified
  }

  function ActorKeys(pts: seq<Item>): (r: seq<string>)
    ensures |r| == |pts|
    ensures forall i :: 0 <= i < |pts| ==> r[i] == ActorKey(pts[i])
  {
    seq(|pts|, i requires 0 <= i < |pts| => ActorKey(pts[i]))
  }

  datatype MapStats = MapStats(total: nat, actors: Table<string>)

  /** `stats`: the number of points shown and, per actor type, how many of them have it. */
  function Stats(shown: seq<Item>): (r: MapStats)
    ensures r.total == |shown|
    ensures Total(r.actors) == r.total
    ensures forall k :: Lookup(r.actors, k) == Count(ActorKeys(shown), k)
    ensures forall k :: k in Keys(r.actors) <==> exists pt :: pt in shown && ActorKey(pt) == k
    ensures NoDup(Keys(r.actors))
  {
    var keys := ActorKeys(shown);
    var t := TallyOf(keys);
    forall k ensures k in Keys(t) <==> exists pt :: pt in shown && ActorKey(pt) == k {
      if exists pt :: pt in shown && ActorKey(pt) == k {
        var pt :| pt in shown && ActorKey(pt) == k;
        var i :| 0 <= i < |shown| && shown[i] == pt;
        assert keys[i] == k;
      }
    }
    MapStats(|shown|, t)
  }

  /** The points without an actor type are all counted under "Non renseigné". */
  lemma {:induction false} UnspecifiedCountsUntyped(shown: seq<Item>)
    ensures Lookup(Stats(shown).actors, Unspecified) >= |Filter(shown, UntypedTest())|
    decreases |shown|
  {
    if |shown| > 0 {
      UnspecifiedCountsUntyped(shown[1..]);
      assert ActorKeys(shown) == [ActorKey(shown[0])] + ActorKeys(shown[1..]);
    }
  }

  function UntypedTest(): Item -> bool {
    (pt: Item) => !Truthy(Get(pt, "actor_type"))
  }
}

=== FILE: client_values.dfy ===
/** What the React components do to the rows they receive: objects updated
    with the spread syntax, the tolerant JSON parsers each page carries, and
    the lower-cased "haystack" the search boxes look into. */
module ClientValues {
  import opened Options
  import opened Seqs
  import opened Text
  import opened JsValues

  /** A plain JavaScript object: its own properties in insertion order. */
  type Item = seq<(string, Value)>

  predicate HasKey(fs: Item, k: string) {
    exists i :: 0 <= i < |fs| && fs[i].0 == k
  }

  function Replace(fs: Item, k: string, v: Value): (r: Item)
    ensures |r| == |fs|
    ensures forall i :: 0 <= i < |fs| ==> r[i] == (if fs[i].0 == k then (k, v) else fs[i])
  {
    seq(|fs|, i requires 0 <= i < |fs| => if fs[i].0 == k then (k, v) else fs[i])
  }

  lemma {:induction false} GetReplace(fs: Item, k: string, v: Value, j: string)
    ensures Get(Replace(fs, k, v), j) == (if j == k && HasKey(fs, k) then v else Get(fs, j))
    decreases |fs|
  {
    if |fs| > 0 {
      var n := |fs| - 1;
      assert Replace(fs, k, v)[..n] == Replace(fs[..n], k, v);
      GetReplace(fs[..n], k, v, j);
      if fs[n].0 != k {
        assert HasKey(fs, k) ==> HasKey(fs[..n], k) by {
          if HasKey(fs, k) {
            var i :| 0 <= i < |fs| && fs[i].0 == k;
            assert fs[..n][i].0 == k;
          }
        }
      }
    }
  }

  /** `{ ...o, [k]: v }`: an existing property keeps its place and takes the new
      value; a new one is added at the end. */
  function SetField(fs: Item, k: string, v: Value): (r: Item)
    ensures Get(r, k) == v
    ensures forall j :: j != k ==> Get(r, j) == Get(fs, j)
    ensures HasKey(fs, k) ==> |r| == |fs|
    ensures !HasKey(fs, k) ==> |r| == |fs| + 1
  {
    if HasKey(fs, k) then
      var r := Replace(fs, k, v);
      forall j ensures Get(r, j) == (if j == k then v else Get(fs, j)) {
        GetReplace(fs, k, v, j);
      }
      r
    else
      assert (fs + [(k, v)])[..|fs|] == fs;
      fs + [(k, v)]
  }

  /** Three successive spreads of distinct properties: each takes its value and every
      other property keeps its own. */
  lemma SetThreeFields(i: Item, k1: string, k2: string, k3: string, v1: Value, v2: Value, v3: Value)
    requires k1 != k2 && k1 != k3 && k2 != k3
    ensures var r := SetField(SetField(SetField(i, k1, v1), k2, v2), k3, v3);
            Get(r, k1) == v1 && Get(r, k2) == v2 && Get(r, k3) == v3 &&
            forall j :: j != k1 && j != k2 && j != k3 ==> Get(r, j) == Get(i, j)
  {
  }

  /** Four successive spreads of distinct properties: each takes its value and every
      other property keeps its own. */
  lemma SetFourFields(i: Item, k1: string, k2: string, k3: string, k4: string,
                      v1: Value, v2: Value, v3: Value, v4: Value)
    requires k1 != k2 && k1 != k3 && k1 != k4 && k2 != k3 && k2 != k4 && k3 != k4
    ensures var r := SetField(SetField(SetField(SetField(i, k1, v1), k2, v2), k3, v3), k4, v4);
            Get(r, k1) == v1 && Get(r, k2) == v2 && Get(r, k3) == v3 && Get(r, k4) == v4 &&
            forall j :: j != k1 && j != k2 && j != k3 && j != k4 ==> Get(r, j) == Get(i, j)
  {
  }

  /** Setting the same property twice keeps only the second value. */
  lemma SetFieldTwice(fs: Item, k: string, v: Value, w: Value, j: string)
    ensures Get(SetField(SetField(fs, k, v), k, w), j) == Get(SetField(fs, k, w), j)
  {
  }

  /** `[...(v || [])]`: the elements of an array, the characters of a string,
      nothing for a falsy value. */
  function Spread(v: Value): (r: seq<Value>)
    ensures v.Arr? ==> r == v.items
    ensures v.Str? ==> |r| == |v.s| && forall i :: 0 <= i < |v.s| ==> r[i] == Str([v.s[i]])
    ensures !Truthy(v) ==> r == []
  {
    match v
    case Arr(items) => items
    case Str(s) => seq(|s|, i requires 0 <= i < |s| => Str([s[i]]))
    case _ => []
  }

  /** `(v || []).forEach(...)`: the elements of an array, nothing for a falsy value. */
  function Elements(v: Value): (r: seq<Value>)
    ensures v.Arr? ==> r == v.items
    ensures !Truthy(v) ==> r == []
  {
    if v.Arr? then v.items else []
  }

  /** `Object.entries(v || {})`: an object's properties; an array's or a string's
      positions written in decimal. */
  function ObjectEntries(v: Value): (r: Item)
    ensures v.Obj? ==> r == v.fields
    ensures v.Arr? ==> |r| == |v.items| && forall i :: 0 <= i < |r| ==> r[i] == (IntToString(i), v.items[i])
    ensures v.Str? ==> |r| == |v.s| && forall i :: 0 <= i < |r| ==> r[i] == (IntToString(i), Str([v.s[i]]))
    ensures !Truthy(v) ==> r == []
  {
    match v
    case Obj(fs) => fs
    case Arr(items) => seq(|items|, i requires 0 <= i < |items| => (IntToString(i), items[i]))
    case Str(s) => seq(|s|, i requires 0 <= i < |s| => (IntToString(i), Str([s[i]])))
    case _ => []
  }

  /** The map page's `parseActivities`: an array is kept, a string is parsed as
      JSON, and a string that is not JSON becomes a one-element list (or an empty
      one when it is empty); anything else gives an empty list. */
  function ParseActivities(a: Value, codec: Codec): (r: Value)
    ensures a.Arr? ==> r == a
    ensures a.Str? && codec.parse(a.s).Some? ==> r == codec.parse(a.s).value
    ensures a.Str? && codec.parse(a.s).None? ==> r == (if a.s != "" then Arr([a]) else Arr([]))
    ensures !a.Arr? && !a.Str? ==> r == Arr([])
  {
    match a
    case Arr(_) => a
    case Str(s) =>
      (match codec.parse(s)
       case Some(x) => x
       case None => if s != "" then Arr([a]) else Arr([]))
    case _ => Arr([])
  }

  /** The activities column the server wrote comes back as the list of strings it holds. */
  lemma ParseStoredActivities(xs: seq<string>, codec: Codec)
    requires codec.parse(codec.stringify(StrArr(xs))) == Some(StrArr(xs))
    ensures ParseActivities(Str(codec.stringify(StrArr(xs))), codec) == StrArr(xs)
    ensures Spread(ParseActivities(Str(codec.stringify(StrArr(xs))), codec)) == StrArr(xs).items
  {
  }

  /** Parsing twice changes nothing once the first pass produced an array. */
  lemma ParseActivitiesSettles(a: Value, codec: Codec)
    requires ParseActivities(a, codec).Arr?
    ensures ParseActivities(ParseActivities(a, codec), codec) == ParseActivities(a, codec)
  {
  }

  /** The map page's `parseExtra`: a falsy value is `{}`, an object or array is kept,
      anything else goes through `JSON.parse`, with `{}` when that throws. */
  function ParseExtra(e: Value, codec: Codec): (r: Value)
    ensures !Truthy(e) ==> r == Obj([])
    ensures e.Obj? || e.Arr? ==> r == e
    ensures Truthy(e) && !e.Obj? && !e.Arr? ==> r == codec.parse(ToJsString(e)).GetOr(Obj([]))
  {
    if !Truthy(e) then Obj([])
    else if e.Obj? || e.Arr? then e
    else codec.parse(ToJsString(e)).GetOr(Obj([]))
  }

  /** The extra-fields text the server stored comes back as the object it encodes. */
  lemma ParseStoredExtra(fs: Item, codec: Codec)
    requires codec.stringify(Obj(fs)) != ""
    requires codec.parse(codec.stringify(Obj(fs))) == Some(Obj(fs))
    ensures ParseExtra(Str(codec.stringify(Obj(fs))), codec) == Obj(fs)
  {
  }

  /** The dashboard's `parseMaybeJson`: null, undefined and `''` give the fallback,
      an object or array is kept, anything else goes through `JSON.parse`, with the
      fallback when that throws. Unlike `parseExtra`, `0` and `false` are parsed. */
  function ParseMaybeJson(v: Value, fallback: Value, codec: Codec): (r: Value)
    ensures v.Null? || v.Undefined? || v == Str("") ==> r == fallback
    ensures v.Obj? || v.Arr? ==> r == v
    ensures v.Num? || v.Bool? || (v.Str? && v.s != "") ==> r == codec.parse(ToJsString(v)).GetOr(fallback)
  {
    if v.Null? || v.Undefined? || v == Str("") then fallback
    else if v.Obj? || v.Arr? then v
    else codec.parse(ToJsString(v)).GetOr(fallback)
  }

  /** Where the two pages' parsers agree and where they differ: on a falsy value
      other than `0` and `false`, and on anything that is not a string or a
      number, `parseMaybeJson(v, {})` is `parseExtra(v)`; on `0` the dashboard
      parses the text `"0"`. */
  lemma ParsersAgreeOnText(v: Value, codec: Codec)
    requires !v.Num? && !v.Bool?
    ensures ParseMaybeJson(v, Obj([]), codec) == ParseExtra(v, codec)
  {
  }

  /** `a.toLowerCase()`, applied to the text of the value. */
  function Lowered(v: Value): string {
    Lower(ToJsString(v))
  }

  /** The five text columns both search boxes look at, in this order. */
  const SearchedColumns: seq<string> := ["initiative", "description", "commune", "village", "actor_type"]

  /** The five columns followed by the activities, spread. */
  function RowPieces(pt: Item): (r: seq<Value>)
    ensures |r| >= 5
    ensures forall i :: 0 <= i < 5 ==> r[i] == Get(pt, SearchedColumns[i])
  {
    [Get(pt, "initiative"), Get(pt, "description"), Get(pt, "commune"), Get(pt, "village"), Get(pt, "actor_type")]
    + Spread(Get(pt, "activities"))
  }

  /** Each value as `Array.prototype.join` prints it. */
  function Texts(vs: seq<Value>): (r: seq<string>)
    ensures |r| == |vs|
    ensures forall i :: 0 <= i < |vs| ==> r[i] == ElementString(vs[i])
  {
    seq(|vs|, i requires 0 <= i < |vs| => ElementString(vs[i]))
  }

  /** `[...].filter(Boolean).join(' ').toLowerCase()`: the text a search term is looked for in. */
  function Haystack(pieces: seq<Value>): string {
    Lower(Join(Texts(Filter(pieces, Truthy)), " "))
  }

  /** Every truthy piece is in the haystack, lower-cased; so a term found in one
      piece is found in the haystack. */
  lemma PieceInHaystack(pieces: seq<Value>, i: nat, term: string)
    requires i < |pieces| && Truthy(pieces[i])
    requires Contains(Lower(ToJsString(pieces[i])), term)
    ensures Contains(Haystack(pieces), term)
  {
    var kept := Filter(pieces, Truthy);
    assert pieces[i] in kept;
    var k :| 0 <= k < |kept| && kept[k] == pieces[i];
    var x := ToJsString(pieces[i]);
    assert Texts(kept)[k] == x;
    var before, after := JoinPart(Texts(kept), " ", k);
    LowerConcat(before, x, after);
    ContainsSelf(Lower(x));
    ContainsInfix(Lower(before), Lower(x), Lower(after), Lower(x));
    ContainsTransitive(Haystack(pieces), Lower(x), term);
  }

  lemma {:induction false} JoinAppend(x: seq<string>, y: seq<string>, sep: string) returns (rest: string)
    ensures Join(x + y, sep) == Join(x, sep) + rest
    decreases |x|
  {
    if |x| == 0 {
      assert x + y == y;
      rest := Join(y, sep);
    } else if |y| == 0 {
      assert x + y == x;
      rest := "";
    } else if |x| == 1 {
      assert (x + y)[1..] == y;
      rest := sep + Join(y, sep);
    } else {
      assert (x + y)[1..] == x[1..] + y;
      var r := JoinAppend(x[1..], y, sep);
      rest := r;
    }
  }

  lemma {:induction false} FilterAppend<T(!new)>(a: seq<T>, b: seq<T>, p: T -> bool)
    ensures Filter(a + b, p) == Filter(a, p) + Filter(b, p)
    decreases |a|
  {
    if |a| == 0 {
      assert a + b == b;
    } else {
      assert (a + b)[1..] == a[1..] + b;
      FilterAppend(a[1..], b, p);
    }
  }

  lemma TextsAppend(a: seq<Value>, b: seq<Value>)
    ensures Texts(a + b) == Texts(a) + Texts(b)
  {
  }

  lemma LowerAppend(a: string, b: string)
    ensures Lower(a + b) == Lower(a) + Lower(b)
  {
    LowerConcat(a, b, "");
    assert a + b + "" == a + b;
  }

  lemma ContainsPrefix(a: string, b: string, term: string)
    requires Contains(a, term)
    ensures Contains(a + b, term)
  {
    var i :| 0 <= i <= |a| - |term| && OccursAt(a, term, i);
    assert (a + b)[i..i + |term|] == a[i..i + |term|];
    assert OccursAt(a + b, term, i);
  }

  /** A term found among some pieces is still found when more pieces follow. */
  lemma HaystackGrows(a: seq<Value>, b: seq<Value>, term: string)
    requires Contains(Haystack(a), term)
    ensures Contains(Haystack(a + b), term)
  {
    var fa, fb := Filter(a, Truthy), Filter(b, Truthy);
    FilterAppend(a, b, Truthy);
    TextsAppend(fa, fb);
    var ta, tb := Texts(fa), Texts(fb);
    var rest := JoinAppend(ta, tb, " ");
    var head := Join(ta, " ");
    assert Join(Texts(Filter(a + b, Truthy)), " ") == head + rest;
    LowerAppend(head, rest);
    ContainsPrefix(Lower(head), Lower(rest), term);
  }
}

=== FILE: columns.dfy ===
/** How the initiative routes turn request values into column values:
    the multipart form values multer produces, JavaScript's `parseInt`,
    and the normalisation of the serialised columns (activities, videos,
    social_media, extra_fields, year). */
module Columns {
  import opened Options
  import opened Text
  import opened JsValues

  /** A multipart field after multer: absent, sent once (a string), or sent
      several times (an array of strings). */
  datatype FormValue = Absent | One(text: string) | Many(texts: seq<string>)

  /** How a list reaches the server when the client calls `data.append(name, x)`
      once per element. */
  function Entries(xs: seq<string>): (v: FormValue)
    ensures |xs| == 0 <==> v.Absent?
    ensures |xs| == 1 <==> v.One?
  {
    if |xs| == 0 then Absent else if |xs| == 1 then One(xs[0]) else Many(xs)
  }

  predicate FormTruthy(v: FormValue) {
    match v
    case Absent => false
    case One(s) => s != ""
    case Many(_) => true
  }

  /** `String(v)`, which `parseInt`, `parseFloat` and `JSON.parse` apply to their argument. */
  function FormString(v: FormValue): string {
    match v
    case Absent => "undefined"
    case One(s) => s
    case Many(xs) => Join(xs, ",")
  }

  /** Activities on creation: an array is kept, a truthy single value is wrapped,
      anything else is empty; the route's later `safeArray` leaves an array unchanged. */
  function ActivitiesOf(v: FormValue): (r: seq<string>)
    ensures v.Many? ==> r == v.texts
    ensures v.One? && v.text != "" ==> r == [v.text]
    ensures !FormTruthy(v) ==> r == []
  {
    match v
    case Many(xs) => xs
    case One(s) => if s != "" then [s] else []
    case Absent => []
  }

  /** `safeArray`: an array is kept, a non-blank string is wrapped, anything else is empty. */
  function SafeArray(v: FormValue): (r: seq<string>)
    ensures v.Many? ==> r == v.texts
    ensures v.One? && Trim(v.text) != "" ==> r == [v.text]
    ensures v.One? && Trim(v.text) == "" ==> r == []
    ensures v.Absent? ==> r == []
  {
    match v
    case Many(xs) => xs
    case One(s) => if Trim(s) != "" then [s] else []
    case Absent => []
  }

  /** The activities a client appends one by one arrive intact, except for the single
      empty activity, which the truthiness test turns into no activity. */
  lemma ActivitiesRoundTrip(xs: seq<string>)
    ensures ActivitiesOf(Entries(xs)) == xs <==> xs != [""]
  {
  }

  /** The video links a client appends arrive intact, except for a single blank link. */
  lemma VideosRoundTrip(xs: seq<string>)
    ensures SafeArray(Entries(xs)) == xs <==> !(|xs| == 1 && Trim(xs[0]) == "")
  {
  }

  /** `social_media ? JSON.parse(social_media) : []`, with `[]` when parsing throws. */
  function SocialMediaOf(v: FormValue, codec: Codec): (r: Value)
    ensures !FormTruthy(v) ==> r == Arr([])
    ensures FormTruthy(v) && codec.parse(FormString(v)).None? ==> r == Arr([])
    ensures FormTruthy(v) && codec.parse(FormString(v)).Some? ==> r == codec.parse(FormString(v)).value
  {
    if !FormTruthy(v) then Arr([])
    else codec.parse(FormString(v)).GetOr(Arr([]))
  }

  /** `extra_fields ? JSON.stringify(JSON.parse(extra_fields)) : null`, with null when parsing throws. */
  function ExtraFieldsOf(v: FormValue, codec: Codec): (r: Option<string>)
    ensures !FormTruthy(v) ==> r.None?
    ensures FormTruthy(v) && codec.parse(FormString(v)).None? ==> r.None?
    ensures FormTruthy(v) && codec.parse(FormString(v)).Some? ==>
              r == Some(codec.stringify(codec.parse(FormString(v)).value))
  {
    if !FormTruthy(v) then None
    else match codec.parse(FormString(v))
      case None => None
      case Some(x) => Some(codec.stringify(x))
  }

  /** A JSON document the client serialised comes back unchanged, provided the codec
      round-trips it and the text is not empty. */
  lemma JsonFieldRoundTrip(x: Value, codec: Codec)
    requires codec.parse(codec.stringify(x)) == Some(x) && codec.stringify(x) != ""
    ensures SocialMediaOf(One(codec.stringify(x)), codec) == x
    ensures ExtraFieldsOf(One(codec.stringify(x)), codec) == Some(codec.stringify(x))
  {
  }

  predicate IsRadixDigit(c: char, radix: nat) {
    if radix == 16 then IsDigit(c) || ('a' <= c <= 'f') || ('A' <= c <= 'F') else IsDigit(c)
  }

  function DigitValue(c: char): nat {
    if IsDigit(c) then c as int - '0' as int
    else if 'a' <= c <= 'f' then c as int - 'a' as int + 10
    else if 'A' <= c <= 'F' then c as int - 'A' as int + 10
    else 0
  }

  /** Length of the longest prefix made of digits of `radix`. */
  function DigitPrefix(s: string, radix: nat): (n: nat)
    ensures n <= |s|
    ensures forall i :: 0 <= i < n ==> IsRadixDigit(s[i], radix)
    ensures n < |s| ==> !IsRadixDigit(s[n], radix)
  {
    if |s| > 0 && IsRadixDigit(s[0], radix) then 1 + DigitPrefix(s[1..], radix) else 0
  }

  function DigitsValue(d: string, radix: nat): nat {
    if |d| == 0 then 0 else DigitsValue(d[..|d| - 1], radix) * radix + DigitValue(d[|d| - 1])
  }

  /** The unsigned part of `parseInt`: a `0x` prefix selects base 16, then the
      longest run of digits; `None` when there is no digit. */
  function ParseUnsigned(u: string): Option<nat> {
    var hex := |u| >= 2 && u[0] == '0' && (u[1] == 'x' || u[1] == 'X');
    var radix := if hex then 16 else 10;
    var body := if hex then u[2..] else u;
    var n := DigitPrefix(body, radix);
    if n == 0 then None else Some(DigitsValue(body[..n], radix))
  }

  /** JavaScript's `parseInt(s)` without a radix: leading whitespace, an optional
      sign, then the unsigned part; `None` is NaN. */
  function ParseInt(s: string): Option<int> {
    var t := StripStart(s, IsJsSpace);
    if |t| > 0 && (t[0] == '-' || t[0] == '+') then
      match ParseUnsigned(t[1..])
      case None => None
      case Some(m) => Some(if t[0] == '-' then -(m as int) else m as int)
    else
      match ParseUnsigned(t)
      case None => None
      case Some(m) => Some(m)
  }

  /** Text without a single digit is not a number: the year column becomes null. */
  lemma ParseIntNoDigits(s: string)
    requires forall i :: 0 <= i < |s| ==> !IsDigit(s[i])
    ensures ParseInt(s).None?
  {
    var t := StripStart(s, IsJsSpace);
    assert forall i :: 0 <= i < |t| ==> t[i] == s[|s| - |t| + i];
    UnsignedNoLeadingDigit(t);
    if |t| > 0 {
      UnsignedNoLeadingDigit(t[1..]);
    }
  }

  lemma UnsignedNoLeadingDigit(u: string)
    requires |u| > 0 ==> !IsDigit(u[0])
    ensures ParseUnsigned(u).None?
  {
  }

  lemma DecimalUnsigned(d: string)
    requires |d| >= 1 && forall i :: 0 <= i < |d| ==> IsDigit(d[i])
    requires |d| >= 2 ==> d[0] != '0'
    ensures ParseUnsigned(d) == Some(DigitsValue(d, 10))
  {
    assert DigitPrefix(d, 10) == |d|;
    assert d[..|d|] == d;
  }

  lemma {:induction false} NatToStringLeading(n: nat)
    ensures |NatToString(n)| >= 2 ==> NatToString(n)[0] != '0'
  {
    if n >= 10 {
      NatToStringLeading(n / 10);
      assert NatToString(n)[0] == NatToString(n / 10)[0];
    }
  }

  lemma {:induction false} NatToStringValue(n: nat)
    ensures DigitsValue(NatToString(n), 10) == n
  {
    var s := NatToString(n);
    DigitStringValue(n % 10);
    if n >= 10 {
      var q, d := n / 10, n % 10;
      NatToStringValue(q);
      assert s == NatToString(q) + DigitString(d);
      assert s[..|s| - 1] == NatToString(q);
      assert s[|s| - 1] == DigitString(d)[0];
      assert n == q * 10 + d;
    }
  }

  /** The digit printed for `d` reads back as `d`. */
  lemma DigitStringValue(d: nat)
    requires d < 10
    ensures DigitValue(DigitString(d)[0]) == d
  {
  }

  /** The unsigned part reads back the decimal text of a natural number. */
  lemma DecimalText(m: nat)
    ensures ParseUnsigned(NatToString(m)) == Some(m)
  {
    NatToStringLeading(m);
    NatToStringValue(m);
    DecimalUnsigned(NatToString(m));
  }

  /** Text that starts with a sign or a digit has no leading whitespace to skip. */
  lemma NoLeadingSpace(s: string)
    requires |s| > 0 && (s[0] == '-' || IsDigit(s[0]))
    ensures StripStart(s, IsJsSpace) == s
  {
    assert !IsJsSpace(s[0]);
  }

  /** Digits the unsigned part reads as `m`, alone or after a minus sign. */
  lemma ParseIntDigits(d: string, m: nat)
    requires |d| > 0 && IsDigit(d[0]) && ParseUnsigned(d) == Some(m)
    ensures ParseInt(d) == Some(m)
    ensures ParseInt("-" + d) == Some(-(m as int))
  {
    NoLeadingSpace(d);
    var s := "-" + d;
    NoLeadingSpace(s);
    assert s[1..] == d;
  }

  /** `parseInt` reads back the decimal text of any integer. */
  lemma ParseIntRoundTrip(k: int)
    ensures ParseInt(IntToString(k)) == Some(k)
  {
    var m: nat := if k < 0 then -k else k;
    DecimalText(m);
    ParseIntDigits(NatToString(m), m);
  }

  /** `Number.isNaN(parseInt(year)) ? null : parseInt(year)`. */
  function YearOf(v: FormValue): Option<int> {
    ParseInt(FormString(v))
  }
}

=== FILE: csv_import.dfy ===
/** The command-line importer: how one row of the survey spreadsheet becomes one
    row of the initiatives table, and how a whole file is appended. */
module CsvImport {
  import opened Options
  import opened Seqs
  import opened Text
  import opened JsValues
  import opened Store
  import opened ClientValues

  /** A row as `csv.DictReader` yields it: a column missing from a short row is absent. */
  type CsvRow = map<string, string>

  /** Python's `float` on a stripped, non-empty text, `None` where it raises. */
  type PyFloat = string -> Option<real>

  const NameColumn := "Nom de l'initiative"
  const CommentColumn := "Commentaire écrit"
  const VillageColumn := "Lieu de l'initiative (village)"
  const CommuneColumn := "Lieu de l'initiative (commune)"
  const ActorColumn := "Type d'acteur"
  const YearColumn := "Année de début de l'initiative"
  const ActivityColumn := "Maillon chaine de valeur ou activité"
  const EmailColumn := "Email"
  const PhoneColumn := "Numéro de téléphone"
  const PersonColumn := "Nom de la personne interrogée"
  const WebsiteColumn := "Site Internet"
  const SocialColumn := "Réseaux sociaux"

  const Unnamed := "Sans nom"

  /** `--status` and `--user-id`. */
  datatype ImportArgs = ImportArgs(status: string, userId: int)

  const DefaultArgs := ImportArgs("approved", 2)

  /** The values the INSERT writes for one row; the list columns hold the JSON of these lists. */
  datatype Imported = Imported(
    initiative: string, description: string, village: string, commune: string,
    zoneIntervention: Option<string>, actorType: string, year: Option<string>,
    activities: seq<string>, lat: Option<real>, lon: Option<real>,
    contactEmail: string, contactPhone: string, personName: string, website: string,
    socialMedia: seq<string>, videos: seq<string>, extraFields: Item,
    status: string, userId: int)

  /** `(row.get(k) or "").strip()`. */
  function Cell(row: CsvRow, k: string): (r: string)
    ensures Stripped(r, IsPySpace)
    ensures k !in row ==> r == ""
    ensures k in row ==> r == PyStrip(row[k])
  {
    StripIsInfix(if k in row then row[k] else "", IsPySpace);
    PyStrip(if k in row then row[k] else "")
  }

  /** `parse_float`: absent or blank is `None`, otherwise Python's `float` of the stripped text. */
  function ParseFloat(row: CsvRow, k: string, float: PyFloat): (r: Option<real>)
    ensures Cell(row, k) == "" ==> r.None?
    ensures Cell(row, k) != "" ==> r == float(Cell(row, k))
  {
    if Cell(row, k) == "" then None else float(Cell(row, k))
  }

  function NonEmpty(): string -> bool {
    a => a != ""
  }

  /** The activity cell split on ',', each part stripped, empty parts dropped. */
  function Activities(cell: string): (r: seq<string>)
    ensures cell == "" ==> r == []
    ensures forall a :: a in r ==> a != "" && ',' !in a && Stripped(a, IsPySpace)
    ensures cell != "" ==> forall a :: a in r <==> a in SplitStrip(cell, ',', IsPySpace) && a != ""
    ensures cell != "" ==> Subsequence(r, SplitStrip(cell, ',', IsPySpace))
  {
    if cell == "" then [] else Filter(SplitStrip(cell, ',', IsPySpace), NonEmpty())
  }

  lemma UnnamedIsStripped()
    ensures Unnamed != "" && Stripped(Unnamed, IsPySpace)
  {
    assert Unnamed[0] == 'S' && Unnamed[|Unnamed| - 1] == 'm';
  }

  /** One CSV row as the INSERT writes it. */
  function MapRow(row: CsvRow, args: ImportArgs, float: PyFloat): (r: Imported)
    ensures r.initiative != "" && Stripped(r.initiative, IsPySpace)
    ensures Cell(row, NameColumn) == "" ==> r.initiative == Unnamed
    ensures Cell(row, NameColumn) != "" ==> r.initiative == Cell(row, NameColumn)
    ensures r.year.None? <==> Cell(row, YearColumn) == ""
    ensures r.year.Some? ==> r.year.value == Cell(row, YearColumn)
    ensures |r.socialMedia| <= 1 && (r.socialMedia == [] <==> Cell(row, SocialColumn) == "")
    ensures r.socialMedia != [] ==> r.socialMedia[0] == Cell(row, SocialColumn)
  {
    var name := Cell(row, NameColumn);
    var year := Cell(row, YearColumn);
    var social := Cell(row, SocialColumn);
    UnnamedIsStripped();
    Imported(
      if name != "" then name else Unnamed,
      Cell(row, CommentColumn), Cell(row, VillageColumn), Cell(row, CommuneColumn),
      None, Cell(row, ActorColumn),
      if year != "" then Some(year) else None,
      Activities(Cell(row, ActivityColumn)),
      ParseFloat(row, "y", float), ParseFloat(row, "x", float),
      Cell(row, EmailColumn), Cell(row, PhoneColumn), Cell(row, PersonColumn), Cell(row, WebsiteColumn),
      if social != "" then [social] else [],
      [], [], args.status, args.userId)
  }

  /** The columns a row does not choose: the activities come from their cell, the
      coordinates from columns x and y, the status and owner from the arguments, and
      the zone, videos and extra fields are empty. */
  lemma MapRowColumns(row: CsvRow, args: ImportArgs, float: PyFloat)
    ensures var r := MapRow(row, args, float);
            r.activities == Activities(Cell(row, ActivityColumn)) &&
            r.zoneIntervention.None? && r.videos == [] && r.extraFields == [] &&
            r.status == args.status && r.userId == args.userId &&
            r.lon == ParseFloat(row, "x", float) && r.lat == ParseFloat(row, "y", float)
  {
  }

  /** Without arguments the rows are published at once, under user 2. */
  lemma DefaultsPublish(row: CsvRow, float: PyFloat)
    ensures MapRow(row, DefaultArgs, float).status == StatusName(Approved)
    ensures MapRow(row, DefaultArgs, float).userId == 2
  {
  }

  /** Column x is the longitude and y the latitude: exchanging the two columns
      exchanges the coordinates. */
  lemma CoordinatesFollowColumns(row: CsvRow, args: ImportArgs, float: PyFloat)
    requires "x" in row && "y" in row
    ensures var swapped := row["x" := row["y"]]["y" := row["x"]];
            MapRow(swapped, args, float).lon == MapRow(row, args, float).lat &&
            MapRow(swapped, args, float).lat == MapRow(row, args, float).lon
  {
    var swapped := row["x" := row["y"]]["y" := row["x"]];
    MapRowColumns(row, args, float);
    MapRowColumns(swapped, args, float);
    assert Cell(swapped, "x") == Cell(row, "y") && Cell(swapped, "y") == Cell(row, "x");
  }

  /** Activities written as "a, b, c" come back as the list, whatever blanks surround
      the cell, when no activity holds a comma or surrounding blanks. */
  lemma ActivitiesRoundTrip(xs: seq<string>, pad: string)
    requires forall a :: a in xs ==> a != "" && ',' !in a && Stripped(a, IsPySpace)
    requires forall i :: 0 <= i < |pad| ==> IsPySpace(pad[i])
    ensures Activities(PyStrip(pad + Join(xs, ", ") + pad)) == xs
  {
    if |xs| == 0 {
      assert pad + "" + pad == pad + pad;
      assert PyStrip(pad + pad) == "" by {
        assert forall i :: 0 <= i < |pad + pad| ==> IsPySpace((pad + pad)[i]);
      }
    } else {
      var text := Join(xs, ", ");
      JoinStripped(xs, ", ");
      StripBothPadded(pad, text, IsPySpace);
      assert Clean(xs, ',', IsPySpace);
      CommaSpaceRoundTrip(xs, IsPySpace);
      assert forall i :: 0 <= i < |xs| ==> NonEmpty()(xs[i]) by {
        forall i | 0 <= i < |xs| ensures NonEmpty()(xs[i]) {
          assert xs[i] in xs;
        }
      }
    }
  }

  /** A join of non-empty stripped parts is non-empty and stripped. */
  lemma JoinStripped(xs: seq<string>, sep: string)
    requires |xs| >= 1
    requires forall a :: a in xs ==> a != "" && Stripped(a, IsPySpace)
    ensures Join(xs, sep) != "" && Stripped(Join(xs, sep), IsPySpace)
  {
    assert xs[0] in xs && xs[|xs| - 1] in xs;
    var rest, front := JoinEnds(xs, sep);
    var j := Join(xs, sep);
    assert j[0] == xs[0][0];
    assert j[|j| - 1] == xs[|xs| - 1][|xs[|xs| - 1]| - 1];
  }

  /** A join starts with its first part and ends with its last. */
  lemma {:induction false} JoinEnds(xs: seq<string>, sep: string) returns (rest: string, front: string)
    requires |xs| >= 1
    ensures Join(xs, sep) == xs[0] + rest
    ensures Join(xs, sep) == front + xs[|xs| - 1]
    decreases |xs|
  {
    if |xs| == 1 {
      rest, front := "", "";
    } else {
      var _, f := JoinEnds(xs[1..], sep);
      rest := sep + Join(xs[1..], sep);
      front := xs[0] + sep + f;
      assert xs[1..][|xs| - 2] == xs[|xs| - 1];
    }
  }

  /** Blanks on both sides of a stripped text are removed. */
  lemma StripBothPadded(pad: string, s: string, sp: char -> bool)
    requires forall i :: 0 <= i < |pad| ==> sp(pad[i])
    requires Stripped(s, sp) && s != ""
    ensures Strip(pad + s + pad, sp) == s
  {
    assert pad + s + pad == pad + (s + pad);
    StripPadded(pad, s + pad, sp);
    StripEndPadded(s, pad, sp);
  }

  lemma {:induction false} StripEndPadded(s: string, pad: string, sp: char -> bool)
    requires forall i :: 0 <= i < |pad| ==> sp(pad[i])
    requires Stripped(s, sp) && s != ""
    ensures Strip(s + pad, sp) == s
    decreases |pad|
  {
    if |pad| == 0 {
      assert s + pad == s;
      StripStripped(s, sp);
    } else {
      var t := s + pad[..|pad| - 1];
      assert (s + pad)[..|s + pad| - 1] == t;
      assert StripStart(s + pad, sp) == s + pad;
      assert StripStart(t, sp) == t;
      assert StripEnd(s + pad, sp) == StripEnd(t, sp);
      StripEndPadded(s, pad[..|pad| - 1], sp);
    }
  }

  /** The list columns as the map page reads them back: a stored activity list comes
      out of `parseActivities` as the same list. */
  lemma ImportedActivitiesShowOnMap(row: CsvRow, args: ImportArgs, float: PyFloat, codec: Codec)
    requires var xs := MapRow(row, args, float).activities;
             codec.parse(codec.stringify(StrArr(xs))) == Some(StrArr(xs))
    ensures var xs := MapRow(row, args, float).activities;
            ParseActivities(Str(codec.stringify(StrArr(xs))), codec) == StrArr(xs)
  {
    ParseStoredActivities(MapRow(row, args, float).activities, codec);
  }

  function MapRows(rows: seq<CsvRow>, args: ImportArgs, float: PyFloat): (r: seq<Imported>)
    ensures |r| == |rows|
    ensures forall i :: 0 <= i < |rows| ==> r[i] == MapRow(rows[i], args, float)
  {
    seq(|rows|, i requires 0 <= i < |rows| => MapRow(rows[i], args, float))
  }

  /** The whole file: `--purge` empties the table first, then every row is appended
      in file order. */
  function Import(table: seq<Imported>, rows: seq<CsvRow>, args: ImportArgs, purge: bool, float: PyFloat): (r: seq<Imported>)
    ensures purge ==> r == MapRows(rows, args, float)
    ensures !purge ==> |r| == |table| + |rows| && r[..|table|] == table && r[|table|..] == MapRows(rows, args, float)
  {
    var mapped := MapRows(rows, args, float);
    if purge then mapped
    else
      var r := table + mapped;
      assert r[|table|..] == mapped;
      r
  }

  /** Every appended row carries the status and owner given on the command line. */
  lemma ImportStampsRows(table: seq<Imported>, rows: seq<CsvRow>, args: ImportArgs, purge: bool, float: PyFloat)
    ensures var r := Import(table, rows, args, purge, float);
            forall i :: |r| - |rows| <= i < |r| ==> r[i].status == args.status && r[i].userId == args.userId
  {
    var r := Import(table, rows, args, purge, float);
    var mapped := MapRows(rows, args, float);
    assert r[|r| - |rows|..] == mapped;
    forall i | |r| - |rows| <= i < |r| ensures r[i].status == args.status && r[i].userId == args.userId {
      assert r[i] == mapped[i - (|r| - |rows|)];
    }
  }
}

=== FILE: custom_fields.dfy ===
/** The custom-field registry mounted under `/api/custom-fields`: a public
    listing scoped by dytael, and admin-only creation with defaults. */
module CustomFields {
  import opened Options
  import opened Seqs
  import opened JsValues
  import opened AuthMiddleware
  import opened Store

  /** How one JSON body field arrived: missing, `null`, or a string. */
  datatype Sent = Missing | NullSent | Text(s: string)

  predicate Filled(v: Sent) {
    v.Text? && v.s != ""
  }

  /** The body of `POST /api/custom-fields`. */
  datatype FieldRequest = FieldRequest(fieldKey: Sent, fieldLabel: Sent, fieldType: Sent, required: Value, dytael: Sent)

  /** The fields a listing shows: every global field, plus the fields of the given dytael. */
  predicate InScope(f: FieldDef, dytael: Option<string>) {
    f.dytael.None? || (dytael.Some? && dytael.value != "" && f.dytael == dytael)
  }

  function InScopeOf(dytael: Option<string>): FieldDef -> bool {
    (f: FieldDef) => InScope(f, dytael)
  }

  /** `GET /api/custom-fields?dytael=X`: `WHERE dytael IS NULL`, with `OR dytael = X` when
      X is given and non-empty. No token is needed. */
  function ListFields(db: Db, dytael: Option<string>): (r: seq<FieldDef>)
    ensures Subsequence(r, db.fields)
    ensures forall f :: f in db.fields && f.dytael.None? ==> f in r
    ensures forall f :: f in r && f.dytael.Some? ==> dytael.Some? && dytael.value != "" && f.dytael == dytael
    ensures dytael.Some? && dytael.value != "" ==> forall f :: f in db.fields && f.dytael == dytael ==> f in r
  {
    Filter(db.fields, InScopeOf(dytael))
  }

  /** Without a dytael, or with an empty one, exactly the global fields are listed. */
  lemma UnscopedListsGlobalOnly(db: Db, dytael: Option<string>)
    requires dytael.None? || dytael.value == ""
    ensures forall f :: f in ListFields(db, dytael) <==> f in db.fields && f.dytael.None?
  {
  }

  /** The row the INSERT writes: a missing type defaults to 'text', `required` is coerced
      to a boolean, and a missing, null or empty dytael is stored as NULL. */
  function FieldOf(q: FieldRequest): (f: FieldDef)
    requires Filled(q.fieldKey) && Filled(q.fieldLabel)
    ensures f.fieldKey == q.fieldKey.s && f.fieldLabel == q.fieldLabel.s
    ensures q.fieldType.Missing? ==> f.fieldType == Some("text")
    ensures q.fieldType.NullSent? ==> f.fieldType.None?
    ensures q.fieldType.Text? ==> f.fieldType == Some(q.fieldType.s)
    ensures f.required <==> Truthy(q.required)
    ensures f.dytael.None? <==> !Filled(q.dytael)
    ensures f.dytael.Some? ==> f.dytael.value == q.dytael.s
  {
    FieldDef(
      q.fieldKey.s, q.fieldLabel.s,
      match q.fieldType
      case Missing => Some("text")
      case NullSent => None
      case Text(t) => Some(t),
      Truthy(q.required),
      if Filled(q.dytael) then Some(q.dytael.s) else None)
  }

  /** `POST /api/custom-fields`: admin only; a missing or empty key or label is 400;
      otherwise the field is appended and the answer is 201. */
  function CreateField(db: Db, header: Option<string>, verify: Verifier, q: FieldRequest): (r: (Db, nat))
    ensures r.1 != 201 ==> r.0 == db
    ensures AdminGate(header, verify).Stop? ==> r.1 == AdminGate(header, verify).code
    ensures r.1 == 400 <==> AdminGate(header, verify).Pass? && !(Filled(q.fieldKey) && Filled(q.fieldLabel))
    ensures r.1 == 201 <==> AdminGate(header, verify).Pass? && Filled(q.fieldKey) && Filled(q.fieldLabel)
    ensures r.1 == 201 ==> r.0 == db.(fields := db.fields + [FieldOf(q)])
  {
    match AdminGate(header, verify)
    case Stop(code) => (db, code)
    case Pass(_) =>
      if !(Filled(q.fieldKey) && Filled(q.fieldLabel)) then (db, 400)
      else (db.(fields := db.fields + [FieldOf(q)]), 201)
  }

  /** A field created without a dytael is listed for every dytael, and a field created
      for dytael X is listed when X is asked for. */
  lemma CreatedFieldIsListed(db: Db, header: Option<string>, verify: Verifier, q: FieldRequest, asked: Option<string>)
    requires CreateField(db, header, verify, q).1 == 201
    requires !Filled(q.dytael) || (asked.Some? && asked.value == q.dytael.s)
    ensures FieldOf(q) in ListFields(CreateField(db, header, verify, q).0, asked)
  {
    var db2 := CreateField(db, header, verify, q).0;
    assert FieldOf(q) in db2.fields;
  }
}

=== FILE: data_routes.dfy ===
/** The initiative routes mounted under `/api/data`: creation with photo
    upload, the filtered listing, the moderation transitions, the owner's
    list, deletion requests, lookup by id and the full edit. Each route is a
    function from the store and the request to the new store and the reply. */
module DataRoutes {
  import opened Options
  import opened Seqs
  import opened Text
  import opened JsValues
  import opened Sorting
  import opened AuthMiddleware
  import opened Store
  import opened Columns

  /** `parseFloat(String(v))`: `None` where it gives NaN. */
  type FloatParser = string -> Option<real>

  /** A file multer received: the name it was stored under, its mimetype and size. */
  datatype Upload = Upload(filename: string, mimetype: Option<string>, size: nat)

  const MaxPhotos: nat := 5
  const MaxPhotoBytes: nat := 5 * 1024 * 1024

  /** The multipart body of `POST /api/data`, field by field. */
  datatype CreateForm = CreateForm(
    initiative: FormValue,
    description: FormValue,
    village: FormValue,
    commune: FormValue,
    zoneIntervention: FormValue,
    actorType: FormValue,
    year: FormValue,
    activities: FormValue,
    lat: FormValue,
    lon: FormValue,
    contactEmail: FormValue,
    contactPhone: FormValue,
    personName: FormValue,
    website: FormValue,
    socialMedia: FormValue,
    videos: FormValue,
    extraFields: FormValue)

  /** The JSON body of `PUT /api/data/:id`. Text columns are JSON strings or null. */
  datatype UpdateBody = UpdateBody(
    initiative: Option<string>,
    description: Option<string>,
    village: Option<string>,
    commune: Option<string>,
    zoneIntervention: Option<string>,
    actorType: Option<string>,
    year: Value,
    activities: Value,
    lat: Value,
    lon: Value,
    contactEmail: Option<string>,
    contactPhone: Option<string>,
    personName: Option<string>,
    website: Option<string>,
    socialMedia: Option<string>,
    videos: Option<string>,
    extraFields: Value)

  /** A row as the listing routes return it: the columns plus its photo URLs. */
  datatype Listed = Listed(row: Initiative, photos: seq<string>)

  datatype Body = NoBody | NewId(id: nat) | Rows(items: seq<Listed>) | Row(item: Listed)

  datatype Reply = Reply(db: Db, code: nat, body: Body)

  predicate StartsWith(s: string, prefix: string) {
    |prefix| <= |s| && s[..|prefix|] == prefix
  }

  /** `${base}/uploads/photos/${filename}`. */
  function PhotoUrl(base: string, filename: string): string {
    base + "/uploads/photos/" + filename
  }

  /** The URLs of the photos of initiative `id`, in the order of the photos table. */
  function PhotoUrls(photos: seq<Photo>, id: nat, base: string): (urls: seq<string>)
    ensures |urls| <= |photos|
    ensures forall u :: u in urls <==>
              exists i :: 0 <= i < |photos| && photos[i].initiativeId == id && u == PhotoUrl(base, photos[i].filename)
    ensures (forall i :: 0 <= i < |photos| ==> photos[i].initiativeId != id) ==> urls == []
  {
    if |photos| == 0 then []
    else
      var rest := PhotoUrls(photos[1..], id, base);
      assert forall i :: 0 <= i < |photos[1..]| ==> photos[1..][i] == photos[i + 1];
      if photos[0].initiativeId == id then [PhotoUrl(base, photos[0].filename)] + rest else rest
  }

  function Plain(items: seq<Listed>): (rows: seq<Initiative>)
    ensures |rows| == |items|
  {
    seq(|items|, i requires 0 <= i < |items| => items[i].row)
  }

  /** `attachPhotos`: every row keeps its place and its columns and receives the
      URLs of exactly its own photos, `[]` when it has none. */
  function AttachPhotos(rows: seq<Initiative>, photos: seq<Photo>, base: string): (r: seq<Listed>)
    ensures Plain(r) == rows
    ensures forall i :: 0 <= i < |r| ==> forall u :: u in r[i].photos <==>
              exists k :: 0 <= k < |photos| && photos[k].initiativeId == rows[i].id && u == PhotoUrl(base, photos[k].filename)
    ensures forall i :: 0 <= i < |r| && (forall k :: 0 <= k < |photos| ==> photos[k].initiativeId != rows[i].id) ==>
              r[i].photos == []
  {
    seq(|rows|, i requires 0 <= i < |rows| => Listed(rows[i], PhotoUrls(photos, rows[i].id, base)))
  }

  // ---------------------------------------------------------------- POST /

  /** What multer lets through: at most five files, each an image of at most 5 MB.
      Anything else is an error that Express's default handler answers with 500. */
  predicate UploadsAccepted(files: seq<Upload>) {
    |files| <= MaxPhotos &&
    forall i :: 0 <= i < |files| ==>
      files[i].mimetype.Some? && StartsWith(files[i].mimetype.value, "image/") && files[i].size <= MaxPhotoBytes
  }

  /** A text column: absent is NULL, a single value is stored as sent. */
  function Scalar(v: FormValue): Option<string> {
    if v.One? then Some(v.text) else None
  }

  /** A repeated text field reaches the driver as an array, which expands into
      several values and breaks the INSERT. */
  predicate ScalarFields(f: CreateForm) {
    !f.initiative.Many? && !f.description.Many? && !f.village.Many? && !f.commune.Many? &&
    !f.zoneIntervention.Many? && !f.actorType.Many? && !f.contactEmail.Many? &&
    !f.contactPhone.Many? && !f.personName.Many? && !f.website.Many?
  }

  /** A text column holds the field's text as sent, and NULL when the field is absent. */
  predicate TextColumn(v: FormValue, col: Option<string>) {
    (v.Absent? ==> col.None?) && (v.One? ==> col == Some(v.text))
  }

  /** The 17 content columns the INSERT writes, normalised: the text columns as sent,
      the year and coordinates through `parseInt`/`parseFloat` (NaN stored as NULL),
      the lists as JSON arrays and the social media and extra fields re-serialised
      when they parse. */
  function CreateContent(f: CreateForm, codec: Codec, parseFloat: FloatParser): (c: Content)
    ensures TextColumn(f.initiative, c.initiative) && TextColumn(f.description, c.description) &&
            TextColumn(f.village, c.village) && TextColumn(f.commune, c.commune) &&
            TextColumn(f.zoneIntervention, c.zoneIntervention) && TextColumn(f.actorType, c.actorType) &&
            TextColumn(f.contactEmail, c.contactEmail) && TextColumn(f.contactPhone, c.contactPhone) &&
            TextColumn(f.personName, c.personName) && TextColumn(f.website, c.website)
    ensures c.year == ParseInt(FormString(f.year))
    ensures f.year.Absent? ==> c.year.None?
    ensures c.lat == parseFloat(FormString(f.lat)) && c.lon == parseFloat(FormString(f.lon))
    ensures f.activities.Many? ==> c.activities == codec.stringify(StrArr(f.activities.texts))
    ensures f.activities.One? && f.activities.text != "" ==> c.activities == codec.stringify(StrArr([f.activities.text]))
    ensures !FormTruthy(f.activities) ==> c.activities == codec.stringify(StrArr([]))
    ensures var xs := StrArr(ActivitiesOf(f.activities));
            codec.parse(codec.stringify(xs)) == Some(xs) ==> codec.parse(c.activities) == Some(xs)
    ensures f.videos.Many? ==> c.videos == Some(codec.stringify(StrArr(f.videos.texts)))
    ensures f.videos.One? && Trim(f.videos.text) != "" ==> c.videos == Some(codec.stringify(StrArr([f.videos.text])))
    ensures (f.videos.Absent? || (f.videos.One? && Trim(f.videos.text) == "")) ==>
              c.videos == Some(codec.stringify(StrArr([])))
    ensures FormTruthy(f.socialMedia) && codec.parse(FormString(f.socialMedia)).Some? ==>
              c.socialMedia == Some(codec.stringify(codec.parse(FormString(f.socialMedia)).value))
    ensures !(FormTruthy(f.socialMedia) && codec.parse(FormString(f.socialMedia)).Some?) ==>
              c.socialMedia == Some(codec.stringify(Arr([])))
    ensures FormTruthy(f.extraFields) && codec.parse(FormString(f.extraFields)).Some? ==>
              c.extraFields == Some(codec.stringify(codec.parse(FormString(f.extraFields)).value))
    ensures !(FormTruthy(f.extraFields) && codec.parse(FormString(f.extraFields)).Some?) ==> c.extraFields.None?
  {
    assert f.year.Absent? ==> YearOf(f.year).None? by {
      if f.year.Absent? {
        ParseIntNoDigits("undefined");
      }
    }
    Content(
      Scalar(f.initiative), Scalar(f.description), Scalar(f.village), Scalar(f.commune),
      Scalar(f.zoneIntervention), Scalar(f.actorType),
      YearOf(f.year),
      codec.stringify(StrArr(ActivitiesOf(f.activities))),
      parseFloat(FormString(f.lat)), parseFloat(FormString(f.lon)),
      Scalar(f.contactEmail), Scalar(f.contactPhone), Scalar(f.personName), Scalar(f.website),
      Some(codec.stringify(SocialMediaOf(f.socialMedia, codec))),
      Some(codec.stringify(StrArr(SafeArray(f.videos)))),
      ExtraFieldsOf(f.extraFields, codec))
  }

  /** `req.user?.id || null` is truthy. */
  predicate HasId(c: Claims) {
    c.id.Some? && c.id.value != 0
  }

  /** `SELECT id FROM users WHERE id = ?` finds the caller. */
  predicate Known(db: Db, c: Claims) {
    c.id.Some? && c.id.value >= 0 && FindUser(db.users, c.id.value).Some?
  }

  function PhotoRows(id: nat, files: seq<Upload>): (ps: seq<Photo>)
    ensures |ps| == |files|
    ensures forall i :: 0 <= i < |files| ==> ps[i] == Photo(id, files[i].filename)
  {
    seq(|files|, i requires 0 <= i < |files| => Photo(id, files[i].filename))
  }

  /** The handler of `POST /api/data` once the token is verified: let multer check the
      files, require a caller id that still names a user, then insert the row as
      pending for that user and one photo row per file, all in one transaction. */
  function CreateAs(db: Db, user: Claims, files: seq<Upload>, form: CreateForm,
                    codec: Codec, parseFloat: FloatParser, now: int): (r: Reply)
    ensures r.code != 201 ==> r.db == db
    ensures r.code == 201 <==> UploadsAccepted(files) && HasId(user) && Known(db, user) && ScalarFields(form)
    ensures r.code == 401 <==> UploadsAccepted(files) && !HasId(user)
    ensures r.code == 403 <==> UploadsAccepted(files) && HasId(user) && !Known(db, user)
    ensures r.code == 201 ==>
              var n := |db.initiatives|;
              |r.db.initiatives| == n + 1 && r.db.initiatives[..n] == db.initiatives &&
              r.body == NewId(db.nextInitiativeId) &&
              r.db.initiatives[n].id == db.nextInitiativeId &&
              r.db.initiatives[n].status == Pending &&
              Some(r.db.initiatives[n].userId) == user.id &&
              r.db.initiatives[n].createdAt == now &&
              r.db.initiatives[n].content == CreateContent(form, codec, parseFloat)
    ensures r.code == 201 ==>
              var m := |db.photos|;
              r.db.users == db.users && r.db.fields == db.fields &&
              |r.db.photos| == m + |files| && r.db.photos[..m] == db.photos &&
              forall i :: 0 <= i < |files| ==> r.db.photos[m + i] == Photo(db.nextInitiativeId, files[i].filename)
  {
    if !UploadsAccepted(files) then Reply(db, 500, NoBody)
    else if !HasId(user) then Reply(db, 401, NoBody)
    else if !Known(db, user) then Reply(db, 403, NoBody)
    else if !ScalarFields(form) then Reply(db, 500, NoBody)
    else
      var id := db.nextInitiativeId;
      var row := Initiative(id, CreateContent(form, codec, parseFloat), Pending, now, user.id.value);
      Reply(db.(initiatives := db.initiatives + [row],
                nextInitiativeId := id + 1,
                photos := db.photos + PhotoRows(id, files)),
            201, NewId(id))
  }

  /** `POST /api/data`: `authenticateToken` first, so a missing token is 401 and a
      bad one 403 before any file or field is looked at. */
  function Create(db: Db, header: Option<string>, verify: Verifier, files: seq<Upload>, form: CreateForm,
                  codec: Codec, parseFloat: FloatParser, now: int): (r: Reply)
    ensures r.code != 201 ==> r.db == db
    ensures Authenticate(header, verify).Stop? ==> r.code == Authenticate(header, verify).code
    ensures Authenticate(header, verify).Pass? ==>
              r == CreateAs(db, Authenticate(header, verify).user, files, form, codec, parseFloat, now)
  {
    match Authenticate(header, verify)
    case Stop(code) => Reply(db, code, NoBody)
    case Pass(user) => CreateAs(db, user, files, form, codec, parseFloat, now)
  }

  /** Whatever the form says, a created initiative is pending and belongs to the
      caller; a missing caller id is 401 and an unknown caller 403, with nothing stored. */
  lemma CreateStoresPendingForCaller(db: Db, header: Option<string>, verify: Verifier, files: seq<Upload>,
                                     form: CreateForm, codec: Codec, parseFloat: FloatParser, now: int)
    ensures var r := Create(db, header, verify, files, form, codec, parseFloat, now);
            r.code == 201 ==>
              Authenticate(header, verify).Pass? &&
              r.db.initiatives[|db.initiatives|].status == Pending &&
              Some(r.db.initiatives[|db.initiatives|].userId) == Authenticate(header, verify).user.id
    ensures var r := Create(db, header, verify, files, form, codec, parseFloat, now);
            Authenticate(header, verify).Pass? && UploadsAccepted(files) && !HasId(Authenticate(header, verify).user) ==>
              r.code == 401 && r.db == db
    ensures var r := Create(db, header, verify, files, form, codec, parseFloat, now);
            Authenticate(header, verify).Pass? && UploadsAccepted(files) && HasId(Authenticate(header, verify).user) &&
            !Known(db, Authenticate(header, verify).user) ==>
              r.code == 403 && r.db == db
  {
  }

  lemma CreateKeepsValid(db: Db, header: Option<string>, verify: Verifier, files: seq<Upload>, form: CreateForm,
                         codec: Codec, parseFloat: FloatParser, now: int)
    requires Valid(db)
    ensures Valid(Create(db, header, verify, files, form, codec, parseFloat, now).db)
  {
    var r := Create(db, header, verify, files, form, codec, parseFloat, now);
    if r.code == 201 {
      var row := r.db.initiatives[|db.initiatives|];
      assert r.db.initiatives == db.initiatives + [row];
      AppendKeepsIds(db.initiatives, db.nextInitiativeId, row);
    }
  }

  // ----------------------------------------------------------------- GET /

  /** The caller of a public route: the token's payload when a token is present
      and verifies, nobody otherwise. */
  function OptionalCaller(header: Option<string>, verify: Verifier): (c: Option<Claims>)
    ensures c.Some? <==> Authenticate(header, verify).Pass?
    ensures c.Some? ==> c.value == Authenticate(header, verify).user
  {
    match BearerToken(header)
    case None => None
    case Some(token) => verify(token)
  }

  function WithStatus(rows: seq<Initiative>, q: string): (r: seq<Initiative>)
    ensures Subsequence(r, rows)
    ensures forall x :: x in r <==> x in rows && StatusName(x.status) == q
  {
    Filter(rows, (x: Initiative) => StatusName(x.status) == q)
  }

  /** `GET /api/data?status=q`: a non-empty `q` lists the rows whose status is exactly
      `q` to anyone; without it, only a caller whose token verifies with role admin
      gets every row, and a token that does not verify counts as no caller. */
  function List(db: Db, status: Option<string>, header: Option<string>, verify: Verifier, base: string): (r: Reply)
    ensures r.db == db
    ensures r.code == 200 || r.code == 403
    ensures r.code == 403 <==>
              (status.None? || status.value == "") &&
              !(OptionalCaller(header, verify).Some? && IsAdmin(OptionalCaller(header, verify).value))
    ensures r.code == 200 ==> r.body.Rows? && Subsequence(Plain(r.body.items), db.initiatives)
    ensures r.code == 200 && status.Some? && status.value != "" ==>
              forall x :: x in Plain(r.body.items) <==> x in db.initiatives && StatusName(x.status) == status.value
    ensures r.code == 200 && (status.None? || status.value == "") ==> Plain(r.body.items) == db.initiatives
  {
    if status.Some? && status.value != "" then
      Reply(db, 200, Rows(AttachPhotos(WithStatus(db.initiatives, status.value), db.photos, base)))
    else
      var caller := OptionalCaller(header, verify);
      if !(caller.Some? && IsAdmin(caller.value)) then Reply(db, 403, NoBody)
      else
        SubsequenceRefl(db.initiatives);
        Reply(db, 200, Rows(AttachPhotos(db.initiatives, db.photos, base)))
  }

  lemma {:induction false} SubsequenceRefl<T(!new)>(s: seq<T>)
    ensures Subsequence(s, s)
  {
    if |s| > 0 {
      SubsequenceRefl(s[1..]);
    }
  }

  // ------------------------------------------------------ DELETE /:id

  /** The rows `DELETE ... WHERE id = ?` (admin) or `... AND user_id = ?` (anyone else) removes. */
  predicate Deletable(x: Initiative, id: int, user: Claims) {
    x.id == id && (IsAdmin(user) || user.id == Some(x.userId))
  }

  function Survives(id: int, user: Claims): Initiative -> bool {
    (x: Initiative) => !Deletable(x, id, user)
  }

  /** `DELETE /api/data/:id`: an admin deletes the row whatever its owner, anyone else
      only a row they own; when nothing is deleted the answer is 403. */
  function Delete(db: Db, id: int, header: Option<string>, verify: Verifier): (r: Reply)
    ensures Authenticate(header, verify).Stop? ==> r.code == Authenticate(header, verify).code
    ensures r.code != 200 ==> r.db == db
    ensures r.code == 200 ==>
              Authenticate(header, verify).Pass? &&
              exists x :: x in db.initiatives && Deletable(x, id, Authenticate(header, verify).user)
    ensures (Authenticate(header, verify).Pass? &&
             exists x :: x in db.initiatives && Deletable(x, id, Authenticate(header, verify).user)) ==> r.code == 200
    ensures Authenticate(header, verify).Pass? && r.code != 200 ==> r.code == 403
    ensures r.code == 200 ==>
              forall x :: x in r.db.initiatives <==> x in db.initiatives && !Deletable(x, id, Authenticate(header, verify).user)
    ensures r.db.users == db.users && r.db.photos == db.photos
  {
    match Authenticate(header, verify)
    case Stop(code) => Reply(db, code, NoBody)
    case Pass(user) =>
      if !exists x :: x in db.initiatives && Deletable(x, id, user) then Reply(db, 403, NoBody)
      else
        var rest := Filter(db.initiatives, Survives(id, user));
        Reply(db.(initiatives := rest), 200, NoBody)
  }

  /** In a store with unique ids, a successful delete removes exactly the row with
      that id and keeps the store valid. */
  lemma DeleteRemovesThatRow(db: Db, id: int, header: Option<string>, verify: Verifier)
    requires Valid(db)
    requires Delete(db, id, header, verify).code == 200
    ensures forall x :: x in Delete(db, id, header, verify).db.initiatives <==> x in db.initiatives && x.id != id
    ensures Valid(Delete(db, id, header, verify).db)
  {
    var user := Authenticate(header, verify).user;
    var y :| y in db.initiatives && Deletable(y, id, user);
    forall x | x in db.initiatives && x.id == id ensures Deletable(x, id, user) {
      UniqueIds(db.initiatives, db.nextInitiativeId, x, y);
    }
    DeleteKeepsIds(db.initiatives, Survives(id, user), db.nextInitiativeId);
  }

  // ------------------------------------- PUT /:id/validate, reject, cancel-delete

  function IdIs(id: int): Initiative -> bool {
    (x: Initiative) => x.id == id
  }

  /** Row `i` of `after` is row `i` of `before`, with the status set to `st` where `hit` holds. */
  predicate StatusSetWhere(before: seq<Initiative>, after: seq<Initiative>, hit: Initiative -> bool, st: Status) {
    |after| == |before| &&
    forall i :: 0 <= i < |before| ==>
      after[i].id == before[i].id && after[i].content == before[i].content &&
      after[i].userId == before[i].userId && after[i].createdAt == before[i].createdAt &&
      (hit(before[i]) ==> after[i].status == st) &&
      (!hit(before[i]) ==> after[i] == before[i])
  }

  lemma SetStatusWhereSets(rows: seq<Initiative>, hit: Initiative -> bool, st: Status)
    ensures StatusSetWhere(rows, SetStatusWhere(rows, hit, st), hit, st)
  {
  }

  /** `authenticateToken, requireRole('admin')` then `UPDATE initiatives SET status = st WHERE <hit>`;
      the reply is 200 whether or not a row matched. */
  function Moderate(db: Db, header: Option<string>, verify: Verifier, hit: Initiative -> bool, st: Status): (r: Reply)
    ensures r.code == 200 <==> AdminGate(header, verify).Pass?
    ensures r.code != 200 ==> r.db == db && (r.code == 401 || r.code == 403)
    ensures r.code == 200 ==> StatusSetWhere(db.initiatives, r.db.initiatives, hit, st)
    ensures r.db.users == db.users && r.db.photos == db.photos && r.db.nextInitiativeId == db.nextInitiativeId
  {
    match AdminGate(header, verify)
    case Stop(code) => Reply(db, code, NoBody)
    case Pass(_) =>
      SetStatusWhereSets(db.initiatives, hit, st);
      Reply(db.(initiatives := SetStatusWhere(db.initiatives, hit, st)), 200, NoBody)
  }

  /** `PUT /api/data/:id/validate`: an admin approves the row, whatever its status was. */
  function Validate(db: Db, id: int, header: Option<string>, verify: Verifier): (r: Reply)
    ensures r.code == 200 <==> AdminGate(header, verify).Pass?
    ensures r.code != 200 ==> r.db == db
    ensures r.code == 200 ==> StatusSetWhere(db.initiatives, r.db.initiatives, IdIs(id), Approved)
  {
    Moderate(db, header, verify, IdIs(id), Approved)
  }

  /** `PUT /api/data/:id/reject`: an admin rejects the row, whatever its status was. */
  function Reject(db: Db, id: int, header: Option<string>, verify: Verifier): (r: Reply)
    ensures r.code == 200 <==> AdminGate(header, verify).Pass?
    ensures r.code != 200 ==> r.db == db
    ensures r.code == 200 ==> StatusSetWhere(db.initiatives, r.db.initiatives, IdIs(id), Rejected)
  {
    Moderate(db, header, verify, IdIs(id), Rejected)
  }

  function AwaitingDelete(id: int): Initiative -> bool {
    (x: Initiative) => x.id == id && x.status == DeleteRequested
  }

  /** `PUT /api/data/:id/cancel-delete`: an admin returns a row awaiting deletion to
      approved; a row in any other status is left alone, and the reply is still 200. */
  function CancelDelete(db: Db, id: int, header: Option<string>, verify: Verifier): (r: Reply)
    ensures r.code == 200 <==> AdminGate(header, verify).Pass?
    ensures r.code != 200 ==> r.db == db
    ensures r.code == 200 ==> StatusSetWhere(db.initiatives, r.db.initiatives, AwaitingDelete(id), Approved)
  {
    Moderate(db, header, verify, AwaitingDelete(id), Approved)
  }

  /** Moderation never touches who owns a row, what it says, or which rows exist,
      and cancelling a delete request changes no row that was not awaiting deletion. */
  lemma CancelDeleteOnlyFromDeleteRequested(db: Db, id: int, header: Option<string>, verify: Verifier)
    ensures var r := CancelDelete(db, id, header, verify);
            forall i :: 0 <= i < |db.initiatives| && db.initiatives[i].status != DeleteRequested ==>
              r.db.initiatives[i] == db.initiatives[i]
    ensures var r := CancelDelete(db, id, header, verify);
            r.code == 200 ==>
              forall i :: 0 <= i < |db.initiatives| && db.initiatives[i].id == id &&
                          db.initiatives[i].status == DeleteRequested ==>
                r.db.initiatives[i].status == Approved
  {
  }

  lemma ModerationKeepsValid(db: Db, header: Option<string>, verify: Verifier, hit: Initiative -> bool, st: Status)
    requires Valid(db)
    ensures Valid(Moderate(db, header, verify, hit, st).db)
  {
    SetStatusKeepsIds(db.initiatives, hit, st, db.nextInitiativeId);
  }

  // ---------------------------------------------------------- GET /mine

  function OwnedBy(user: Claims): Initiative -> bool {
    (x: Initiative) => user.id == Some(x.userId)
  }

  /** `ORDER BY created_at DESC`: `a` may come before `b` when it is not older. */
  function NewestFirst(): (Initiative, Initiative) -> bool {
    (a: Initiative, b: Initiative) => a.createdAt >= b.createdAt
  }

  lemma NewestFirstIsPreorder()
    ensures TotalPreorder(NewestFirst())
  {
  }

  /** `GET /api/data/mine`: exactly the caller's rows, newest first, with their photos.
      A token without an id matches no row. */
  function Mine(db: Db, header: Option<string>, verify: Verifier, base: string): (r: Reply)
    ensures r.db == db
    ensures Authenticate(header, verify).Stop? ==> r.code == Authenticate(header, verify).code
    ensures Authenticate(header, verify).Pass? ==> r.code == 200 && r.body.Rows?
    ensures r.code == 200 ==>
              forall x :: x in Plain(r.body.items) <==>
                x in db.initiatives && Authenticate(header, verify).user.id == Some(x.userId)
    ensures r.code == 200 ==>
              multiset(Plain(r.body.items)) == multiset(Filter(db.initiatives, OwnedBy(Authenticate(header, verify).user)))
    ensures r.code == 200 ==>
              forall i, j :: 0 <= i < j < |r.body.items| ==> r.body.items[i].row.createdAt >= r.body.items[j].row.createdAt
  {
    match Authenticate(header, verify)
    case Stop(code) => Reply(db, code, NoBody)
    case Pass(user) =>
      var own := Filter(db.initiatives, OwnedBy(user));
      var sorted := Sort(own, NewestFirst());
      NewestFirstIsPreorder();
      assert forall x :: x in sorted <==> x in own by {
        forall x ensures x in sorted <==> x in own {
          assert x in sorted <==> x in multiset(sorted);
          assert x in own <==> x in multiset(own);
        }
      }
      var items := AttachPhotos(sorted, db.photos, base);
      assert Plain(items) == sorted;
      Reply(db, 200, Rows(items))
  }

  // ------------------------------------------- POST /:id/request-delete

  function OwnedWithId(id: int, user: Claims): Initiative -> bool {
    (x: Initiative) => x.id == id && user.id == Some(x.userId)
  }

  /** `POST /api/data/:id/request-delete`: the owner marks the row for deletion, from
      any status; for anyone else, or an id that does not exist, 403 and no change. */
  function RequestDelete(db: Db, id: int, header: Option<string>, verify: Verifier): (r: Reply)
    ensures Authenticate(header, verify).Stop? ==> r.code == Authenticate(header, verify).code
    ensures r.code != 200 ==> r.db == db
    ensures r.code == 200 <==>
              Authenticate(header, verify).Pass? &&
              exists x :: x in db.initiatives && OwnedWithId(id, Authenticate(header, verify).user)(x)
    ensures Authenticate(header, verify).Pass? && r.code != 200 ==> r.code == 403
    ensures r.code == 200 ==>
              StatusSetWhere(db.initiatives, r.db.initiatives, OwnedWithId(id, Authenticate(header, verify).user), DeleteRequested)
    ensures r.db.users == db.users && r.db.photos == db.photos && r.db.nextInitiativeId == db.nextInitiativeId
  {
    match Authenticate(header, verify)
    case Stop(code) => Reply(db, code, NoBody)
    case Pass(user) =>
      var hit := OwnedWithId(id, user);
      if !exists x :: x in db.initiatives && hit(x) then Reply(db, 403, NoBody)
      else
        SetStatusWhereSets(db.initiatives, hit, DeleteRequested);
        Reply(db.(initiatives := SetStatusWhere(db.initiatives, hit, DeleteRequested)), 200, NoBody)
  }

  /** Only the owner's row changes: a row owned by someone else keeps its status. */
  lemma RequestDeleteOnlyOwnRow(db: Db, id: int, header: Option<string>, verify: Verifier)
    ensures var r := RequestDelete(db, id, header, verify);
            forall i :: 0 <= i < |db.initiatives| &&
                        (Authenticate(header, verify).Stop? || Authenticate(header, verify).user.id != Some(db.initiatives[i].userId)) ==>
              r.db.initiatives[i] == db.initiatives[i]
  {
  }

  // --------------------------------------------------------- GET /:id

  /** `GET /api/data/:id`: the row with its photos, or 404. No token is needed. */
  function GetById(db: Db, id: int, base: string): (r: Reply)
    ensures r.db == db
    ensures r.code == 404 <==> forall x :: x in db.initiatives ==> x.id != id
    ensures r.code != 404 ==> r.code == 200 && r.body.Row? && r.body.item.row in db.initiatives && r.body.item.row.id == id
    ensures r.code == 200 ==>
              forall u :: u in r.body.item.photos <==>
                exists k :: 0 <= k < |db.photos| && db.photos[k].initiativeId == id && u == PhotoUrl(base, db.photos[k].filename)
  {
    var rows := Filter(db.initiatives, IdIs(id));
    if |rows| == 0 then
      Reply(db, 404, NoBody)
    else
      var items := AttachPhotos(rows, db.photos, base);
      assert items[0].row == Plain(items)[0] == rows[0];
      assert rows[0] in rows;
      Reply(db, 200, Row(items[0]))
  }

  // --------------------------------------------------------- PUT /:id

  /** The content columns the UPDATE writes, given the parsed year and coordinates. */
  function UpdateContent(b: UpdateBody, codec: Codec, year: int, lat: real, lon: real): (c: Content)
    ensures b.activities.Arr? ==> c.activities == codec.stringify(b.activities)
    ensures !b.activities.Arr? ==> c.activities == codec.stringify(Arr([b.activities]))
    ensures !Truthy(b.extraFields) ==> c.extraFields.None?
    ensures b.extraFields.Str? && b.extraFields.s != "" ==> c.extraFields == Some(b.extraFields.s)
    ensures c.socialMedia == b.socialMedia && c.videos == b.videos
    ensures c.year == Some(year) && c.lat == Some(lat) && c.lon == Some(lon)
  {
    Content(
      b.initiative, b.description, b.village, b.commune, b.zoneIntervention, b.actorType,
      Some(year),
      if b.activities.Arr? then codec.stringify(b.activities) else codec.stringify(Arr([b.activities])),
      Some(lat), Some(lon),
      b.contactEmail, b.contactPhone, b.personName, b.website,
      b.socialMedia, b.videos,
      if !Truthy(b.extraFields) then None
      else if b.extraFields.Str? then Some(b.extraFields.s)
      else Some(codec.stringify(b.extraFields)))
  }

  function SetContentWhere(rows: seq<Initiative>, id: int, c: Content): (r: seq<Initiative>)
    ensures |r| == |rows|
    ensures forall i :: 0 <= i < |rows| ==>
              r[i].id == rows[i].id && r[i].status == rows[i].status &&
              r[i].userId == rows[i].userId && r[i].createdAt == rows[i].createdAt &&
              (rows[i].id == id ==> r[i].content == c) &&
              (rows[i].id != id ==> r[i] == rows[i])
  {
    seq(|rows|, i requires 0 <= i < |rows| => if rows[i].id == id then rows[i].(content := c) else rows[i])
  }

  /** `PUT /api/data/:id`: any authenticated caller overwrites the 17 content columns
      of the row; status, owner and creation time stay. The year and the coordinates go
      to the driver unchecked, and a NaN among them makes the statement fail (500);
      otherwise an id that matches no row is 404. */
  function Update(db: Db, id: int, header: Option<string>, verify: Verifier, body: UpdateBody,
                  codec: Codec, parseFloat: FloatParser): (r: Reply)
    ensures r.code != 200 ==> r.db == db
    ensures Authenticate(header, verify).Stop? ==> r.code == Authenticate(header, verify).code
    ensures r.code == 404 <==>
              Authenticate(header, verify).Pass? && NumbersParse(body, parseFloat) &&
              forall x :: x in db.initiatives ==> x.id != id
    ensures r.code == 200 <==>
              Authenticate(header, verify).Pass? && NumbersParse(body, parseFloat) &&
              exists x :: x in db.initiatives && x.id == id
    ensures r.code == 200 ==>
              |r.db.initiatives| == |db.initiatives| &&
              forall i :: 0 <= i < |db.initiatives| ==>
                r.db.initiatives[i].status == db.initiatives[i].status &&
                r.db.initiatives[i].userId == db.initiatives[i].userId &&
                r.db.initiatives[i].id == db.initiatives[i].id &&
                (db.initiatives[i].id == id ==>
                   r.db.initiatives[i].content ==
                   UpdateContent(body, codec, ParseInt(ToJsString(body.year)).value,
                                 parseFloat(ToJsString(body.lat)).value, parseFloat(ToJsString(body.lon)).value)) &&
                (db.initiatives[i].id != id ==> r.db.initiatives[i] == db.initiatives[i])
    ensures r.db.users == db.users && r.db.photos == db.photos && r.db.nextInitiativeId == db.nextInitiativeId
  {
    match Authenticate(header, verify)
    case Stop(code) => Reply(db, code, NoBody)
    case Pass(_) =>
      if !NumbersParse(body, parseFloat) then Reply(db, 500, NoBody)
      else if forall x :: x in db.initiatives ==> x.id != id then Reply(db, 404, NoBody)
      else
        var c := UpdateContent(body, codec, ParseInt(ToJsString(body.year)).value,
                               parseFloat(ToJsString(body.lat)).value, parseFloat(ToJsString(body.lon)).value);
        Reply(db.(initiatives := SetContentWhere(db.initiatives, id, c)), 200, NoBody)
  }

  /** `parseInt(year)`, `parseFloat(lat)` and `parseFloat(lon)` are all numbers. */
  predicate NumbersParse(body: UpdateBody, parseFloat: FloatParser) {
    ParseInt(ToJsString(body.year)).Some? &&
    parseFloat(ToJsString(body.lat)).Some? && parseFloat(ToJsString(body.lon)).Some?
  }

  /** A single activity sent as a plain string is stored as a one-element array. */
  lemma UpdateWrapsSingleActivity(db: Db, id: int, header: Option<string>, verify: Verifier, body: UpdateBody,
                                  codec: Codec, parseFloat: FloatParser, a: string)
    requires body.activities == Str(a)
    requires Update(db, id, header, verify, body, codec, parseFloat).code == 200
    ensures forall x :: x in Update(db, id, header, verify, body, codec, parseFloat).db.initiatives && x.id == id ==>
              x.content.activities == codec.stringify(Arr([Str(a)]))
  {
  }

  lemma UpdateKeepsValid(db: Db, id: int, header: Option<string>, verify: Verifier, body: UpdateBody,
                         codec: Codec, parseFloat: FloatParser)
    requires Valid(db)
    ensures Valid(Update(db, id, header, verify, body, codec, parseFloat).db)
  {
  }

  /** Rows of a valid table are determined by their id. */
  lemma UniqueIds(rows: seq<Initiative>, next: nat, x: Initiative, y: Initiative)
    requires InitiativeIdsOk(rows, next)
    requires x in rows && y in rows && x.id == y.id
    ensures x == y
  {
    var i :| 0 <= i < |rows| && rows[i] == x;
    var j :| 0 <= j < |rows| && rows[j] == y;
    assert i == j;
  }
}

=== FILE: edit_initiative.dfy ===
/** The admin page that edits one initiative: its role gate, the activities
    shown as one comma-separated text, and the body it sends to `PUT /api/data/:id`. */
module EditInitiatives {
  import opened Options
  import opened Text
  import opened JsValues
  import opened ClientValues

  /** `parsedUser.role`: a property of an object, `undefined` on any other value. */
  function RoleOf(v: Value): Value {
    if v.Obj? then Get(v.fields, "role") else Undefined
  }

  /** The gate's effect on the stored user: `Some(true)` shows the refusal,
      `Some(false)` the form; `None` when the effect throws, because the stored
      text is not JSON or is `null`. */
  function Unauthorized(stored: Option<string>, codec: Codec): (r: Option<bool>)
    ensures stored.None? || stored.value == "" ==> r == Some(true)
    ensures r == Some(false) <==>
              stored.Some? && stored.value != "" && codec.parse(stored.value).Some? &&
              RoleOf(codec.parse(stored.value).value) == Str("admin")
    ensures r.None? <==>
              stored.Some? && stored.value != "" &&
              (codec.parse(stored.value).None? || codec.parse(stored.value).value in {Null, Undefined})
  {
    if stored.None? || stored.value == "" then Some(true)
    else match codec.parse(stored.value)
      case None => None
      case Some(user) =>
        if user.Null? || user.Undefined? then None
        else Some(RoleOf(user) != Str("admin"))
  }

  /** A stored admin whose record the codec reads back sees the form; nobody else does. */
  lemma OnlyStoredAdminEdits(user: Value, codec: Codec)
    requires codec.parse(codec.stringify(user)) == Some(user) && codec.stringify(user) != ""
    ensures Unauthorized(Some(codec.stringify(user)), codec) == Some(false) <==> RoleOf(user) == Str("admin")
  {
  }

  /** The text box's content for a loaded `activities` value: an array is joined
      with ", ", anything else is kept. */
  function Shown(v: Value): (r: Value)
    ensures v.Arr? ==> r == Str(Join(Texts(v.items), ", "))
    ensures !v.Arr? ==> r == v
  {
    if v.Arr? then Str(Join(Texts(v.items), ", ")) else v
  }

  /** The loaded record as the form holds it. */
  function Load(data: Item): (r: Item)
    ensures Get(r, "activities") == Shown(Get(data, "activities"))
    ensures forall k :: k != "activities" ==> Get(r, k) == Get(data, k)
  {
    SetField(data, "activities", Shown(Get(data, "activities")))
  }

  /** The activities sent back: empty when the field is falsy, otherwise the
      comma-separated parts, each trimmed; `None` when `split` is applied to a
      value that is not a string and throws. */
  function Prepared(v: Value): (r: Option<seq<string>>)
    ensures !Truthy(v) ==> r == Some([])
    ensures v.Str? && v.s != "" ==> r == Some(SplitTrim(v.s, ','))
    ensures r.None? <==> Truthy(v) && !v.Str?
  {
    if !Truthy(v) then Some([])
    else if v.Str? then Some(SplitTrim(v.s, ','))
    else None
  }

  /** `preparedForm`: every field as edited, the activities as an array. */
  function Prepare(form: Item): (r: Option<Item>)
    ensures r.None? <==> Prepared(Get(form, "activities")).None?
    ensures r.Some? ==> Get(r.value, "activities") == StrArr(Prepared(Get(form, "activities")).value)
    ensures r.Some? ==> forall k :: k != "activities" ==> Get(r.value, k) == Get(form, k)
  {
    match Prepared(Get(form, "activities"))
    case None => None
    case Some(xs) => Some(SetField(form, "activities", StrArr(xs)))
  }

  lemma TextsOfStrings(xs: seq<string>)
    ensures Texts(StrArr(xs).items) == xs
  {
    forall i | 0 <= i < |xs| ensures Texts(StrArr(xs).items)[i] == xs[i] {
      assert ElementString(Str(xs[i])) == ToJsString(Str(xs[i]));
    }
  }

  /** The join of several parts is never empty: it holds the separator. */
  lemma JoinNonEmpty(xs: seq<string>, sep: string)
    requires |xs| >= 2 && sep != ""
    ensures Join(xs, sep) != ""
  {
  }

  /** Loading and saving without touching the box gives back the same activities
      when none holds a comma or surrounding blanks, except for the single empty
      activity, whose empty text comes back as no activity. */
  lemma ActivitiesRoundTrip(xs: seq<string>)
    requires Clean(xs, ',', IsJsSpace)
    ensures Prepared(Shown(StrArr(xs))) == Some(xs) <==> xs != [""]
  {
    TextsOfStrings(xs);
    var text := Join(xs, ", ");
    assert Shown(StrArr(xs)) == Str(text);
    if |xs| >= 2 {
      JoinNonEmpty(xs, ", ");
    }
    if |xs| >= 1 && xs != [""] {
      assert text != "";
      CommaSpaceRoundTrip(xs, IsJsSpace);
    }
  }

  /** The same over a whole record: saving an untouched form changes no field. */
  lemma UntouchedFormSavesSameRecord(data: Item, xs: seq<string>)
    requires Get(data, "activities") == StrArr(xs) && Clean(xs, ',', IsJsSpace) && xs != [""]
    ensures Prepare(Load(data)).Some?
    ensures forall k :: Get(Prepare(Load(data)).value, k) == Get(data, k)
  {
    ActivitiesRoundTrip(xs);
  }
}

=== FILE: email_rule.dfy ===
/** The address pattern `/^[^\s@]+@[^\s@]+\.[^\s@]+$/`, used both by the
    registration route and by the registration page. */
module EmailRule {
  import opened Text
  import opened Seqs

  /** A character of the class `[^\s@]`. */
  predicate Plain(c: char) {
    !IsJsSpace(c) && c != '@'
  }

  /** A string of the form `[^\s@]+`. */
  predicate PlainRun(s: string) {
    |s| > 0 && forall i :: 0 <= i < |s| ==> Plain(s[i])
  }

  /** The regular expression test, read literally: some `@` at `at` and some `.` at
      `dot` cut the string into three non-empty runs of `[^\s@]`. */
  predicate Matches(s: string) {
    exists at, dot ::
      0 < at < dot < |s| - 1 && s[at] == '@' && s[dot] == '.' &&
      PlainRun(s[..at]) && PlainRun(s[at + 1..dot]) && PlainRun(s[dot + 1..])
  }

  /** The same rule in words: no whitespace, exactly one `@`, something before it,
      and after it a `.` with something on both sides. */
  predicate WellFormed(s: string) {
    (forall i :: 0 <= i < |s| ==> !IsJsSpace(s[i])) &&
    '@' in s && Count(s, '@') == 1 &&
    var at := IndexOf(s, '@');
    at > 0 &&
    exists dot :: at + 1 < dot < |s| - 1 && s[dot] == '.'
  }

  lemma {:induction false} CountZero(s: string, c: char)
    requires c !in s
    ensures Count(s, c) == 0
    decreases |s|
  {
    if |s| > 0 {
      CountZero(s[1..], c);
    }
  }

  lemma CountSplitAt(s: string, at: int)
    requires 0 <= at < |s|
    ensures Count(s, s[at]) == Count(s[..at], s[at]) + 1 + Count(s[at + 1..], s[at])
  {
    assert s == s[..at] + [s[at]] + s[at + 1..];
    CountAppend(s[..at] + [s[at]], s[at + 1..], s[at]);
    CountAppend(s[..at], [s[at]], s[at]);
  }

  /** The literal reading of the pattern and the description in words agree. */
  lemma MatchesIffWellFormed(s: string)
    ensures Matches(s) <==> WellFormed(s)
  {
    if Matches(s) {
      MatchesWellFormed(s);
    }
    if WellFormed(s) {
      WellFormedMatches(s);
    }
  }

  lemma MatchesWellFormed(s: string)
    requires Matches(s)
    ensures WellFormed(s)
  {
    var at, dot :| 0 < at < dot < |s| - 1 && s[at] == '@' && s[dot] == '.' &&
      PlainRun(s[..at]) && PlainRun(s[at + 1..dot]) && PlainRun(s[dot + 1..]);
    forall i | 0 <= i < |s|
      ensures !IsJsSpace(s[i]) && (i != at ==> s[i] != '@')
    {
      if i < at {
        assert s[i] == s[..at][i];
      } else if at < i < dot {
        assert s[i] == s[at + 1..dot][i - at - 1];
      } else if dot < i {
        assert s[i] == s[dot + 1..][i - dot - 1];
      }
    }
    assert '@' !in s[..at];
    assert '@' !in s[at + 1..];
    CountZero(s[..at], '@');
    CountZero(s[at + 1..], '@');
    CountSplitAt(s, at);
    assert IndexOf(s, '@') == at;
  }

  lemma WellFormedMatches(s: string)
    requires WellFormed(s)
    ensures Matches(s)
  {
    var at := IndexOf(s, '@');
    var dot :| at + 1 < dot < |s| - 1 && s[dot] == '.';
    CountSplitAt(s, at);
    forall i | at < i < |s|
      ensures s[i] != '@'
    {
      if s[i] == '@' {
        assert s[at + 1..][i - at - 1] == '@';
        CountPositive(s[at + 1..], i - at - 1);
      }
    }
    assert PlainRun(s[..at]);
    assert PlainRun(s[at + 1..dot]);
    assert PlainRun(s[dot + 1..]);
  }

  lemma {:induction false} CountPositive(s: string, i: int)
    requires 0 <= i < |s|
    ensures Count(s, s[i]) > 0
    decreases |s|
  {
    if i > 0 {
      CountPositive(s[1..], i - 1);
    }
  }
}

=== FILE: fields_manager.dfy ===
/** The admin screen that adds custom fields to the submission form: the draft it
    keeps, the request `addField` sends, and what becomes of the draft. */
module FieldsManager {
  import opened Options
  import opened Text
  import opened JsValues
  import opened AuthMiddleware
  import opened Store
  import opened CustomFields

  datatype FieldDraft = FieldDraft(key: string, caption: string, fieldType: string, required: bool, dytael: string)

  const EmptyDraft := FieldDraft("", "", "text", false, "")

  const Added := "Champ ajouté."
  const AddFailed := "Impossible d'ajouter le champ (admin requis)."

  /** The body `addField` posts, or nothing when the trimmed key or label is empty. */
  function RequestOf(d: FieldDraft): (q: Option<FieldRequest>)
    ensures q.None? <==> Trim(d.key) == "" || Trim(d.caption) == ""
    ensures q.Some? ==> q.value.fieldKey == Text(Trim(d.key)) && q.value.fieldLabel == Text(Trim(d.caption))
    ensures q.Some? ==> q.value.fieldType == Text(d.fieldType) && q.value.required == Bool(d.required)
    ensures q.Some? ==> (q.value.dytael == NullSent <==> d.dytael == "")
  {
    if Trim(d.key) == "" || Trim(d.caption) == "" then None
    else Some(FieldRequest(Text(Trim(d.key)), Text(Trim(d.caption)), Text(d.fieldType), Bool(d.required),
                           if d.dytael != "" then Text(d.dytael) else NullSent))
  }

  datatype Outcome = Outcome(sent: Option<FieldRequest>, draft: FieldDraft, message: string)

  /** `addField`: a blank key or label sends nothing; otherwise success resets the draft
      and failure keeps it, each with its message. */
  function AddField(d: FieldDraft, message: string, succeeded: bool): (r: Outcome)
    ensures r.sent == RequestOf(d)
    ensures r.sent.None? ==> r.draft == d && r.message == message
    ensures r.sent.Some? && succeeded ==> r.draft == EmptyDraft && r.message == Added
    ensures r.sent.Some? && !succeeded ==> r.draft == d && r.message == AddFailed
  {
    match RequestOf(d)
    case None => Outcome(None, d, message)
    case Some(q) => if succeeded then Outcome(Some(q), EmptyDraft, Added) else Outcome(Some(q), d, AddFailed)
  }

  /** The page's guard is at least the server's: a request it sends is never refused
      for a missing key or label, and an admin's request stores the trimmed key and
      label, the chosen type and flag, and no dytael when the box was empty. */
  lemma SentDraftIsStored(db: Db, d: FieldDraft, header: Option<string>, verify: Verifier)
    requires RequestOf(d).Some?
    ensures var r := CreateField(db, header, verify, RequestOf(d).value);
            r.1 != 400 && (r.1 == 201 <==> AdminGate(header, verify).Pass?)
    ensures var r := CreateField(db, header, verify, RequestOf(d).value);
            r.1 == 201 ==>
              var f := r.0.fields[|db.fields|];
              f.fieldKey == Trim(d.key) && f.fieldLabel == Trim(d.caption) &&
              f.fieldType == Some(d.fieldType) && f.required == d.required &&
              (f.dytael.None? <==> d.dytael == "")
  {
    var q := RequestOf(d).value;
    assert Filled(q.fieldKey) && Filled(q.fieldLabel);
    var r := CreateField(db, header, verify, q);
    if r.1 == 201 {
      assert r.0.fields[|db.fields|] == FieldOf(q);
    }
  }

  /** A field added with the dytael box left empty shows up in every form. */
  lemma GlobalDraftListedEverywhere(db: Db, d: FieldDraft, header: Option<string>, verify: Verifier, asked: Option<string>)
    requires RequestOf(d).Some? && d.dytael == ""
    requires AdminGate(header, verify).Pass?
    ensures FieldOf(RequestOf(d).value) in ListFields(CreateField(db, header, verify, RequestOf(d).value).0, asked)
  {
    CreatedFieldIsListed(db, header, verify, RequestOf(d).value, asked);
  }
}

=== FILE: filter_panel.dfy ===
/** The side panel of the list page: checkboxes for activities and actor types,
    and a comma-separated text box for communes. */
module FilterPanel {
  import opened Seqs
  import opened Text

  const ActivityKeys: seq<string> :=
    ["production", "transformation", "commercialisation", "formation", "plaidoyer", "autre", "informel"]

  const ActorTypeKeys: seq<string> :=
    ["ONG", "recherche", "gouvernement", "groupement", "entreprise", "informel", "autre"]

  /** The three selections the panel's parent keeps. */
  datatype Selection = Selection(activities: seq<string>, communes: seq<string>, actorTypes: seq<string>)

  /** `handleToggleActivity`: drop the key when selected, append it otherwise. */
  function ToggleActivity(s: Selection, key: string): (r: Selection)
    ensures key in r.activities <==> key !in s.activities
    ensures forall k :: k != key ==> (k in r.activities <==> k in s.activities)
    ensures r.communes == s.communes && r.actorTypes == s.actorTypes
  {
    s.(activities := Toggle(s.activities, key))
  }

  /** `handleToggleActorType`, the same toggle on actor types. */
  function ToggleActorType(s: Selection, key: string): (r: Selection)
    ensures key in r.actorTypes <==> key !in s.actorTypes
    ensures forall k :: k != key ==> (k in r.actorTypes <==> k in s.actorTypes)
    ensures r.activities == s.activities && r.communes == s.communes
  {
    s.(actorTypes := Toggle(s.actorTypes, key))
  }

  /** The toggles never select a key twice. */
  lemma TogglesKeepNoDup(s: Selection, key: string)
    requires NoDup(s.activities) && NoDup(s.actorTypes)
    ensures NoDup(ToggleActivity(s, key).activities)
    ensures NoDup(ToggleActorType(s, key).actorTypes)
  {
    ToggleKeepsNoDup(s.activities, key);
    ToggleKeepsNoDup(s.actorTypes, key);
  }

  /** Clicking the same box twice: an unselected key leaves the selection exactly as
      it was; a selected key keeps the same selected set, moved to the end. */
  lemma ToggleTwice(s: Selection, key: string)
    requires NoDup(s.activities)
    ensures key !in s.activities ==> ToggleActivity(ToggleActivity(s, key), key) == s
    ensures forall k :: k in ToggleActivity(ToggleActivity(s, key), key).activities <==> k in s.activities
  {
    if key in s.activities {
      ToggleTwicePresent(s.activities, key);
    } else {
      ToggleTwiceAbsent(s.activities, key);
    }
  }

  function NonEmpty(): string -> bool {
    c => |c| > 0
  }

  /** `value.split(',').map(c => c.trim()).filter(c => c.length > 0)`. */
  function ParseCommunes(value: string): (r: seq<string>)
    ensures forall c :: c in r ==> c != "" && ',' !in c && Stripped(c, IsJsSpace)
    ensures forall c :: c in r <==> c in SplitTrim(value, ',') && c != ""
    ensures Subsequence(r, SplitTrim(value, ','))
    ensures (forall i :: 0 <= i < |SplitTrim(value, ',')| ==> SplitTrim(value, ',')[i] != "") ==> r == SplitTrim(value, ',')
  {
    Filter(SplitTrim(value, ','), NonEmpty())
  }

  /** `handleCommunesChange`: only the communes change. */
  function ChangeCommunes(s: Selection, value: string): (r: Selection)
    ensures r.communes == ParseCommunes(value)
    ensures r.activities == s.activities && r.actorTypes == s.actorTypes
  {
    s.(communes := ParseCommunes(value))
  }

  /** The box shows the communes joined with ", "; reading that text back gives the
      same communes, so a list the user typed survives being re-displayed. */
  lemma CommunesRoundTrip(communes: seq<string>)
    requires forall c :: c in communes ==> c != "" && ',' !in c && Stripped(c, IsJsSpace)
    ensures ParseCommunes(Join(communes, ", ")) == communes
  {
    if |communes| == 0 {
      assert SplitTrim("", ',') == [""];
    } else {
      var text := Join(communes, ", ");
      assert Clean(communes, ',', IsJsSpace);
      CommaSpaceRoundTrip(communes, IsJsSpace);
      assert SplitTrim(text, ',') == communes;
      assert forall i :: 0 <= i < |communes| ==> NonEmpty()(communes[i]) by {
        forall i | 0 <= i < |communes| ensures NonEmpty()(communes[i]) {
          assert communes[i] in communes;
        }
      }
    }
  }

  /** What the box parses is stable: displaying it and parsing the display again
      changes nothing. */
  lemma ParseCommunesStable(value: string)
    ensures ParseCommunes(Join(ParseCommunes(value), ", ")) == ParseCommunes(value)
  {
    CommunesRoundTrip(ParseCommunes(value));
  }
}

=== FILE: filters.dfy ===
/** The filter controls of the map page: the selected activities, the actor
    type chosen in the drop-down, and the commune typed in the text box. */
module FilterControls {
  import opened Seqs
  import opened Text
  import opened JsValues

  datatype Filters = Filters(activities: seq<Value>, actor: string, commune: string)

  /** The state the map page starts from. */
  const NoFilters := Filters([], "", "")

  /** Clicking an activity button: remove it when selected, append it otherwise;
      the actor and the commune are not touched. */
  function ToggleActivity(f: Filters, a: Value): (r: Filters)
    ensures a in r.activities <==> a !in f.activities
    ensures forall b :: b != a ==> (b in r.activities <==> b in f.activities)
    ensures r.actor == f.actor && r.commune == f.commune
  {
    f.(activities := Toggle(f.activities, a))
  }

  /** Clicking the same button twice restores the selection exactly when the activity
      was not selected, and as a set when it was. */
  lemma ToggleActivityTwice(f: Filters, a: Value)
    requires NoDup(f.activities)
    ensures a !in f.activities ==> ToggleActivity(ToggleActivity(f, a), a) == f
    ensures forall b :: b in ToggleActivity(ToggleActivity(f, a), a).activities <==> b in f.activities
    ensures NoDup(ToggleActivity(f, a).activities)
  {
    ToggleKeepsNoDup(f.activities, a);
    if a !in f.activities {
      ToggleTwiceAbsent(f.activities, a);
    } else {
      ToggleTwicePresent(f.activities, a);
    }
  }

  /** The drop-down's `onChange`: only the actor changes. */
  function SetActor(f: Filters, actor: string): (r: Filters)
    ensures r.actor == actor
    ensures r.activities == f.activities && r.commune == f.commune
  {
    f.(actor := actor)
  }

  /** The text box's `onChange`: only the commune changes. */
  function SetCommune(f: Filters, commune: string): (r: Filters)
    ensures r.commune == commune
    ensures r.activities == f.activities && r.actor == f.actor
  {
    f.(commune := commune)
  }

  /** Underscores become spaces and the first character is upper-cased. */
  function Humanize(s: string): (r: string)
    ensures |r| == |s|
    ensures forall i :: 0 <= i < |r| ==> r[i] != '_'
    ensures |s| > 0 ==> r[0] == UpperChar(if s[0] == '_' then ' ' else s[0])
    ensures forall i :: 1 <= i < |r| ==> r[i] == (if s[i] == '_' then ' ' else s[i])
  {
    Capitalize(ReplaceChar(s, '_', ' '))
  }

  /** `formatActivityLabel`: empty for an empty value, "Autres" for any casing of
      "other", and the humanized value otherwise. */
  function ActivityLabel(value: string): (r: string)
    ensures value == "" ==> r == ""
    ensures value != "" && Lower(value) == "other" ==> r == "Autres"
    ensures value != "" && Lower(value) != "other" ==> r == Humanize(value)
    ensures value != "" && Lower(value) != "other" ==> |r| == |value| && '_' !in r
  {
    if value == "" then ""
    else if Lower(value) == "other" then "Autres"
    else Humanize(value)
  }

  /** A label spells the value it came from, up to case and underscores. */
  lemma ActivityLabelSpellsValue(value: string)
    requires Lower(value) != "other"
    ensures Lower(ActivityLabel(value)) == Lower(ReplaceChar(value, '_', ' '))
  {
    var r := ActivityLabel(value);
    var w := ReplaceChar(value, '_', ' ');
    if value != "" {
      assert r[0] == UpperChar(w[0]);
      assert LowerChar(UpperChar(w[0])) == LowerChar(w[0]);
      forall i | 1 <= i < |r| ensures r[i] == w[i] {
        assert r[1..][i - 1] == w[1..][i - 1];
      }
    }
  }
}

=== FILE: form_input.dfy ===
/** The form that proposes a new initiative: its local state, the events that
    change it, and the multipart request its submit button sends to `POST /api/data`. */
module FormInput {
  import opened Options
  import opened Seqs
  import opened Text
  import opened JsValues
  import opened ClientValues
  import opened Columns
  import opened AuthMiddleware
  import opened Store
  import opened DataRoutes

  /** The plain text inputs of the form, all empty at first. */
  const TextKeys: seq<string> := ["initiative", "description", "village", "commune", "zone_intervention",
                                  "actor_type", "year", "lat", "lon", "website",
                                  "contact_email", "contact_phone", "person_name"]

  /** A file picked in the browser. */
  datatype LocalFile = LocalFile(name: string, size: nat)

  /** `formData` together with the side state the form keeps next to it: the video
      inputs, the chosen platforms and their links, the declarant box and the
      custom-field values. */
  datatype Draft = Draft(
    text: map<string, string>,
    activities: seq<string>,
    photos: seq<LocalFile>,
    videos: seq<string>,
    socialMedia: seq<(string, string)>,
    videoLinks: seq<string>,
    platforms: seq<string>,
    links: map<string, string>,
    sameAsDeclarant: bool,
    custom: Item)

  function Initial(): (d: Draft)
    ensures forall k :: k in d.text <==> k in TextKeys
    ensures forall k :: k in d.text ==> d.text[k] == ""
  {
    Draft(map k | k in TextKeys :: "", [], [], [], [], [""], [], map[], false, [])
  }

  /** `socialLinks[p] || ''`. */
  function Url(links: map<string, string>, p: string): string {
    if p in links then links[p] else ""
  }

  /** `platforms.map(p => ({ platform: p, url: links[p] || '' }))`. */
  function Pairs(platforms: seq<string>, links: map<string, string>): (r: seq<(string, string)>)
    ensures |r| == |platforms|
    ensures forall i :: 0 <= i < |r| ==> r[i].0 == platforms[i]
  {
    seq(|platforms|, i requires 0 <= i < |platforms| => (platforms[i], Url(links, platforms[i])))
  }

  /** `formData.social_media` lists the chosen platforms, in order, each with its link. */
  predicate Aligned(d: Draft) {
    d.socialMedia == Pairs(d.platforms, d.links)
  }

  /** What every reachable state satisfies. */
  predicate Consistent(d: Draft) {
    Aligned(d) && NoDup(d.platforms) &&
    |d.photos| <= MaxPhotos &&
    1 <= |d.videoLinks| <= 5 && |d.videos| <= |d.videoLinks|
  }

  lemma InitialIsConsistent()
    ensures Consistent(Initial())
  {
  }

  /** A text input: only that entry of `formData` changes. */
  function ChangeText(d: Draft, name: string, value: string): (r: Draft)
    ensures name in r.text && r.text[name] == value
    ensures forall k :: k != name ==> (k in r.text <==> k in d.text)
    ensures forall k :: k != name && k in d.text ==> r.text[k] == d.text[k]
    ensures r.(text := d.text) == d
  {
    d.(text := d.text[name := value])
  }

  /** The file input: at most the first five files are kept. */
  function ChooseFiles(d: Draft, files: seq<LocalFile>): (r: Draft)
    ensures |r.photos| <= MaxPhotos && |r.photos| <= |files|
    ensures r.photos == files[..|r.photos|]
    ensures |files| <= MaxPhotos ==> r.photos == files
    ensures |files| >= MaxPhotos ==> |r.photos| == MaxPhotos
    ensures r.(photos := d.photos) == d
  {
    d.(photos := if |files| <= MaxPhotos then files else files[..MaxPhotos])
  }

  /** An activity checkbox: checking appends the value, unchecking removes every
      occurrence of it. */
  function CheckActivity(d: Draft, value: string, checked: bool): (r: Draft)
    ensures checked ==> |r.activities| == |d.activities| + 1 &&
                        r.activities[..|d.activities|] == d.activities &&
                        r.activities[|d.activities|] == value
    ensures !checked ==> value !in r.activities && Subsequence(r.activities, d.activities) &&
                         forall y :: y != value ==> (y in r.activities <==> y in d.activities)
    ensures r.(activities := d.activities) == d
  {
    d.(activities := if checked then d.activities + [value] else RemoveAll(d.activities, value))
  }

  /** Checking a box and unchecking it again leaves the activities as they were. */
  lemma CheckThenUncheck(d: Draft, value: string)
    requires value !in d.activities
    ensures CheckActivity(CheckActivity(d, value, true), value, false) == d
  {
    RemoveAppended(d.activities, value);
  }

  /** A video input: that link changes and `formData.videos` becomes the whole list. */
  function ChangeVideo(d: Draft, index: nat, value: string): (r: Draft)
    requires index < |d.videoLinks|
    ensures |r.videoLinks| == |d.videoLinks| && r.videoLinks[index] == value
    ensures forall j :: 0 <= j < |d.videoLinks| && j != index ==> r.videoLinks[j] == d.videoLinks[j]
    ensures r.videos == r.videoLinks
    ensures r.(videoLinks := d.videoLinks, videos := d.videos) == d
  {
    var updated := d.videoLinks[index := value];
    d.(videoLinks := updated, videos := updated)
  }

  /** "+ Ajouter un lien vidéo": one more empty input while there are fewer than five. */
  function AddVideoField(d: Draft): (r: Draft)
    ensures |d.videoLinks| < 5 ==> r.videoLinks == d.videoLinks + [""]
    ensures |d.videoLinks| >= 5 ==> r == d
    ensures r.(videoLinks := d.videoLinks) == d
  {
    if |d.videoLinks| < 5 then d.(videoLinks := d.videoLinks + [""]) else d
  }

  /** A platform checkbox: a chosen platform is dropped together with its link,
      another one is appended; `social_media` follows either way. */
  function TogglePlatform(d: Draft, p: string): (r: Draft)
    ensures p in r.platforms <==> p !in d.platforms
    ensures forall q :: q != p ==> (q in r.platforms <==> q in d.platforms)
    ensures p in d.platforms ==> p !in r.links && forall q :: q != p && q in d.links ==> q in r.links && r.links[q] == d.links[q]
    ensures p !in d.platforms ==> r.links == d.links && r.platforms == d.platforms + [p]
    ensures Aligned(r)
    ensures r.(platforms := d.platforms, links := d.links, socialMedia := d.socialMedia) == d
  {
    if p in d.platforms then
      var updated := RemoveAll(d.platforms, p);
      var links := map q | q in d.links && q != p :: d.links[q];
      d.(platforms := updated, links := links, socialMedia := Pairs(updated, links))
    else
      var updated := d.platforms + [p];
      d.(platforms := updated, socialMedia := Pairs(updated, d.links))
  }

  /** A platform's link input: only that link changes, and `social_media` is rebuilt. */
  function ChangeLink(d: Draft, p: string, url: string): (r: Draft)
    ensures Url(r.links, p) == url
    ensures forall q :: q != p ==> Url(r.links, q) == Url(d.links, q)
    ensures Aligned(r)
    ensures r.(links := d.links, socialMedia := d.socialMedia) == d
  {
    var links := d.links[p := url];
    d.(links := links, socialMedia := Pairs(d.platforms, links))
  }

  /** Toggling a platform off drops its link: switched on again, it starts empty. */
  lemma ToggleOffForgetsLink(d: Draft, p: string)
    requires p in d.platforms
    ensures var r := TogglePlatform(TogglePlatform(d, p), p);
            p in r.platforms && Url(r.links, p) == ""
  {
  }

  /** A custom field's input. */
  function ChangeCustom(d: Draft, key: string, value: string): (r: Draft)
    ensures Get(r.custom, key) == Str(value)
    ensures forall k :: k != key ==> Get(r.custom, k) == Get(d.custom, k)
    ensures r.(custom := d.custom) == d
  {
    d.(custom := SetField(d.custom, key, Str(value)))
  }

  /** `user.email || ''` on the stored user. */
  function StoredText(user: Value, k: string): string {
    var v := if user.Obj? then Get(user.fields, k) else Undefined;
    if Truthy(v) then ToJsString(v) else ""
  }

  /** "Même que le déclarant": checking it copies the stored user's email, phone and
      name into the contact fields; unchecking only clears the box. */
  function SameAsDeclarant(d: Draft, checked: bool, user: Value): (r: Draft)
    ensures r.sameAsDeclarant == checked
    ensures !checked ==> r == d.(sameAsDeclarant := false)
    ensures checked ==> "contact_email" in r.text && "contact_phone" in r.text && "person_name" in r.text &&
                        r.text["contact_email"] == StoredText(user, "email") &&
                        r.text["contact_phone"] == StoredText(user, "phone") &&
                        r.text["person_name"] == StoredText(user, "name")
    ensures forall k :: k !in {"contact_email", "contact_phone", "person_name"} ==>
              (k in r.text <==> k in d.text) && (k in d.text ==> r.text[k] == d.text[k])
    ensures r.(text := d.text, sameAsDeclarant := d.sameAsDeclarant) == d
  {
    if !checked then d.(sameAsDeclarant := false)
    else
      d.(sameAsDeclarant := true,
         text := d.text["contact_email" := StoredText(user, "email")]
                       ["contact_phone" := StoredText(user, "phone")]
                       ["person_name" := StoredText(user, "name")])
  }

  /** Everything the user can do to the form before submitting it. */
  datatype Event =
    | TextInput(name: string, value: string)
    | FilesInput(files: seq<LocalFile>)
    | ActivityBox(value: string, checked: bool)
    | VideoInput(index: nat, value: string)
    | AddVideo
    | PlatformBox(platform: string)
    | LinkInput(platform: string, url: string)
    | CustomInput(key: string, value: string)
    | DeclarantBox(checked: bool, user: Value)

  /** Video inputs are rendered from the list, so their index is always in range. */
  predicate Possible(d: Draft, e: Event) {
    e.VideoInput? ==> e.index < |d.videoLinks|
  }

  function Step(d: Draft, e: Event): Draft
    requires Possible(d, e)
  {
    match e
    case TextInput(name, value) => ChangeText(d, name, value)
    case FilesInput(files) => ChooseFiles(d, files)
    case ActivityBox(value, checked) => CheckActivity(d, value, checked)
    case VideoInput(index, value) => ChangeVideo(d, index, value)
    case AddVideo => AddVideoField(d)
    case PlatformBox(p) => TogglePlatform(d, p)
    case LinkInput(p, url) => ChangeLink(d, p, url)
    case CustomInput(key, value) => ChangeCustom(d, key, value)
    case DeclarantBox(checked, user) => SameAsDeclarant(d, checked, user)
  }

  /** No event breaks the state's invariant: never more than five photos or five
      video inputs, and `social_media` always mirrors the chosen platforms. */
  lemma StepKeepsConsistent(d: Draft, e: Event)
    requires Consistent(d) && Possible(d, e)
    ensures Consistent(Step(d, e))
  {
    if e.PlatformBox? {
      ToggleKeepsNoDup(d.platforms, e.platform);
    }
  }

  /** The form after the user's events, in order. An event the page cannot produce
      (a video input that is not rendered) leaves the form as it is. */
  function Run(d: Draft, es: seq<Event>): Draft
    decreases |es|
  {
    if |es| == 0 then d
    else if Possible(d, es[0]) then Run(Step(d, es[0]), es[1..])
    else Run(d, es[1..])
  }

  /** The invariant holds after any sequence of events. */
  lemma {:induction false} EventsKeepConsistent(d: Draft, es: seq<Event>)
    requires Consistent(d)
    ensures Consistent(Run(d, es))
    decreases |es|
  {
    if |es| > 0 {
      if Possible(d, es[0]) {
        StepKeepsConsistent(d, es[0]);
        EventsKeepConsistent(Step(d, es[0]), es[1..]);
      } else {
        EventsKeepConsistent(d, es[1..]);
      }
    }
  }

  /** Every form the user can reach from the empty one is consistent. */
  lemma ReachableIsConsistent(es: seq<Event>)
    ensures Consistent(Run(Initial(), es))
  {
    InitialIsConsistent();
    EventsKeepConsistent(Initial(), es);
  }

  /** No handler removes a text entry. */
  lemma StepKeepsTexts(d: Draft, e: Event)
    requires Possible(d, e)
    ensures forall k :: k in d.text ==> k in Step(d, e).text
  {
  }

  /** Every form reachable from the empty one still has all its text inputs, so its
      payload sends each of them. */
  lemma {:induction false} ReachableHasTexts(d: Draft, es: seq<Event>)
    requires forall k :: k in TextKeys ==> k in d.text
    ensures forall k :: k in TextKeys ==> k in Run(d, es).text
    decreases |es|
  {
    if |es| > 0 {
      if Possible(d, es[0]) {
        StepKeepsTexts(d, es[0]);
        ReachableHasTexts(Step(d, es[0]), es[1..]);
      } else {
        ReachableHasTexts(d, es[1..]);
      }
    }
  }

  /** `data.append(key, formData[key])` for a text entry. */
  function Field(d: Draft, k: string): FormValue {
    if k in d.text then One(d.text[k]) else Absent
  }

  /** The entry sent for text key `k` is the typed text, once, and nothing when the
      form has no such key. */
  predicate Carries(d: Draft, k: string, v: FormValue) {
    (k in d.text ==> v == One(d.text[k])) && (k !in d.text ==> v.Absent?)
  }

  function SocialValue(pairs: seq<(string, string)>): (v: Value)
    ensures v.Arr? && |v.items| == |pairs|
  {
    Arr(seq(|pairs|, i requires 0 <= i < |pairs| =>
      Obj([("platform", Str(pairs[i].0)), ("url", Str(pairs[i].1))])))
  }

  /** The multipart body: one entry per text field, one per activity and per video,
      the social links and custom values as JSON. */
  function Payload(d: Draft, codec: Codec): (f: CreateForm)
    ensures ScalarFields(f)
    ensures Carries(d, "initiative", f.initiative) && Carries(d, "description", f.description) &&
            Carries(d, "village", f.village) && Carries(d, "commune", f.commune) &&
            Carries(d, "zone_intervention", f.zoneIntervention) && Carries(d, "actor_type", f.actorType) &&
            Carries(d, "year", f.year) && Carries(d, "lat", f.lat) && Carries(d, "lon", f.lon) &&
            Carries(d, "contact_email", f.contactEmail) && Carries(d, "contact_phone", f.contactPhone) &&
            Carries(d, "person_name", f.personName) && Carries(d, "website", f.website)
    ensures ActivitiesOf(f.activities) == d.activities <==> d.activities != [""]
    ensures f.socialMedia == One(codec.stringify(SocialValue(d.socialMedia)))
    ensures f.extraFields == One(codec.stringify(Obj(d.custom)))
  {
    ActivitiesRoundTrip(d.activities);
    CreateForm(
      Field(d, "initiative"), Field(d, "description"), Field(d, "village"), Field(d, "commune"),
      Field(d, "zone_intervention"), Field(d, "actor_type"), Field(d, "year"),
      Entries(d.activities), Field(d, "lat"), Field(d, "lon"),
      Field(d, "contact_email"), Field(d, "contact_phone"), Field(d, "person_name"), Field(d, "website"),
      One(codec.stringify(SocialValue(d.socialMedia))),
      Entries(d.videos),
      One(codec.stringify(Obj(d.custom))))
  }

  datatype Request = Request(header: string, form: CreateForm, files: seq<LocalFile>)

  datatype Submission = Submission(sent: Option<Request>, after: Draft)

  /** `handleSubmit`: without a stored token nothing is sent and nothing changes;
      otherwise the request goes out, and only its success resets the form. */
  function Submit(d: Draft, token: Option<string>, succeeded: bool, codec: Codec): (r: Submission)
    ensures r.sent.None? <==> token.None? || token.value == ""
    ensures r.sent.None? ==> r.after == d
    ensures r.sent.Some? ==> r.sent.value == Request("Bearer " + token.value, Payload(d, codec), d.photos)
    ensures r.sent.Some? && succeeded ==> r.after == Initial()
    ensures !succeeded ==> r.after == d
  {
    if token.None? || token.value == "" then Submission(None, d)
    else
      var req := Request("Bearer " + token.value, Payload(d, codec), d.photos);
      Submission(Some(req), if succeeded then Initial() else d)
  }

  /** The submitted header carries the stored token to the middleware. */
  lemma SubmittedHeaderAuthenticates(t: string, verify: Verifier)
    requires t != "" && ' ' !in t && verify(t).Some?
    ensures Authenticate(Some("Bearer " + t), verify) == Pass(verify(t).value)
  {
    BearerTokenOfScheme("Bearer", t, "");
    assert "Bearer " + t == "Bearer" + " " + t;
  }

  /** What the server does with a submitted form: the caller's token authenticates
      them, and the stored row is pending, theirs, and holds the chosen activities
      (and videos) unless the single entry is the empty one. */
  lemma SubmittedDraftIsStoredPending(db: Db, d: Draft, t: string, verify: Verifier, files: seq<Upload>,
                                      codec: Codec, parseFloat: FloatParser, now: int)
    requires t != "" && ' ' !in t
    requires verify(t).Some? && HasId(verify(t).value) && Known(db, verify(t).value)
    requires UploadsAccepted(files)
    ensures var req := Submit(d, Some(t), true, codec).sent.value;
            var r := Create(db, Some(req.header), verify, files, req.form, codec, parseFloat, now);
            var n := |db.initiatives|;
            r.code == 201 && |r.db.initiatives| == n + 1 &&
            r.db.initiatives[n].status == Pending &&
            Some(r.db.initiatives[n].userId) == verify(t).value.id &&
            (d.activities != [""] ==> r.db.initiatives[n].content.activities == codec.stringify(StrArr(d.activities))) &&
            (!(|d.videos| == 1 && Trim(d.videos[0]) == "") ==>
               r.db.initiatives[n].content.videos == Some(codec.stringify(StrArr(d.videos)))) &&
            ("initiative" in d.text ==> r.db.initiatives[n].content.initiative == Some(d.text["initiative"])) &&
            ("description" in d.text ==> r.db.initiatives[n].content.description == Some(d.text["description"]))
  {
    var form := Payload(d, codec);
    SubmittedHeaderAuthenticates(t, verify);
    var r := CreateAs(db, verify(t).value, files, form, codec, parseFloat, now);
    assert r.code == 201;
    VideosRoundTrip(d.videos);
    assert form.videos == Entries(d.videos);
  }
}

=== FILE: js_values.dfy ===
/** Loosely typed JavaScript values, as they travel through request bodies,
    JSON columns and local storage. Numbers are modelled as integers. */
module JsValues {
  import opened Options
  import opened Text

  datatype Value =
    | Undefined
    | Null
    | Bool(b: bool)
    | Num(n: int)
    | Str(s: string)
    | Arr(items: seq<Value>)
    | Obj(fields: seq<(string, Value)>)

  /** JavaScript truthiness (`if (v)`, `v || w`, `!v`). */
  predicate Truthy(v: Value) {
    match v
    case Undefined => false
    case Null => false
    case Bool(b) => b
    case Num(n) => n != 0
    case Str(s) => s != ""
    case Arr(_) => true
    case Obj(_) => true
  }

  /** `JSON.parse` and `JSON.stringify`, left uninterpreted: `parse` answers
      `None` where `JSON.parse` throws. */
  datatype Codec = Codec(parse: string -> Option<Value>, stringify: Value -> string)

  function DigitString(d: nat): string
    requires d < 10
  {
    ["0123456789"[d]]
  }

  function NatToString(n: nat): (r: string)
    ensures |r| >= 1
    ensures forall i :: 0 <= i < |r| ==> IsDigit(r[i])
  {
    if n < 10 then DigitString(n) else NatToString(n / 10) + DigitString(n % 10)
  }

  /** Decimal text of an integer, as `String(n)` prints it. */
  function IntToString(n: int): string {
    if n < 0 then "-" + NatToString(-n) else NatToString(n)
  }

  /** `String(v)`: the conversion used by template literals, `join` and `toString`. */
  function ToJsString(v: Value): string
    decreases v, 1
  {
    match v
    case Undefined => "undefined"
    case Null => "null"
    case Bool(b) => if b then "true" else "false"
    case Num(n) => IntToString(n)
    case Str(s) => s
    case Arr(items) => Join(seq(|items|, i requires 0 <= i < |items| => ElementString(items[i])), ",")
    case Obj(_) => "[object Object]"
  }

  /** How `Array.prototype.join` prints one element: `null` and `undefined` become empty. */
  function ElementString(v: Value): string
    decreases v, 2
  {
    if v.Undefined? || v.Null? then "" else ToJsString(v)
  }

  /** Property lookup `o[k]`; with duplicate keys the last one wins, as after `JSON.parse`. */
  function Get(fields: seq<(string, Value)>, k: string): (v: Value)
    ensures v != Undefined ==> exists i :: 0 <= i < |fields| && fields[i] == (k, v)
  {
    if |fields| == 0 then Undefined
    else if fields[|fields| - 1].0 == k then fields[|fields| - 1].1
    else Get(fields[..|fields| - 1], k)
  }

  /** An array of strings. */
  function StrArr(xs: seq<string>): (v: Value)
    ensures v.Arr? && |v.items| == |xs|
    ensures forall i :: 0 <= i < |xs| ==> v.items[i] == Str(xs[i])
  {
    Arr(seq(|xs|, i requires 0 <= i < |xs| => Str(xs[i])))
  }
}

=== FILE: options.dfy ===
/** The optional value used wherever the original code has `null`/`undefined`
    or a query that may find no row. */
module Options {

  datatype Option<+T> = None | Some(value: T) {

    /** The value, or `default` when absent (JavaScript's `x || default` on a present value). */
    function GetOr(default: T): T {
      match this
      case Some(v) => v
      case None => default
    }
  }
}

=== FILE: register_page.dfy ===
/** The sign-up page: the checks it makes before calling `POST /api/auth/register`,
    the message it shows, and when it switches to the "registered" screen. */
module RegisterPage {
  import opened Options
  import opened Text
  import opened JsValues
  import opened EmailRule
  import opened Store
  import opened Accounts

  datatype SignUp = SignUp(
    email: string, confirmEmail: string, password: string, confirmPassword: string,
    name: string, surname: string, phone: string, organization: string)

  const EmailMismatch := "Les adresses e-mail ne correspondent pas."
  const PasswordMismatch := "Les mots de passe ne correspondent pas."
  const BadEmail := "L'adresse email n'est pas valide."
  const WeakPassword := "Le mot de passe doit contenir au moins 8 caractères et un chiffre."
  const Unexpected := "Erreur inattendue. Veuillez réessayer plus tard."

  /** `password.length >= 8 && /\d/.test(password)`. */
  predicate StrongPassword(pw: string) {
    |pw| >= 8 && exists i :: 0 <= i < |pw| && IsDigit(pw[i])
  }

  /** The checks of `handleRegister`, in order; the first failure's message. */
  function Refusal(f: SignUp): (r: Option<string>)
    ensures r.None? <==>
              f.email == f.confirmEmail && f.password == f.confirmPassword &&
              Matches(f.email) && StrongPassword(f.password)
    ensures f.email != f.confirmEmail ==> r == Some(EmailMismatch)
    ensures f.email == f.confirmEmail && f.password != f.confirmPassword ==> r == Some(PasswordMismatch)
    ensures f.email == f.confirmEmail && f.password == f.confirmPassword && !Matches(f.email) ==>
              r == Some(BadEmail)
    ensures (f.email == f.confirmEmail && f.password == f.confirmPassword && Matches(f.email) &&
             !StrongPassword(f.password)) ==> r == Some(WeakPassword)
  {
    if f.email != f.confirmEmail then Some(EmailMismatch)
    else if f.password != f.confirmPassword then Some(PasswordMismatch)
    else if !Matches(f.email) then Some(BadEmail)
    else if !StrongPassword(f.password) then Some(WeakPassword)
    else None
  }

  /** The JSON body of the request: the six fields, as typed. */
  function Body(f: SignUp): (g: Registration)
    ensures g.email == Some(f.email) && g.password == Some(f.password)
    ensures g.organization == Some(f.organization)
  {
    Registration(Some(f.email), Some(f.password), Some(f.name), Some(f.surname), Some(f.phone), Some(f.organization))
  }

  /** `o?.k` on a response body: a property of an object, `undefined` otherwise. */
  function Prop(v: Value, k: string): Value {
    if v.Obj? then Get(v.fields, k) else Undefined
  }

  /** `error.response?.data?.error || error.response?.data?.message || <generic>`. */
  function FailureMessage(data: Option<Value>): (m: Value)
    ensures Truthy(m)
    ensures data.Some? && Truthy(Prop(data.value, "error")) ==> m == Prop(data.value, "error")
    ensures data.Some? && !Truthy(Prop(data.value, "error")) && Truthy(Prop(data.value, "message")) ==>
              m == Prop(data.value, "message")
    ensures data.None? ==> m == Str(Unexpected)
  {
    var msg := if data.None? then Undefined
               else if Truthy(Prop(data.value, "error")) then Prop(data.value, "error")
               else Prop(data.value, "message");
    if Truthy(msg) then msg else Str(Unexpected)
  }

  /** What the request ends with: success, or a failure with or without a response body. */
  datatype Outcome = Succeeded | Failed(data: Option<Value>)

  datatype Page = Page(registered: bool, error: Value)

  datatype Attempt = Attempt(sent: Option<Registration>, page: Page)

  /** `handleRegister`: a refused form sends nothing and shows its message; otherwise
      the body is sent, and the page shows the confirmation only on success. */
  function Submit(f: SignUp, before: Page, outcome: Outcome): (r: Attempt)
    ensures r.sent.Some? <==> Refusal(f).None?
    ensures r.sent.Some? ==> r.sent.value == Body(f)
    ensures Refusal(f).Some? ==> r.page == before.(error := Str(Refusal(f).value))
    ensures r.page.registered <==> before.registered || (Refusal(f).None? && outcome.Succeeded?)
    ensures Refusal(f).None? && outcome.Failed? ==> r.page.error == FailureMessage(outcome.data)
  {
    match Refusal(f)
    case Some(m) => Attempt(None, before.(error := Str(m)))
    case None =>
      match outcome
      case Succeeded => Attempt(Some(Body(f)), Page(true, Str("")))
      case Failed(data) => Attempt(Some(Body(f)), before.(error := FailureMessage(data)))
  }

  /** A form the page lets through passes the server's pattern, so with every field
      filled and the address unused, the server creates the account. */
  lemma AcceptedFormRegisters(db: Db, f: SignUp, hash: Hasher, now: int)
    requires Refusal(f).None?
    requires f.name != "" && f.surname != "" && f.phone != "" && f.organization != ""
    requires !EmailTaken(db.users, f.email)
    ensures Register(db, Body(f), hash, now).code == 201
  {
    assert f.email != "";
    assert f.password != "";
  }

  /** The page and the server apply the same address pattern: an address the page
      would refuse as invalid is refused by the server too. */
  lemma BadEmailRefusedByServer(db: Db, f: SignUp, hash: Hasher, now: int)
    requires Refusal(f) == Some(BadEmail)
    ensures Register(db, Body(f), hash, now).code == 400
  {
  }
}

=== FILE: seqs.dfy ===
/** Sequence helpers shared by the server routes and the client components:
    order-preserving filtering, occurrence counts, and the remove-or-append
    toggle used by every multi-select in the user interface. */
module Seqs {

  /** `a` can be obtained from `b` by deleting elements, keeping the order. */
  predicate Subsequence<T(==,!new)>(a: seq<T>, b: seq<T>)
    decreases |b|
  {
    |a| == 0 ||
    (|b| > 0 && ((a[0] == b[0] && Subsequence(a[1..], b[1..])) || Subsequence(a, b[1..])))
  }

  predicate NoDup<T(==,!new)>(s: seq<T>) {
    forall i, j :: 0 <= i < j < |s| ==> s[i] != s[j]
  }

  /** `Array.prototype.filter`: the elements satisfying `p`, in their original order. */
  function Filter<T(==,!new)>(s: seq<T>, p: T -> bool): (r: seq<T>)
    ensures |r| <= |s|
    ensures forall x :: x in r <==> x in s && p(x)
    ensures Subsequence(r, s)
    ensures (forall i :: 0 <= i < |s| ==> p(s[i])) ==> r == s
  {
    if |s| == 0 then []
    else if p(s[0]) then [s[0]] + Filter(s[1..], p)
    else Filter(s[1..], p)
  }

  /** Number of occurrences of `x` in `s`. */
  function Count<T(==,!new)>(s: seq<T>, x: T): nat {
    if |s| == 0 then 0 else (if s[0] == x then 1 else 0) + Count(s[1..], x)
  }

  lemma {:induction false} CountAppend<T(!new)>(a: seq<T>, b: seq<T>, x: T)
    ensures Count(a + b, x) == Count(a, x) + Count(b, x)
  {
    if |a| == 0 {
      assert a + b == b;
    } else {
      assert (a + b)[1..] == a[1..] + b;
      CountAppend(a[1..], b, x);
    }
  }

  /** Every occurrence of `x` removed: `s.filter(y => y !== x)`. */
  function RemoveAll<T(==,!new)>(s: seq<T>, x: T): (r: seq<T>)
    ensures x !in r
    ensures forall y :: y != x ==> (y in r <==> y in s)
    ensures Subsequence(r, s)
    ensures x !in s ==> r == s
  {
    Filter(s, y => y != x)
  }

  /** The multi-select toggle: remove `x` if it is selected, append it otherwise. */
  function Toggle<T(==,!new)>(s: seq<T>, x: T): (r: seq<T>)
    ensures x in r <==> x !in s
    ensures forall y :: y != x ==> (y in r <==> y in s)
  {
    if x in s then RemoveAll(s, x) else s + [x]
  }

  lemma {:induction false} ToggleKeepsNoDup<T(!new)>(s: seq<T>, x: T)
    requires NoDup(s)
    ensures NoDup(Toggle(s, x))
  {
    if x in s {
      FilterKeepsNoDup(s, y => y != x);
    }
  }

  lemma {:induction false} FilterKeepsNoDup<T(!new)>(s: seq<T>, p: T -> bool)
    requires NoDup(s)
    ensures NoDup(Filter(s, p))
    decreases |s|
  {
    if |s| > 0 {
      FilterKeepsNoDup(s[1..], p);
    }
  }

  /** Toggling an unselected key twice gives back the original selection, element for element. */
  lemma ToggleTwiceAbsent<T(!new)>(s: seq<T>, x: T)
    requires x !in s
    ensures Toggle(Toggle(s, x), x) == s
  {
    RemoveAppended(s, x);
  }

  lemma {:induction false} RemoveAppended<T(!new)>(s: seq<T>, x: T)
    requires x !in s
    ensures RemoveAll(s + [x], x) == s
    decreases |s|
  {
    if |s| == 0 {
      assert [x][1..] == [];
    } else {
      assert (s + [x])[1..] == s[1..] + [x];
      RemoveAppended(s[1..], x);
    }
  }

  /** Toggling a key selected exactly once twice keeps the same selection as a set:
      the key only moves to the end. */
  lemma ToggleTwicePresent<T(!new)>(s: seq<T>, x: T)
    requires NoDup(s) && x in s
    ensures forall y :: y in Toggle(Toggle(s, x), x) <==> y in s
    ensures NoDup(Toggle(Toggle(s, x), x))
  {
    ToggleKeepsNoDup(s, x);
    ToggleKeepsNoDup(Toggle(s, x), x);
  }

  function Sum(s: seq<nat>): nat {
    if |s| == 0 then 0 else s[0] + Sum(s[1..])
  }

  /** Position of the first occurrence of `x` in `s`. */
  function IndexOf<T(==,!new)>(s: seq<T>, x: T): (i: nat)
    requires x in s
    ensures i < |s| && s[i] == x
    ensures forall j :: 0 <= j < i ==> s[j] != x
  {
    if s[0] == x then 0 else 1 + IndexOf(s[1..], x)
  }

  /** A relation that holds between every earlier and every later element. */
  predicate Pairwise<T>(s: seq<T>, rel: (T, T) -> bool) {
    forall i, j :: 0 <= i < j < |s| ==> rel(s[i], s[j])
  }

  lemma {:induction false} FilterPairwise<T(!new)>(s: seq<T>, p: T -> bool, rel: (T, T) -> bool)
    requires Pairwise(s, rel)
    ensures Pairwise(Filter(s, p), rel)
    decreases |s|
  {
    if |s| > 0 {
      FilterPairwise(s[1..], p, rel);
      var rest := Filter(s[1..], p);
      forall x | x in rest ensures rel(s[0], x) {
        var k :| 0 <= k < |s[1..]| && s[1..][k] == x;
        assert s[k + 1] == x;
      }
    }
  }

  /** The distinct elements of `s` in order of first appearance:
      `Array.from(new Set(s))`. */
  function Dedup<T(==,!new)>(s: seq<T>): (r: seq<T>)
    ensures NoDup(r)
    ensures forall x :: x in r <==> x in s
    decreases |s|
  {
    if |s| == 0 then []
    else
      var n := |s| - 1;
      var d := Dedup(s[..n]);
      assert s == s[..n] + [s[n]];
      if s[n] in d then d else d + [s[n]]
  }

  lemma {:induction false} IndexOfExtend<T(!new)>(s: seq<T>, x: T, y: T)
    requires y in s + [x]
    ensures IndexOf(s + [x], y) == (if y in s then IndexOf(s, y) else |s|)
    decreases |s|
  {
    if |s| > 0 && s[0] != y {
      assert (s + [x])[1..] == s[1..] + [x];
      IndexOfExtend(s[1..], x, y);
    }
  }

  /** `Dedup` lists the elements in the order in which they first appear. */
  lemma {:induction false} DedupFirstSeenOrder<T(!new)>(s: seq<T>)
    ensures forall i, j :: 0 <= i < j < |Dedup(s)| ==> IndexOf(s, Dedup(s)[i]) < IndexOf(s, Dedup(s)[j])
    decreases |s|
  {
    if |s| > 0 {
      var n := |s| - 1;
      var p := s[..n];
      assert s == p + [s[n]];
      DedupFirstSeenOrder(p);
      var d := Dedup(p);
      forall y | y in d ensures IndexOf(s, y) == IndexOf(p, y) && IndexOf(p, y) < n {
        IndexOfExtend(p, s[n], y);
      }
      if s[n] !in d {
        IndexOfExtend(p, s[n], s[n]);
      }
    }
  }

  /** The loop a `Set` performs: each element is added unless already seen. */
  method Distinct<T(==,!new)>(s: seq<T>) returns (r: seq<T>)
    ensures r == Dedup(s)
    ensures NoDup(r)
    ensures forall x :: x in r <==> x in s
  {
    r := [];
    var seen: set<T> := {};
    for i := 0 to |s|
      invariant r == Dedup(s[..i])
      invariant forall x :: x in seen <==> x in r
    {
      assert s[..i + 1][..i] == s[..i];
      if s[i] !in seen {
        r := r + [s[i]];
        seen := seen + {s[i]};
      }
    }
    assert s[..|s|] == s;
  }
}

=== FILE: sidebar.dfy ===
/** The map page's side panel: the colour dot of the selected initiative and,
    when nothing is selected, the pie chart of the points by actor type. */
module Sidebar {
  import opened Options
  import opened Text
  import opened JsValues
  import opened Tally
  import opened ClientValues
  import opened FilterControls
  import opened Carto

  const Grey := "bg-gray-400"
  const Green := "bg-green-500"
  const Orange := "bg-orange-500"
  const Blue := "bg-blue-500"
  const Purple := "bg-purple-500"
  const Yellow := "bg-yellow-400"

  /** `colorForActivity`: the first keyword the lower-cased activity contains decides,
      in the order production, transformation, formation, gouver, commerce. */
  function ColorForActivity(a: Value): (c: string)
    ensures !Truthy(a) ==> c == Grey
    ensures c == Green <==> Truthy(a) && Contains(Lowered(a), "production")
    ensures c == Orange <==> Truthy(a) && !Contains(Lowered(a), "production") && Contains(Lowered(a), "transformation")
    ensures c == Blue <==> Truthy(a) && !Contains(Lowered(a), "production") && !Contains(Lowered(a), "transformation")
                           && Contains(Lowered(a), "formation")
    ensures c == Purple <==> (Truthy(a) && !Contains(Lowered(a), "production") && !Contains(Lowered(a), "transformation")
                              && !Contains(Lowered(a), "formation") && Contains(Lowered(a), "gouver"))
    ensures c == Yellow <==> (Truthy(a) && !Contains(Lowered(a), "production") && !Contains(Lowered(a), "transformation")
                              && !Contains(Lowered(a), "formation") && !Contains(Lowered(a), "gouver")
                              && Contains(Lowered(a), "commerce"))
    ensures c == Grey <==> (!Truthy(a) || (!Contains(Lowered(a), "production") && !Contains(Lowered(a), "transformation")
                                           && !Contains(Lowered(a), "formation") && !Contains(Lowered(a), "gouver")
                                           && !Contains(Lowered(a), "commerce")))
    ensures c in {Grey, Green, Orange, Blue, Purple, Yellow}
  {
    if !Truthy(a) then Grey
    else
      var key := Lowered(a);
      if Contains(key, "production") then Green
      else if Contains(key, "transformation") then Orange
      else if Contains(key, "formation") then Blue
      else if Contains(key, "gouver") then Purple
      else if Contains(key, "commerce") then Yellow
      else Grey
  }

  /** Every "transformation" is also a "formation"; the order of the tests is what
      keeps transformation activities orange. */
  lemma TransformationContainsFormation(key: string)
    requires Contains(key, "transformation")
    ensures Contains(key, "formation")
  {
    assert "transformation"[5..] == "formation";
    ContainsInfix("trans", "formation", "", "formation") by {
      ContainsSelf("formation");
    }
    assert "trans" + "formation" + "" == "transformation";
    ContainsTransitive(key, "transformation", "formation");
  }

  /** The activity key `commercialisation` offered by the filter panel does not
      contain "commerce", so its dot is grey. */
  lemma CommercialisationIsGrey()
    ensures ColorForActivity(Str("commercialisation")) == Grey
  {
    var key := "commercialisation";
    assert Lowered(Str(key)) == key;
    NoEarlierKeyword(key);
    NoCommerce(key);
  }

  lemma NoEarlierKeyword(key: string)
    requires key == "commercialisation"
    ensures !Contains(key, "production") && !Contains(key, "transformation")
    ensures !Contains(key, "formation") && !Contains(key, "gouver")
  {
    MissingPair(key, "production");
    MissingPair(key, "transformation");
    MissingPair(key, "formation");
    MissingPair(key, "gouver");
  }

  lemma NoCommerce(key: string)
    requires key == "commercialisation"
    ensures !Contains(key, "commerce")
  {
    assert "commerce"[6..] == "ce";
    MissingPair(key, "ce");
    ContainsPart(key, "commerce", 6);
  }

  /** A word whose first two letters never follow each other in `hay` is not in it. */
  lemma MissingPair(hay: string, w: string)
    requires |w| >= 2
    requires forall i :: 0 <= i < |hay| - 1 ==> !(hay[i] == w[0] && hay[i + 1] == w[1])
    ensures !Contains(hay, w)
  {
    forall i | 0 <= i <= |hay| - |w| ensures !OccursAt(hay, w, i) {
      assert hay[i..i + |w|][0] == hay[i] && hay[i..i + |w|][1] == hay[i + 1];
    }
  }

  /** Whatever contains a word contains its tail. */
  lemma ContainsPart(hay: string, w: string, k: nat)
    requires k <= |w|
    ensures Contains(hay, w) ==> Contains(hay, w[k..])
  {
    if Contains(hay, w) {
      ContainsInfix(w[..k], w[k..], "", w[k..]) by {
        ContainsSelf(w[k..]);
      }
      assert w[..k] + w[k..] + "" == w;
      ContainsTransitive(hay, w, w[k..]);
    }
  }

  /** `formatLabel`: a falsy value is "Non renseigné", a non-string is printed, and a
      string is humanized. */
  function FormatLabel(v: Value): (r: string)
    ensures !Truthy(v) ==> r == Unspecified
    ensures Truthy(v) && !v.Str? ==> r == ToJsString(v)
    ensures v.Str? && v.s != "" ==> r == Humanize(v.s)
    ensures v.Str? && v.s != "" ==> |r| == |v.s| && '_' !in r
  {
    if !Truthy(v) then Unspecified
    else if !v.Str? then ToJsString(v)
    else Humanize(v.s)
  }

  /** The panel labels an actor type the way the filter list labels an activity:
      a string other than "other" in any casing is humanized alike by both. */
  lemma LabelsAgree(s: string)
    requires s != "" && Lower(s) != "other"
    ensures FormatLabel(Str(s)) == ActivityLabel(s)
    ensures FormatLabel(Str(s))[0] == UpperChar(if s[0] == '_' then ' ' else s[0])
  {
  }

  /** `v[0]`: the first element of an array or the first character of a string. */
  function First(v: Value): (r: Value)
    ensures v.Arr? && |v.items| > 0 ==> r == v.items[0]
    ensures !(v.Arr? && |v.items| > 0) && !(v.Str? && |v.s| > 0) ==> r == Undefined
  {
    if v.Arr? && |v.items| > 0 then v.items[0]
    else if v.Str? && |v.s| > 0 then Str([v.s[0]])
    else Undefined
  }

  /** `mainAct`: the selected point's first activity when it is truthy, `''` otherwise. */
  function MainActivity(item: Option<Item>): (r: Value)
    ensures item.None? ==> r == Str("")
    ensures item.Some? && Truthy(First(Get(item.value, "activities"))) ==> r == First(Get(item.value, "activities"))
    ensures !Truthy(r) ==> r == Str("")
  {
    if item.None? then Str("")
    else
      var acts := Get(item.value, "activities");
      if Truthy(acts) && Truthy(First(acts)) then First(acts) else Str("")
  }

  /** The dot of a point without activities, and of the overview, is grey. */
  lemma NoActivityIsGrey(item: Option<Item>)
    requires item.None? || !Truthy(First(Get(item.value, "activities")))
    ensures ColorForActivity(MainActivity(item)) == Grey
  {
  }

  /** One slice of the pie: its label, its count, where it starts and how much of
      the circle it takes, in percent. */
  datatype Segment = Segment(caption: string, value: nat, start: real, pct: real)

  function Pct(value: nat, total: nat): real {
    if total != 0 then (value as real / total as real) * 100.0 else 0.0
  }

  /** Slice `i + 1` starts where slice `i` ends. */
  predicate Abuts(r: seq<Segment>, i: nat)
    requires i + 1 < |r|
  {
    r[i + 1].start == r[i].start + r[i].pct
  }

  /** The slices from `start` on, each starting where the previous one ends. */
  function SegmentsFrom(t: Table<string>, total: nat, start: real): (r: seq<Segment>)
    ensures |r| == |t|
    ensures forall i :: 0 <= i < |t| ==>
              r[i].caption == FormatLabel(Str(t[i].0)) && r[i].value == t[i].1 && r[i].pct == Pct(t[i].1, total)
    ensures |t| > 0 ==> r[0].start == start
    ensures forall i :: 0 <= i < |t| - 1 ==> Abuts(r, i)
    decreases |t|
  {
    if |t| == 0 then []
    else
      var pct := Pct(t[0].1, total);
      var rest := SegmentsFrom(t[1..], total, start + pct);
      var r := [Segment(FormatLabel(Str(t[0].0)), t[0].1, start, pct)] + rest;
      forall i | 0 < i < |t| ensures r[i] == rest[i - 1] && t[i] == t[1..][i - 1] {
      }
      forall i | 0 <= i < |t| - 1 ensures Abuts(r, i) {
        if i > 0 {
          assert Abuts(rest, i - 1);
        }
      }
      r
  }

  /** `pieSegments` of the counts by actor type. */
  function PieSegments(actors: Table<string>): (r: seq<Segment>)
    ensures |r| == |actors|
    ensures |r| > 0 ==> r[0].start == 0.0
  {
    SegmentsFrom(actors, Total(actors), 0.0)
  }

  lemma PctScales(value: nat, total: nat)
    requires total > 0
    ensures Pct(value, total) == value as real * (100.0 / total as real)
  {
  }

  function SumPct(segs: seq<Segment>): real {
    if |segs| == 0 then 0.0 else segs[0].pct + SumPct(segs[1..])
  }

  /** The percentages of the counts, added up. */
  function PctTotal(t: Table<string>, total: nat): real {
    if |t| == 0 then 0.0 else Pct(t[0].1, total) + PctTotal(t[1..], total)
  }

  lemma {:induction false} SegmentsPct(t: Table<string>, total: nat, start: real)
    ensures SumPct(SegmentsFrom(t, total, start)) == PctTotal(t, total)
    decreases |t|
  {
    if |t| > 0 {
      var pct := Pct(t[0].1, total);
      SegmentsPct(t[1..], total, start + pct);
      assert SegmentsFrom(t, total, start)[1..] == SegmentsFrom(t[1..], total, start + pct);
    }
  }

  lemma {:induction false} PctTotalScales(t: Table<string>, total: nat)
    requires total > 0
    ensures PctTotal(t, total) == Total(t) as real * (100.0 / total as real)
    decreases |t|
  {
    if |t| > 0 {
      PctTotalScales(t[1..], total);
      PctScales(t[0].1, total);
      assert Total(t) == t[0].1 + Total(t[1..]);
      Distribute(t[0].1 as real, Total(t[1..]) as real, 100.0 / total as real);
    }
  }

  lemma Distribute(a: real, b: real, k: real)
    ensures a * k + b * k == (a + b) * k
  {
  }

  /** The pie closes: when some point is counted, the slices add up to 100 percent. */
  lemma PieCloses(actors: Table<string>)
    requires Total(actors) > 0
    ensures SumPct(PieSegments(actors)) == 100.0
  {
    SegmentsPct(actors, Total(actors), 0.0);
    PctTotalScales(actors, Total(actors));
    var n := Total(actors) as real;
    assert n * (100.0 / n) == 100.0;
  }

  /** `actorTotal`, the sum of the counts, is the number of points the list shows. */
  lemma ActorTotalIsShownCount(shown: seq<Item>)
    ensures Total(Stats(shown).actors) == |shown|
    ensures |shown| > 0 ==> |PieSegments(Stats(shown).actors)| > 0
  {
  }
}

=== FILE: sorting.dfy ===
/** `Array.prototype.sort` with a comparator, modelled as a stable insertion
    sort, and the code-unit order JavaScript uses for `<` on strings. */
module Sorting {
  import opened Seqs

  /** `le(a, b)`: the comparator does not put `b` strictly before `a`. */
  ghost predicate TotalPreorder<T(!new)>(le: (T, T) -> bool) {
    (forall a, b :: le(a, b) || le(b, a)) &&
    (forall a, b, c :: le(a, b) && le(b, c) ==> le(a, c))
  }

  predicate SortedBy<T>(s: seq<T>, le: (T, T) -> bool) {
    forall i, j :: 0 <= i < j < |s| ==> le(s[i], s[j])
  }

  /** Inserts `x` before the first element it does not come after. */
  function Insert<T(==,!new)>(x: T, s: seq<T>, le: (T, T) -> bool): (r: seq<T>)
    ensures multiset(r) == multiset(s) + multiset{x}
    ensures TotalPreorder(le) && SortedBy(s, le) ==> SortedBy(r, le)
  {
    if |s| == 0 then [x]
    else if le(x, s[0]) then [x] + s
    else
      var rest := Insert(x, s[1..], le);
      assert TotalPreorder(le) && SortedBy(s, le) ==> SortedBy([s[0]] + rest, le) by {
        if TotalPreorder(le) && SortedBy(s, le) {
          InsertBehindHead(x, s, rest, le);
        }
      }
      assert s == [s[0]] + s[1..];
      [s[0]] + rest
  }

  /** When `x` goes after the head, the head still comes first: every element of the
      rest is `x` or came after the head already. */
  lemma InsertBehindHead<T(!new)>(x: T, s: seq<T>, rest: seq<T>, le: (T, T) -> bool)
    requires TotalPreorder(le) && SortedBy(s, le) && |s| > 0 && !le(x, s[0])
    requires multiset(rest) == multiset(s[1..]) + multiset{x} && SortedBy(rest, le)
    ensures SortedBy([s[0]] + rest, le)
  {
    forall k | 0 <= k < |rest| ensures le(s[0], rest[k]) {
      assert rest[k] in multiset(rest);
      if rest[k] != x {
        assert rest[k] in multiset(s[1..]);
        var m :| 0 <= m < |s[1..]| && s[1..][m] == rest[k];
        assert s[m + 1] == rest[k];
      }
    }
    var r := [s[0]] + rest;
    forall i, j | 0 <= i < j < |r| ensures le(r[i], r[j]) {
      if i > 0 {
        assert r[i] == rest[i - 1] && r[j] == rest[j - 1];
      } else {
        assert r[j] == rest[j - 1];
      }
    }
  }

  /** The elements that compare equal to `z`. */
  function Tied<T>(z: T, le: (T, T) -> bool): T -> bool {
    y => le(z, y) && le(y, z)
  }

  function Kept<T>(x: T, p: T -> bool): seq<T> {
    if p(x) then [x] else []
  }

  lemma FilterCons<T(!new)>(x: T, s: seq<T>, p: T -> bool)
    ensures Filter([x] + s, p) == Kept(x, p) + Filter(s, p)
  {
    assert ([x] + s)[1..] == s;
  }

  /** Inserting `x` puts it ahead of every element tied with it, so among the
      elements of one tie class it comes first. */
  lemma {:induction false} InsertTies<T(!new)>(x: T, t: seq<T>, le: (T, T) -> bool, z: T)
    requires TotalPreorder(le)
    ensures Filter(Insert(x, t, le), Tied(z, le)) == Kept(x, Tied(z, le)) + Filter(t, Tied(z, le))
    decreases |t|
  {
    var p := Tied(z, le);
    if |t| == 0 {
      FilterCons(x, [], p);
    } else if le(x, t[0]) {
      FilterCons(x, t, p);
    } else {
      var rest := Insert(x, t[1..], le);
      InsertTies(x, t[1..], le, z);
      FilterCons(t[0], rest, p);
      FilterCons(t[0], t[1..], p);
      assert t == [t[0]] + t[1..];
      assert !(p(x) && p(t[0]));
      assert Kept(t[0], p) + (Kept(x, p) + Filter(t[1..], p)) == Kept(x, p) + (Kept(t[0], p) + Filter(t[1..], p));
    }
  }

  /** The sorted permutation of `s`; elements that compare equal keep their order. */
  function Sort<T(==,!new)>(s: seq<T>, le: (T, T) -> bool): (r: seq<T>)
    ensures multiset(r) == multiset(s)
    ensures |r| == |s|
    ensures TotalPreorder(le) ==> SortedBy(r, le)
    ensures TotalPreorder(le) ==> forall z :: Filter(r, Tied(z, le)) == Filter(s, Tied(z, le))
  {
    if |s| == 0 then []
    else
      assert s == [s[0]] + s[1..];
      var rest := Sort(s[1..], le);
      assert TotalPreorder(le) ==> forall z :: Filter(Insert(s[0], rest, le), Tied(z, le)) == Filter(s, Tied(z, le)) by {
        if TotalPreorder(le) {
          forall z ensures Filter(Insert(s[0], rest, le), Tied(z, le)) == Filter(s, Tied(z, le)) {
            InsertTies(s[0], rest, le, z);
            FilterCons(s[0], s[1..], Tied(z, le));
          }
        }
      }
      Insert(s[0], rest, le)
  }

  /** JavaScript's `a <= b` on strings: lexicographic order of the characters. */
  predicate LexLe(a: string, b: string) {
    |a| == 0 || (|b| > 0 && (a[0] < b[0] || (a[0] == b[0] && LexLe(a[1..], b[1..]))))
  }

  lemma {:induction false} LexLeTotal(a: string, b: string)
    ensures LexLe(a, b) || LexLe(b, a)
    decreases |a|
  {
    if |a| > 0 && |b| > 0 && a[0] == b[0] {
      LexLeTotal(a[1..], b[1..]);
    }
  }

  lemma {:induction false} LexLeTransitive(a: string, b: string, c: string)
    requires LexLe(a, b) && LexLe(b, c)
    ensures LexLe(a, c)
    decreases |a|
  {
    if |a| > 0 && |b| > 0 && |c| > 0 && a[0] == b[0] && b[0] == c[0] {
      LexLeTransitive(a[1..], b[1..], c[1..]);
    }
  }

  lemma {:induction false} LexLeAntisymmetric(a: string, b: string)
    requires LexLe(a, b) && LexLe(b, a)
    ensures a == b
    decreases |a|
  {
    if |a| > 0 && |b| > 0 {
      LexLeAntisymmetric(a[1..], b[1..]);
      assert a == [a[0]] + a[1..] && b == [b[0]] + b[1..];
    }
  }

  /** Ordering by a string key, ascending or descending, is a total preorder. */
  lemma StringKeyPreorder<T(!new)>(le: (T, T) -> bool, key: T -> string, ascending: bool)
    requires forall x, y :: le(x, y) == if ascending then LexLe(key(x), key(y)) else LexLe(key(y), key(x))
    ensures TotalPreorder(le)
  {
    forall a, b ensures le(a, b) || le(b, a) {
      LexLeTotal(key(a), key(b));
    }
    forall a, b, c | le(a, b) && le(b, c) ensures le(a, c) {
      if ascending {
        LexLeTransitive(key(a), key(b), key(c));
      } else {
        LexLeTransitive(key(c), key(b), key(a));
      }
    }
  }

  /** Ordering by an integer key, ascending or descending, is a total preorder. */
  lemma IntKeyPreorder<T(!new)>(le: (T, T) -> bool, key: T -> int, ascending: bool)
    requires forall x, y :: le(x, y) == if ascending then key(x) <= key(y) else key(y) <= key(x)
    ensures TotalPreorder(le)
  {
  }
}

=== FILE: store.dfy ===
/** The relational store: the `users`, `initiatives`, `photos` and
    `custom_fields` tables, each a sequence of rows in insertion order.
    AUTO_INCREMENT is the `next...Id` counter. */
module Store {
  import opened Options
  import opened Seqs

  datatype Status = Pending | Approved | Rejected | DeleteRequested

  /** The text stored in the `status` column. */
  function StatusName(s: Status): string {
    match s
    case Pending => "pending"
    case Approved => "approved"
    case Rejected => "rejected"
    case DeleteRequested => "delete_requested"
  }

  lemma StatusNameInjective(a: Status, b: Status)
    ensures StatusName(a) == StatusName(b) <==> a == b
  {
  }

  /** The 17 content columns of an initiative: everything but id, status,
      created_at and user_id. JSON columns hold serialised text. */
  datatype Content = Content(
    initiative: Option<string>,
    description: Option<string>,
    village: Option<string>,
    commune: Option<string>,
    zoneIntervention: Option<string>,
    actorType: Option<string>,
    year: Option<int>,
    activities: string,
    lat: Option<real>,
    lon: Option<real>,
    contactEmail: Option<string>,
    contactPhone: Option<string>,
    personName: Option<string>,
    website: Option<string>,
    socialMedia: Option<string>,
    videos: Option<string>,
    extraFields: Option<string>)

  datatype Initiative = Initiative(id: nat, content: Content, status: Status, createdAt: int, userId: int)

  datatype Photo = Photo(initiativeId: nat, filename: string)

  datatype User = User(
    id: nat,
    email: string,
    password: string,
    role: string,
    name: string,
    surname: string,
    phone: string,
    organization: string,
    confirmed: bool,
    createdAt: int,
    lastLogin: Option<int>)

  /** A `custom_fields` row; NULL type or dytael is `None`. */
  datatype FieldDef = FieldDef(fieldKey: string, fieldLabel: string, fieldType: Option<string>, required: bool, dytael: Option<string>)

  datatype Db = Db(
    users: seq<User>,
    nextUserId: nat,
    initiatives: seq<Initiative>,
    nextInitiativeId: nat,
    photos: seq<Photo>,
    fields: seq<FieldDef>)

  /** Ids strictly increase along the table and stay below the AUTO_INCREMENT counter. */
  predicate InitiativeIdsOk(rows: seq<Initiative>, next: nat) {
    Pairwise(rows, (a: Initiative, b: Initiative) => a.id < b.id) &&
    forall i :: 0 <= i < |rows| ==> rows[i].id < next
  }

  predicate UserIdsOk(rows: seq<User>, next: nat) {
    Pairwise(rows, (a: User, b: User) => a.id < b.id) &&
    forall i :: 0 <= i < |rows| ==> rows[i].id < next
  }

  predicate Valid(db: Db) {
    InitiativeIdsOk(db.initiatives, db.nextInitiativeId) && UserIdsOk(db.users, db.nextUserId)
  }

  /** `SELECT ... WHERE id = ? LIMIT 1`: the first row whose key is `id`. */
  function FindBy<T>(rows: seq<T>, id: nat, key: T -> nat): (r: Option<T>)
    ensures r.Some? ==> r.value in rows && key(r.value) == id
    ensures r.None? ==> forall x :: x in rows ==> key(x) != id
  {
    if |rows| == 0 then None
    else if key(rows[0]) == id then Some(rows[0])
    else FindBy(rows[1..], id, key)
  }

  /** The lookup by id on the initiatives table. */
  function FindInitiative(rows: seq<Initiative>, id: nat): (r: Option<Initiative>)
    ensures r.Some? ==> r.value in rows && r.value.id == id
    ensures r.None? ==> forall x :: x in rows ==> x.id != id
  {
    FindBy(rows, id, (x: Initiative) => x.id)
  }

  /** The lookup by id on the users table. */
  function FindUser(rows: seq<User>, id: nat): (r: Option<User>)
    ensures r.Some? ==> r.value in rows && r.value.id == id
    ensures r.None? ==> forall x :: x in rows ==> x.id != id
  {
    FindBy(rows, id, (u: User) => u.id)
  }

  /** `UPDATE initiatives SET status = st WHERE <cond>`. */
  function SetStatusWhere(rows: seq<Initiative>, cond: Initiative -> bool, st: Status): (r: seq<Initiative>)
    ensures |r| == |rows|
    ensures forall i :: 0 <= i < |rows| ==> r[i] == (if cond(rows[i]) then rows[i].(status := st) else rows[i])
  {
    seq(|rows|, i requires 0 <= i < |rows| => if cond(rows[i]) then rows[i].(status := st) else rows[i])
  }

  lemma SetStatusKeepsIds(rows: seq<Initiative>, cond: Initiative -> bool, st: Status, next: nat)
    requires InitiativeIdsOk(rows, next)
    ensures InitiativeIdsOk(SetStatusWhere(rows, cond, st), next)
  {
  }

  /** `DELETE FROM initiatives WHERE <cond>` keeps the rows `keep` accepts, in id order. */
  lemma DeleteKeepsIds(rows: seq<Initiative>, keep: Initiative -> bool, next: nat)
    requires InitiativeIdsOk(rows, next)
    ensures InitiativeIdsOk(Filter(rows, keep), next)
  {
    FilterPairwise(rows, keep, (a: Initiative, b: Initiative) => a.id < b.id);
    var r := Filter(rows, keep);
    forall i | 0 <= i < |r| ensures r[i].id < next {
      assert r[i] in rows;
    }
  }

  lemma DeleteKeepsUserIds(rows: seq<User>, keep: User -> bool, next: nat)
    requires UserIdsOk(rows, next)
    ensures UserIdsOk(Filter(rows, keep), next)
  {
    FilterPairwise(rows, keep, (a: User, b: User) => a.id < b.id);
    var r := Filter(rows, keep);
    forall i | 0 <= i < |r| ensures r[i].id < next {
      assert r[i] in rows;
    }
  }

  /** An INSERT takes the AUTO_INCREMENT value as id and advances the counter. */
  lemma AppendKeepsIds(rows: seq<Initiative>, next: nat, row: Initiative)
    requires InitiativeIdsOk(rows, next) && row.id == next
    ensures InitiativeIdsOk(rows + [row], next + 1)
  {
    var r := rows + [row];
    forall i, j | 0 <= i < j < |r| ensures r[i].id < r[j].id {
      if j == |rows| {
        assert r[i] == rows[i];
      }
    }
  }

  lemma AppendKeepsUserIds(rows: seq<User>, next: nat, row: User)
    requires UserIdsOk(rows, next) && row.id == next
    ensures UserIdsOk(rows + [row], next + 1)
  {
    var r := rows + [row];
    forall i, j | 0 <= i < j < |r| ensures r[i].id < r[j].id {
      if j == |rows| {
        assert r[i] == rows[i];
      }
    }
  }
}

=== FILE: table_view.dfy ===
/** The table of approved initiatives: a search box over the row's text and
    activities, and a sortable column header. */
module TableView {
  import opened Seqs
  import opened Text
  import opened JsValues
  import opened Sorting
  import opened ClientValues
  import Carto

  /** `normalized`: activities and extra fields parsed as on the map page. */
  function Normalize(i: Item, codec: Codec): (r: Item)
    ensures Get(r, "activities") == ParseActivities(Get(i, "activities"), codec)
    ensures Get(r, "extra_fields") == ParseExtra(Get(i, "extra_fields"), codec)
    ensures forall k :: k != "activities" && k != "extra_fields" ==> Get(r, k) == Get(i, k)
  {
    var a := SetField(i, "activities", ParseActivities(Get(i, "activities"), codec));
    SetField(a, "extra_fields", ParseExtra(Get(i, "extra_fields"), codec))
  }

  /** The table's search ignores the extra fields. */
  predicate Matches(i: Item, term: string) {
    term == "" || Contains(Haystack(RowPieces(i)), term)
  }

  function MatchesFor(term: string): Item -> bool {
    (i: Item) => Matches(i, term)
  }

  /** `(v ?? '').toString().toLowerCase()` for the sorted column. */
  function SortText(i: Item, key: string): string {
    var v := Get(i, key);
    Lower(ToJsString(if v.Null? || v.Undefined? then Str("") else v))
  }

  function SortTextOf(key: string): Item -> string {
    (i: Item) => SortText(i, key)
  }

  /** The header's comparator: -1, 1 or 0 on the lower-cased texts, reversed for "desc";
      `a` may stay before `b` when the comparator does not answer 1. */
  function ColumnOrder(key: string, dir: string): (Item, Item) -> bool {
    (a: Item, b: Item) =>
      var va, vb := SortText(a, key), SortText(b, key);
      if dir == "asc" then LexLe(va, vb) else LexLe(vb, va)
  }

  lemma ColumnOrderIsPreorder(key: string, dir: string)
    ensures TotalPreorder(ColumnOrder(key, dir))
  {
    StringKeyPreorder(ColumnOrder(key, dir), SortTextOf(key), dir == "asc");
  }

  /** `filtered`: the rows matching the trimmed, lower-cased term, sorted on the
      column in the chosen direction. */
  function Shown(items: seq<Item>, search: string, key: string, dir: string): (r: seq<Item>)
    ensures forall i :: i in r <==> i in items && Matches(i, Carto.Term(search))
    ensures multiset(r) == multiset(Filter(items, MatchesFor(Carto.Term(search))))
    ensures SortedBy(r, ColumnOrder(key, dir))
    ensures Trim(search) == "" ==> multiset(r) == multiset(items)
  {
    var arr := Filter(items, MatchesFor(Carto.Term(search)));
    var r := Sort(arr, ColumnOrder(key, dir));
    ColumnOrderIsPreorder(key, dir);
    assert forall i :: i in r <==> i in arr by {
      forall i ensures i in r <==> i in arr {
        assert i in r <==> i in multiset(r);
        assert i in arr <==> i in multiset(arr);
      }
    }
    r
  }

  /** Ascending, two rows with different texts in the column come in text order. */
  lemma AscendingPutsSmallerFirst(items: seq<Item>, search: string, key: string, p: nat, q: nat)
    requires var r := Shown(items, search, key, "asc");
             p < |r| && q < |r| && LexLe(SortText(r[p], key), SortText(r[q], key)) &&
             SortText(r[p], key) != SortText(r[q], key)
    ensures p < q
  {
    var r := Shown(items, search, key, "asc");
    if q < p {
      assert ColumnOrder(key, "asc")(r[q], r[p]);
      LexLeAntisymmetric(SortText(r[p], key), SortText(r[q], key));
    } else if p == q {
    }
  }

  /** Every row the table's search finds, the map's search finds too: the map looks
      into the same text followed by the extra fields. */
  lemma TableHitIsMapHit(i: Item, term: string)
    requires Matches(i, term)
    ensures Carto.SearchOk(i, term)
  {
    if term != "" {
      HaystackGrows(RowPieces(i), Carto.EntryTexts(ObjectEntries(Get(i, "extra_fields"))), term);
    }
  }

  datatype SortState = SortState(key: string, dir: string)

  /** `toggleSort`: the current column flips direction, another column starts ascending. */
  function ToggleSort(s: SortState, key: string): (r: SortState)
    ensures r.key == key
    ensures key != s.key ==> r.dir == "asc"
    ensures key == s.key ==> (r.dir == "asc" <==> s.dir != "asc")
    ensures r.dir == "asc" || r.dir == "desc"
  {
    if key == s.key then s.(dir := if s.dir == "asc" then "desc" else "asc")
    else SortState(key, "asc")
  }

  /** Clicking the same header twice restores the order the table had. */
  lemma ToggleSortTwice(s: SortState, key: string)
    requires s.dir == "asc" || s.dir == "desc"
    ensures ToggleSort(ToggleSort(s, key), key) == (if key == s.key then s else SortState(key, "desc"))
  {
  }
}

=== FILE: tally.dfy ===
/** Counting into a JavaScript object used as a dictionary
    (`counts[k] = (counts[k] || 0) + 1`): a table of (key, count) entries in
    first-insertion order. */
module Tally {
  import opened Seqs

  type Table<K> = seq<(K, nat)>

  function Keys<K>(t: Table<K>): (ks: seq<K>)
    ensures |ks| == |t|
    ensures forall i :: 0 <= i < |t| ==> ks[i] == t[i].0
  {
    seq(|t|, i requires 0 <= i < |t| => t[i].0)
  }

  /** `counts[k] || 0`. */
  function Lookup<K(==)>(t: Table<K>, k: K): nat {
    if |t| == 0 then 0 else if t[0].0 == k then t[0].1 else Lookup(t[1..], k)
  }

  /** Sum of all counts, `Object.values(counts).reduce((a, b) => a + b, 0)`. */
  function Total<K>(t: Table<K>): nat {
    if |t| == 0 then 0 else t[0].1 + Total(t[1..])
  }

  /** One `counts[k] = (counts[k] || 0) + 1`. */
  function Bump<K(==,!new)>(t: Table<K>, k: K): (r: Table<K>)
    ensures Total(r) == Total(t) + 1
    ensures forall k' :: Lookup(r, k') == Lookup(t, k') + (if k' == k then 1 else 0)
  {
    if |t| == 0 then [(k, 1)]
    else if t[0].0 == k then [(k, t[0].1 + 1)] + t[1..]
    else [t[0]] + Bump(t[1..], k)
  }

  /** `Bump` adds a key only when it is new, so keys stay unique. */
  lemma BumpKeys<K(!new)>(t: Table<K>, k: K)
    ensures forall k' :: k' in Keys(Bump(t, k)) <==> k' in Keys(t) || k' == k
    ensures NoDup(Keys(t)) ==> NoDup(Keys(Bump(t, k)))
  {
    BumpKeysShape(t, k);
    if k !in Keys(t) && NoDup(Keys(t)) {
      NoDupSnoc(Keys(t), k);
    }
  }

  /** The keys after a bump: unchanged for a known key, the new key appended otherwise. */
  lemma {:induction false} BumpKeysShape<K(!new)>(t: Table<K>, k: K)
    ensures Keys(Bump(t, k)) == if k in Keys(t) then Keys(t) else Keys(t) + [k]
  {
    if |t| > 0 {
      var tail := Keys(t[1..]);
      assert Keys(t) == [t[0].0] + tail;
      if t[0].0 == k {
        assert k in Keys(t);
        assert Keys(Bump(t, k)) == Keys(t);
      } else {
        BumpKeysShape(t[1..], k);
        assert Keys(Bump(t, k)) == [t[0].0] + Keys(Bump(t[1..], k));
        assert k in Keys(t) <==> k in tail;
        if k !in tail {
          assert [t[0].0] + (tail + [k]) == Keys(t) + [k];
        }
      }
    }
  }

  lemma NoDupSnoc<K(!new)>(s: seq<K>, x: K)
    requires x !in s && NoDup(s)
    ensures NoDup(s + [x])
  {
    var r := s + [x];
    forall i, j | 0 <= i < j < |r| ensures r[i] != r[j] {
      assert r[i] == s[i];
      if j == |s| {
        assert r[j] == x;
      } else {
        assert r[j] == s[j];
      }
    }
  }

  /** Counts every element of `s` into `t`, left to right. */
  function TallyFrom<K(==,!new)>(t: Table<K>, s: seq<K>): (r: Table<K>)
    ensures Total(r) == Total(t) + |s|
    ensures forall k :: Lookup(r, k) == Lookup(t, k) + Count(s, k)
    ensures forall k :: k in Keys(r) <==> k in Keys(t) || k in s
    ensures NoDup(Keys(t)) ==> NoDup(Keys(r))
    decreases |s|
  {
    if |s| == 0 then t
    else
      BumpKeys(t, s[0]);
      assert s == [s[0]] + s[1..];
      TallyFrom(Bump(t, s[0]), s[1..])
  }

  /** Counting from an empty object. */
  function TallyOf<K(==,!new)>(s: seq<K>): (r: Table<K>)
    ensures Total(r) == |s|
    ensures forall k :: Lookup(r, k) == Count(s, k)
    ensures forall k :: k in Keys(r) <==> k in s
    ensures NoDup(Keys(r))
  {
    TallyFrom([], s)
  }

  /** A key whose every entry holds 0 is looked up as 0. */
  lemma {:induction false} LookupZero<K(!new)>(t: Table<K>, k: K)
    requires forall i :: 0 <= i < |t| && t[i].0 == k ==> t[i].1 == 0
    ensures Lookup(t, k) == 0
    decreases |t|
  {
    if |t| > 0 && t[0].0 != k {
      LookupZero(t[1..], k);
    }
  }
}

=== FILE: text.dfy ===
/** String operations of JavaScript and Python that the modelled code relies on:
    whitespace classes, `trim`/`strip`, ASCII case mapping, substring search,
    `split` on one character and `join`. Strings are sequences of code points. */
module Text {
  import opened Seqs

  /** ECMAScript WhiteSpace and LineTerminator code points: what `\s` matches
      and what `String.prototype.trim` removes. */
  predicate IsJsSpace(c: char) {
    c == ' ' || c == '\t' || c == '\n' || c == '\r' || c == '\U{000B}' || c == '\U{000C}' ||
    c == '\U{00A0}' || c == '\U{1680}' || ('\U{2000}' <= c <= '\U{200A}') ||
    c == '\U{2028}' || c == '\U{2029}' || c == '\U{202F}' || c == '\U{205F}' ||
    c == '\U{3000}' || c == '\U{FEFF}'
  }

  /** Python's `str.isspace`, which `str.strip()` removes. */
  predicate IsPySpace(c: char) {
    c == ' ' || ('\t' <= c <= '\r') || ('\U{001C}' <= c <= '\U{001F}') ||
    c == '\U{0085}' || c == '\U{00A0}' || c == '\U{1680}' || ('\U{2000}' <= c <= '\U{200A}') ||
    c == '\U{2028}' || c == '\U{2029}' || c == '\U{202F}' || c == '\U{205F}' || c == '\U{3000}'
  }

  /** `\d` in a JavaScript regular expression. */
  predicate IsDigit(c: char) {
    '0' <= c <= '9'
  }

  function StripStart(s: string, sp: char -> bool): (r: string)
    ensures |r| <= |s| && r == s[|s| - |r|..]
    ensures forall i :: 0 <= i < |s| - |r| ==> sp(s[i])
    ensures |r| > 0 ==> !sp(r[0])
  {
    if |s| > 0 && sp(s[0]) then StripStart(s[1..], sp) else s
  }

  function StripEnd(s: string, sp: char -> bool): (r: string)
    ensures |r| <= |s| && r == s[..|r|]
    ensures forall i :: |r| <= i < |s| ==> sp(s[i])
    ensures |r| > 0 ==> !sp(r[|r| - 1])
  {
    if |s| > 0 && sp(s[|s| - 1]) then StripEnd(s[..|s| - 1], sp) else s
  }

  /** Removes the leading and trailing characters of class `sp`. */
  function Strip(s: string, sp: char -> bool): (r: string)
    ensures |r| <= |s|
    ensures |r| > 0 ==> !sp(r[0]) && !sp(r[|r| - 1])
    ensures r == [] <==> forall i :: 0 <= i < |s| ==> sp(s[i])
  {
    StripEnd(StripStart(s, sp), sp)
  }

  /** A string that `Strip` leaves as it is. */
  predicate Stripped(s: string, sp: char -> bool) {
    |s| == 0 || (!sp(s[0]) && !sp(s[|s| - 1]))
  }

  lemma StripStripped(s: string, sp: char -> bool)
    requires Stripped(s, sp)
    ensures Strip(s, sp) == s
  {
  }

  /** Leading characters of the class do not change the stripped result. */
  lemma StripPadded(pad: string, s: string, sp: char -> bool)
    requires forall i :: 0 <= i < |pad| ==> sp(pad[i])
    ensures Strip(pad + s, sp) == Strip(s, sp)
  {
    StripStartPadded(pad, s, sp);
  }

  lemma {:induction false} StripStartPadded(pad: string, s: string, sp: char -> bool)
    requires forall i :: 0 <= i < |pad| ==> sp(pad[i])
    ensures StripStart(pad + s, sp) == StripStart(s, sp)
    decreases |pad|
  {
    if |pad| > 0 {
      assert (pad + s)[0] == pad[0];
      assert (pad + s)[1..] == pad[1..] + s;
      StripStartPadded(pad[1..], s, sp);
    } else {
      assert pad + s == s;
    }
  }

  /** JavaScript's `String.prototype.trim`. */
  function Trim(s: string): string {
    Strip(s, IsJsSpace)
  }

  /** Python's `str.strip()` without arguments. */
  function PyStrip(s: string): string {
    Strip(s, IsPySpace)
  }

  function LowerChar(c: char): char {
    if 'A' <= c <= 'Z' then (c as int + 32) as char else c
  }

  function UpperChar(c: char): char {
    if 'a' <= c <= 'z' then (c as int - 32) as char else c
  }

  /** `toLowerCase`, restricted to the ASCII letters. */
  function Lower(s: string): (r: string)
    ensures |r| == |s|
    ensures forall i :: 0 <= i < |s| ==> r[i] == LowerChar(s[i])
  {
    seq(|s|, i requires 0 <= i < |s| => LowerChar(s[i]))
  }

  /** Every occurrence of `a` replaced by `b`: `s.replace(/a/g, b)` for one character. */
  function ReplaceChar(s: string, a: char, b: char): (r: string)
    ensures |r| == |s|
    ensures forall i :: 0 <= i < |s| ==> r[i] == (if s[i] == a then b else s[i])
  {
    seq(|s|, i requires 0 <= i < |s| => if s[i] == a then b else s[i])
  }

  predicate OccursAt(hay: string, needle: string, i: int) {
    0 <= i && i + |needle| <= |hay| && hay[i..i + |needle|] == needle
  }

  /** `hay.includes(needle)`. */
  predicate Contains(hay: string, needle: string) {
    exists i :: 0 <= i <= |hay| - |needle| && OccursAt(hay, needle, i)
  }

  lemma ContainsEmpty(hay: string)
    ensures Contains(hay, "")
  {
    assert OccursAt(hay, "", 0);
  }

  /** A needle found in one piece is found in any text that contains the piece. */
  lemma ContainsInfix(a: string, b: string, c: string, needle: string)
    requires Contains(b, needle)
    ensures Contains(a + b + c, needle)
  {
    var i :| 0 <= i <= |b| - |needle| && OccursAt(b, needle, i);
    assert (a + b + c)[|a| + i..|a| + i + |needle|] == b[i..i + |needle|];
    assert OccursAt(a + b + c, needle, |a| + i);
  }

  lemma ContainsSelf(s: string)
    ensures Contains(s, s)
  {
    assert OccursAt(s, s, 0);
  }

  lemma ContainsTransitive(a: string, b: string, needle: string)
    requires Contains(a, b) && Contains(b, needle)
    ensures Contains(a, needle)
  {
    var i :| 0 <= i <= |a| - |b| && OccursAt(a, b, i);
    var j :| 0 <= j <= |b| - |needle| && OccursAt(b, needle, j);
    forall k | 0 <= k < |needle| ensures a[i + j + k] == needle[k] {
      assert a[i..i + |b|][j + k] == b[j + k];
      assert b[j..j + |needle|][k] == b[j + k];
    }
    assert a[i + j..i + j + |needle|] == needle;
    assert OccursAt(a, needle, i + j);
  }

  /** Lower-casing works character by character, so it distributes over concatenation. */
  lemma LowerConcat(a: string, b: string, c: string)
    ensures Lower(a + b + c) == Lower(a) + Lower(b) + Lower(c)
  {
    var l, r := Lower(a + b + c), Lower(a) + Lower(b) + Lower(c);
    assert |l| == |r|;
    forall i | 0 <= i < |l| ensures l[i] == r[i] {
      if i < |a| {
      } else if i < |a| + |b| {
        assert (a + b + c)[i] == b[i - |a|];
      } else {
        assert (a + b + c)[i] == c[i - |a| - |b|];
      }
    }
  }

  /** `s.charAt(0).toUpperCase() + s.slice(1)`, with ASCII case mapping. */
  function Capitalize(s: string): (r: string)
    ensures |r| == |s|
    ensures |s| > 0 ==> r[0] == UpperChar(s[0]) && r[1..] == s[1..]
  {
    if |s| == 0 then "" else [UpperChar(s[0])] + s[1..]
  }

  /** `s.split(sep)` for a one-character separator: the maximal separator-free
      pieces, always at least one. */
  function Split(s: string, sep: char): (parts: seq<string>)
    ensures |parts| >= 1
    ensures forall p :: p in parts ==> sep !in p
  {
    if |s| == 0 then [""]
    else
      var rest := Split(s[1..], sep);
      if s[0] == sep then [""] + rest else [[s[0]] + rest[0]] + rest[1..]
  }

  /** `parts.join(sep)`. */
  function Join(parts: seq<string>, sep: string): string {
    if |parts| == 0 then ""
    else if |parts| == 1 then parts[0]
    else parts[0] + sep + Join(parts[1..], sep)
  }

  /** Every part of a join appears in it, surrounded by the rest. */
  lemma {:induction false} JoinPart(parts: seq<string>, sep: string, k: nat) returns (before: string, after: string)
    requires k < |parts|
    ensures Join(parts, sep) == before + parts[k] + after
    decreases |parts|
  {
    if |parts| == 1 {
      before, after := "", "";
    } else if k == 0 {
      before, after := "", sep + Join(parts[1..], sep);
    } else {
      var b, a := JoinPart(parts[1..], sep, k - 1);
      before, after := parts[0] + sep + b, a;
    }
  }

  lemma {:induction false} SplitAfter(a: string, sep: char, b: string)
    requires sep !in a
    ensures Split(a + [sep] + b, sep) == [a] + Split(b, sep)
    decreases |a|
  {
    if |a| == 0 {
      assert a + [sep] + b == [sep] + b;
      assert ([sep] + b)[1..] == b;
    } else {
      assert (a + [sep] + b)[1..] == a[1..] + [sep] + b;
      SplitAfter(a[1..], sep, b);
      assert [a[0]] + a[1..] == a;
    }
  }

  lemma {:induction false} SplitNoSep(a: string, sep: char)
    requires sep !in a
    ensures Split(a, sep) == [a]
    decreases |a|
  {
    if |a| > 0 {
      SplitNoSep(a[1..], sep);
      assert [a[0]] + a[1..] == a;
    }
  }

  /** `split` undoes `join` when no part contains the separator. */
  lemma {:induction false} SplitJoin(parts: seq<string>, sep: char)
    requires |parts| >= 1
    requires forall p :: p in parts ==> sep !in p
    ensures Split(Join(parts, [sep]), sep) == parts
    decreases |parts|
  {
    if |parts| == 1 {
      SplitNoSep(parts[0], sep);
    } else {
      SplitJoin(parts[1..], sep);
      SplitAfter(parts[0], sep, Join(parts[1..], [sep]));
      assert [parts[0]] + parts[1..] == parts;
    }
  }

  /** `join` undoes `split`. */
  lemma {:induction false} JoinSplit(s: string, sep: char)
    ensures Join(Split(s, sep), [sep]) == s
    decreases |s|
  {
    if |s| > 0 {
      JoinSplit(s[1..], sep);
      var rest := Split(s[1..], sep);
      if s[0] == sep {
        assert Split(s, sep) == [""] + rest;
        assert ([""] + rest)[1..] == rest;
        assert [s[0]] + s[1..] == s;
      } else {
        var parts := Split(s, sep);
        assert parts == [[s[0]] + rest[0]] + rest[1..];
        if |rest| == 1 {
          assert [s[0]] + s[1..] == s;
        } else {
          assert parts[1..] == rest[1..];
          assert Join(rest, [sep]) == rest[0] + [sep] + Join(rest[1..], [sep]);
          assert [s[0]] + s[1..] == s;
        }
      }
    }
  }

  /** Every part stripped of the characters of class `sp`. */
  function StripEach(parts: seq<string>, sp: char -> bool): (r: seq<string>)
    ensures |r| == |parts|
    ensures forall i :: 0 <= i < |parts| ==> r[i] == Strip(parts[i], sp)
  {
    seq(|parts|, i requires 0 <= i < |parts| => Strip(parts[i], sp))
  }

  /** `s.split(sep)` with every part stripped. */
  function SplitStrip(s: string, sep: char, sp: char -> bool): (r: seq<string>)
    ensures |r| >= 1
    ensures forall p :: p in r ==> sep !in p && Stripped(p, sp)
  {
    var parts := Split(s, sep);
    var r := StripEach(parts, sp);
    forall p | p in r ensures sep !in p && Stripped(p, sp) {
      var i :| 0 <= i < |r| && r[i] == p;
      StripIsInfix(parts[i], sp);
    }
    r
  }

  /** `s.split(sep).map(p => p.trim())`. */
  function SplitTrim(s: string, sep: char): (r: seq<string>)
    ensures |r| >= 1
    ensures forall p :: p in r ==> sep !in p && Stripped(p, IsJsSpace)
  {
    SplitStrip(s, sep, IsJsSpace)
  }

  /** Stripping only removes characters from the ends. */
  lemma StripIsInfix(s: string, sp: char -> bool)
    ensures forall c :: c in Strip(s, sp) ==> c in s
    ensures Stripped(Strip(s, sp), sp)
  {
    var a := StripStart(s, sp);
    var r := StripEnd(a, sp);
    assert forall c :: c in r ==> c in a;
    assert forall c :: c in a ==> c in s;
  }

  lemma NoSepConcat(a: string, b: string, sep: char)
    requires sep !in a && sep !in b
    ensures sep !in a + b
  {
    assert forall c :: c in a + b ==> c in a || c in b;
  }

  lemma StripEachCons(a: string, rest: seq<string>, sp: char -> bool)
    ensures StripEach([a] + rest, sp) == [Strip(a, sp)] + StripEach(rest, sp)
  {
  }

  lemma ConcatRegroup(a: string, b: string, sep: char, pad: string, c: string)
    ensures a + (b + ([sep] + pad) + c) == (a + b) + [sep] + (pad + c)
  {
  }

  /** Parts that splitting on `sep` and stripping leave intact. */
  predicate Clean(parts: seq<string>, sep: char, sp: char -> bool) {
    forall p :: p in parts ==> sep !in p && Stripped(p, sp)
  }

  /** Text that stripping removes and that holds no separator. */
  predicate Blank(s: string, sep: char, sp: char -> bool) {
    forall i :: 0 <= i < |s| ==> sp(s[i]) && s[i] != sep
  }

  /** The first part, with blanks in front, holds no separator and strips back to itself. */
  lemma HeadIntact(parts: seq<string>, sep: char, sp: char -> bool, lead: string)
    requires |parts| >= 1 && Clean(parts, sep, sp) && Blank(lead, sep, sp)
    ensures sep !in lead + parts[0]
    ensures Strip(lead + parts[0], sp) == parts[0]
  {
    assert parts[0] in parts;
    assert sep !in lead;
    NoSepConcat(lead, parts[0], sep);
    StripPadded(lead, parts[0], sp);
    StripStripped(parts[0], sp);
  }

  /** Splitting on `sep` and stripping undoes joining with `sep` followed by blanks,
      when no part contains `sep` or has blanks at its ends; `lead` is blank text
      in front of the first part. */
  lemma {:induction false} SplitStripJoin(parts: seq<string>, sep: char, sp: char -> bool, pad: string, lead: string)
    requires |parts| >= 1 && Clean(parts, sep, sp) && Blank(pad, sep, sp) && Blank(lead, sep, sp)
    ensures SplitStrip(lead + Join(parts, [sep] + pad), sep, sp) == parts
    decreases |parts|
  {
    if |parts| == 1 {
      SplitStripJoinOne(parts, sep, sp, pad, lead);
    } else {
      CleanTail(parts, sep, sp);
      SplitStripJoin(parts[1..], sep, sp, pad, pad);
      SplitStripJoinStep(parts, sep, sp, pad, lead);
    }
  }

  lemma CleanTail(parts: seq<string>, sep: char, sp: char -> bool)
    requires |parts| >= 1 && Clean(parts, sep, sp)
    ensures Clean(parts[1..], sep, sp)
  {
    assert forall p :: p in parts[1..] ==> p in parts;
  }

  /** The base of the induction: a single part with blanks in front. */
  lemma SplitStripJoinOne(parts: seq<string>, sep: char, sp: char -> bool, pad: string, lead: string)
    requires |parts| == 1 && Clean(parts, sep, sp) && Blank(lead, sep, sp)
    ensures SplitStrip(lead + Join(parts, [sep] + pad), sep, sp) == parts
  {
    HeadIntact(parts, sep, sp, lead);
    assert Join(parts, [sep] + pad) == parts[0];
    SplitNoSep(lead + parts[0], sep);
  }

  /** The step of the induction: the first part splits off, and the rest is the
      same shape with `pad` in front. */
  lemma SplitStripJoinStep(parts: seq<string>, sep: char, sp: char -> bool, pad: string, lead: string)
    requires |parts| >= 2 && Clean(parts, sep, sp) && Blank(lead, sep, sp)
    requires SplitStrip(pad + Join(parts[1..], [sep] + pad), sep, sp) == parts[1..]
    ensures SplitStrip(lead + Join(parts, [sep] + pad), sep, sp) == parts
  {
    var head := lead + parts[0];
    HeadIntact(parts, sep, sp, lead);
    var rest := Join(parts[1..], [sep] + pad);
    assert Join(parts, [sep] + pad) == parts[0] + ([sep] + pad) + rest;
    ConcatRegroup(lead, parts[0], sep, pad, rest);
    SplitStripCons(head, parts[0], sep, sp, pad + rest, parts[1..]);
    assert [parts[0]] + parts[1..] == parts;
  }

  /** A first part free of the separator is split off and stripped on its own. */
  lemma SplitStripCons(head: string, first: string, sep: char, sp: char -> bool, tail: string, rest: seq<string>)
    requires sep !in head && Strip(head, sp) == first && SplitStrip(tail, sep, sp) == rest
    ensures SplitStrip(head + [sep] + tail, sep, sp) == [first] + rest
  {
    SplitAfter(head, sep, tail);
    StripEachCons(head, Split(tail, sep), sp);
  }

  /** A list joined with ", " splits back on ',' into the same parts once each part
      is stripped, when no part holds a comma or surrounding blanks. */
  lemma CommaSpaceRoundTrip(parts: seq<string>, sp: char -> bool)
    requires |parts| >= 1 && Clean(parts, ',', sp) && sp(' ')
    ensures SplitStrip(Join(parts, ", "), ',', sp) == parts
  {
    assert [','] + " " == ", ";
    assert "" + Join(parts, ", ") == Join(parts, ", ");
    SplitStripJoin(parts, ',', sp, " ", "");
  }
}

=== FILE: user_routes.dfy ===
/** The user administration routes mounted under `/api/users`. Every one of
    them sits behind `authenticateToken, requireRole('admin')`, and each
    answers 200 once the statement has run, whether or not a row matched. */
module UserAdmin {
  import opened Options
  import opened Seqs
  import opened AuthMiddleware
  import opened Store
  import opened Accounts

  function ViewOf(u: User): (v: UserView)
    ensures v.id == u.id && v.email == u.email && v.role == u.role && v.confirmed == u.confirmed
    ensures v.createdAt == u.createdAt && v.lastLogin == u.lastLogin
  {
    UserView(u.id, u.email, u.role, u.name, u.surname, u.phone, u.createdAt, u.lastLogin, u.confirmed)
  }

  /** `GET /api/users`: one row per account, in table order, without password or organization. */
  function ListUsers(db: Db, header: Option<string>, verify: Verifier): (r: AccountReply)
    ensures r.db == db
    ensures r.code == 200 <==> AdminGate(header, verify).Pass?
    ensures r.code != 200 ==> r.code == 401 || r.code == 403
    ensures r.code == 200 ==>
              r.body.Users? && |r.body.views| == |db.users| &&
              forall i :: 0 <= i < |db.users| ==> r.body.views[i] == ViewOf(db.users[i])
  {
    match AdminGate(header, verify)
    case Stop(code) => AccountReply(db, code, Nothing)
    case Pass(_) => AccountReply(db, 200, Users(seq(|db.users|, i requires 0 <= i < |db.users| => ViewOf(db.users[i]))))
  }

  /** The columns an admin edit writes. */
  datatype UserEdit = UserEdit(role: string, name: string, surname: string, phone: string, email: string, organization: string)

  function Apply(u: User, e: UserEdit): User {
    u.(role := e.role, name := e.name, surname := e.surname, phone := e.phone, email := e.email, organization := e.organization)
  }

  /** `PUT /api/users/:id`: the six edited columns of the row with that id are
      overwritten; its id, password, confirmation and dates are not touched. */
  function UpdateUser(db: Db, id: int, header: Option<string>, verify: Verifier, e: UserEdit): (r: AccountReply)
    ensures r.code == 200 <==> AdminGate(header, verify).Pass?
    ensures r.code != 200 ==> r.db == db
    ensures r.db.initiatives == db.initiatives && r.db.nextUserId == db.nextUserId
    ensures |r.db.users| == |db.users|
    ensures forall i :: 0 <= i < |db.users| ==>
              var (u, v) := (db.users[i], r.db.users[i]);
              v.id == u.id && v.password == u.password && v.confirmed == u.confirmed &&
              v.createdAt == u.createdAt && v.lastLogin == u.lastLogin &&
              (r.code == 200 && u.id == id ==>
                 v.role == e.role && v.name == e.name && v.surname == e.surname &&
                 v.phone == e.phone && v.email == e.email && v.organization == e.organization) &&
              (r.code != 200 || u.id != id ==> v == u)
  {
    match AdminGate(header, verify)
    case Stop(code) => AccountReply(db, code, Nothing)
    case Pass(_) =>
      var users := seq(|db.users|, i requires 0 <= i < |db.users| =>
                         if db.users[i].id == id then Apply(db.users[i], e) else db.users[i]);
      AccountReply(db.(users := users), 200, Nothing)
  }

  /** `PATCH /api/users/:id/confirm`. */
  function ConfirmUser(db: Db, id: int, header: Option<string>, verify: Verifier): (r: AccountReply)
    ensures r.code == 200 <==> AdminGate(header, verify).Pass?
    ensures r.code != 200 ==> r.db == db
    ensures r.code == 200 ==> r.db == db.(users := ConfirmWhere(db.users, Some(id)))
    ensures |r.db.users| == |db.users|
    ensures r.code == 200 ==> forall i :: 0 <= i < |db.users| && db.users[i].id == id ==> r.db.users[i].confirmed
  {
    match AdminGate(header, verify)
    case Stop(code) => AccountReply(db, code, Nothing)
    case Pass(_) => AccountReply(db.(users := ConfirmWhere(db.users, Some(id))), 200, Nothing)
  }

  lemma ConfirmUserIdempotent(db: Db, id: int, header: Option<string>, verify: Verifier)
    ensures var once := ConfirmUser(db, id, header, verify);
            ConfirmUser(once.db, id, header, verify) == once
  {
    ConfirmWhereIdempotent(db.users, Some(id));
  }

  function OtherId(id: int): User -> bool {
    (u: User) => u.id != id
  }

  /** `DELETE /api/users/:id`: the row with that id goes and every other row stays, in order. */
  function DeleteUser(db: Db, id: int, header: Option<string>, verify: Verifier): (r: AccountReply)
    ensures r.code == 200 <==> AdminGate(header, verify).Pass?
    ensures r.code != 200 ==> r.db == db
    ensures r.db.initiatives == db.initiatives
    ensures r.code == 200 ==>
              Subsequence(r.db.users, db.users) &&
              forall u :: u in r.db.users <==> u in db.users && u.id != id
  {
    match AdminGate(header, verify)
    case Stop(code) => AccountReply(db, code, Nothing)
    case Pass(_) => AccountReply(db.(users := Filter(db.users, OtherId(id))), 200, Nothing)
  }

  lemma DeleteUserKeepsValid(db: Db, id: int, header: Option<string>, verify: Verifier)
    requires Valid(db)
    ensures Valid(DeleteUser(db, id, header, verify).db)
  {
    DeleteKeepsUserIds(db.users, OtherId(id), db.nextUserId);
  }
}
